=== FILE: README.md ===
# Stemma: the genealogical index and the layers above it

Stemma keeps family trees ("stemmas"): people, and families that join up to two parents
with any number of children. This project models, in Dafny, the pure logic the web
clients build from a tree, and proves what that logic promises.

- **The index.** It is rebuilt from a tree in three versions: the editor's
  (`frontend/src/stemmaIndex.ts`), the older viewer's (`client/src/stemmaIndex.ts`) and
  the first prototype (`client/src/generation.ts`).
  - Each groups the families into two multimaps: parent to children and child to parents.
  - For every person it runs two queue-driven walks, one towards ancestors and one towards
    descendants. These give the person's lineage: a generation number, the relatives
    reached and the families touched.
  - Queries sit on top: `lineage`, `relativies`, `relatedFamilies`, `marriages`,
    `uncleFamilies`, `namesakes`, `person`/`get` and `maxGeneration`.
- **Highlight and selection.**
  - The highlight stack of lineages and families decides what the chart draws in full
    colour.
  - The selector algebra (no-op, OR-composition, explicit sets, lineage) answers which
    people and families are selected.
- **The chart's data.** Nodes and lines built from the tree; the node-id encoding
  (`normalizeId`/`denormalizeId`); and the rule that decides a line's colour, width and
  arrow.
- **Small rules.**
  - The ordered mapping from a server error to a message key.
  - `{word}` placeholder interpolation and the translation fallback.
  - The initial locale, the choice of the tree to open, request-payload sanitising and
    the editable-people filter.
- **Preference stores.** The pinned-people store and the settings store, over an
  abstract key-value store.

## Layout

| file | module | what it holds |
|---|---|---|
| `wrappers.dfy` | `Wrappers` | `Option` |
| `seqs.dfy` | `Seqs` | `filter`, `map`, `flatMap`, `Set` of a list, and their laws |
| `model.dfy` | `Model` | people, families, trees, lineage records; the acyclicity ranking |
| `grouping.dfy` | `Grouping` | `groupByKey` and `new Map(pairs)` (last value wins) |
| `directory.dfy` | `Directory` | the id and name lookups both indexes keep |
| `walk.dfy` | `Walk` | the queue-driven walk, proved against a depth-first reference trace |
| `frontend_index.dfy` | `FrontendIndex` | the editor's index |
| `client_index.dfy` | `ClientIndex` | the viewer's index, and how it differs from the editor's |
| `prototype.dfy` | `Prototype` | the prototype, as written and corrected |
| `jj_family.dfy` | `JJFamily` | the "JJ family" tree of the tests |
| `jj_lineages.dfy` | `JJLineages` | the relatives and families the tests expect on the JJ family |
| `masha_family.dfy` | `MashaFamily` | the two small trees of the index's tests about Masha |
| `highlight.dfy` | `Highlight` | `HighlightAll` and the lineage stack |
| `selection.dfy` | `Selection` | the selector algebra |
| `graph_tools.dfy` | `GraphTools` | chart nodes and lines, id encoding, line style |
| `i18n.dfy` | `I18n` | locales, interpolation, lookup, the error messages |
| `error_mapping.dfy` | `ErrorMapping` | server error to localized error |
| `storage.dfy` | `Storage` | pinned people and settings |
| `app_rules.dfy` | `AppRules` | tree to open, payload sanitising, editable people |

## Modelling decisions

- **Termination.** The walks have no visited set. They end only because a tree has no
  cycle. Every walk therefore takes a ghost ranking of people under which each parent
  ranks strictly below each of its children (`Model.Acyclic`). The ranking is a proof
  device and is never computed.
- **The walk.**
  - Each index's `computeLineage` loop is proved equal, list for list, to a reference
    depth-first preorder (`Walk.Trace`).
  - At set level it is proved equal to the closure definitions: `Walk.Reach` (the people
    reached), `Walk.Fams` (the families recorded) and `Walk.Height` (the longest chain).
- **Sets and maps.** A JavaScript `Set` of a list is the list without repeats, first
  occurrences kept (`Seqs.Distinct`). `new Map(pairs)` keeps the last value of each key
  (`Grouping.LastWins`). A `Set` that is only queried is a Dafny `set`.
- **Undefined.**
  - `Map.prototype.get` on a missing key is `None`.
  - `Math.max()` over no generations (-Infinity) is `None`.
- **Which index the highlight uses.** The highlight stack calls `family`, `marriages`
  and `uncleFamilies`, which only the editor's index has. It is therefore modelled over
  `FrontendIndex`.
- **Stateful classes.** The highlight stack and the two stores are immutable values.
  Each mutating method returns the next value; `return this` chaining is the returned
  value. The browser store is a Dafny `map` from keys to `Stored` values. Each `Stored`
  value stands for the JSON text the class writes.
- **The pinned-people object before `load`.** The constructor sets only the key, so
  until `load` runs, `add`, `remove`, `allPinned` and `isPinned` throw a TypeError. The
  object is `Storage.Unloaded` until then, and each of those operations gives `None` on
  it.
- **The test trees.**
  - The index's tests and the prototype's tests draw the same JJ family. The index's
    test names people "1" to "9" and families "1" to "5". The prototype's test names
    people by their names and families "f1" to "f5".
  - Ids are only compared for equality, so one copy is modelled, with the index test's
    ids (`JJFamily.Tree`). The prototype's expected relatives are read under that
    renaming.
- **Where the code and its description differ, the code is followed.**
  - An empty composition of selectors selects nothing: the fold starts from the no-op
    selector.
  - A settings store's value type is a type parameter, because the settings record and
    `DEFAULT_SETTINGS` (`client/src/model.ts`) are not part of this model.

## Model

| member | source | states |
|---|---|---|
| Grouping.GroupByKey | frontend/src/stemmaIndex.ts:38-48 | the keys of the grouped map are exactly the keys that occur, and each key's bucket is non-empty and holds that key's values in input order |
| Grouping.GroupByKeyMembership | frontend/src/stemmaIndex.ts:38-48 | value v is in key k's bucket exactly when the pair (k, v) occurs |
| Grouping.LastWins | client/src/generation.ts:16-26 | `new Map(pairs)` has an entry for exactly the keys that occur |
| Grouping.LastWinsValue | client/src/generation.ts:16-26 | the value kept for a key is the one of its last occurrence |
| Grouping.LastWinsAppend | frontend/src/stemmaIndex.ts:66-68 | setting the entries of a then of b: a key of b keeps its value in b, any other key its value in a |
| Directory.Get | frontend/src/stemmaIndex.ts:165-167 | a lookup finds a person exactly when the id is a key of `_people` |
| Directory.NamesakesSpec | frontend/src/stemmaIndex.ts:161-163 | `namesakes(n)` is the lookup of each person named n, in input order; an unused name gives the empty list |
| Directory.PeopleByIdSpec | frontend/src/stemmaIndex.ts:67 | `_people` has an entry exactly for the ids some person carries, and each entry is the last person in the list carrying its key |
| Directory.PeopleByIdUnique | frontend/src/stemmaIndex.ts:67 | with distinct ids every person is its own entry of `_people` |
| Directory.NamesakesUnique | frontend/src/stemmaIndex.ts:161-163 | with distinct ids `namesakes(n)` is exactly the people named n, in input order |
| Walk.Explore | frontend/src/stemmaIndex.ts:72-100 | the loop's relatives list is the depth-first preorder reversed and its families list the matching recorded ids; as sets they are the people reached and the families recorded at them, and `maxDepth` is the longest chain |
| Walk.ReachStep | frontend/src/stemmaIndex.ts:78-92 | a walk reaches its start and, transitively, everything the start's members reach, and nothing else |
| Walk.HeightStep | frontend/src/stemmaIndex.ts:82-86 | the depth is 0 without an entry; otherwise it is above every member's and exactly one above the highest member's (or 1) |
| Walk.ReachUnfold | frontend/src/stemmaIndex.ts:78-92 | a walk from a person with no entry reaches only that person, and from one with members reaches the person and what each member reaches |
| Walk.FamsMembership | frontend/src/stemmaIndex.ts:88 | a family is recorded exactly when it is recorded at some reached person |
| Walk.ReachSameSteps | client/src/stemmaIndex.ts:42-50 | two relations with the same steps reach the same people, however their entries are grouped |
| Walk.HeightWithinRank | client/src/stemmaIndex.ts:70-75 | when no entry is empty the depth never exceeds the start's rank |
| Walk.BuildLineage | frontend/src/stemmaIndex.ts:102-113 | the generation is the ancestor walk's depth, the relatives and families the union of both walks', and the person is among its relatives |
| Walk.MaxOf | frontend/src/stemmaIndex.ts:69 | `Math.max` over no values is None; otherwise it is one of the values and no value exceeds it |
| Walk.BuildLineages | frontend/src/stemmaIndex.ts:68-69 | the lineage table has exactly the people's ids as keys, each mapped to its two walks; the maximum generation is None exactly for no people, and otherwise is attained by some person and bounds all |
| FrontendIndex.TableEntries | frontend/src/stemmaIndex.ts:51-59 | a person's entries are exactly the families that have the person on the table's side, each seen from that side, including families whose other side is empty |
| FrontendIndex.TableKeys | frontend/src/stemmaIndex.ts:51-59 | a person has an entry exactly when some family has the person on the table's side |
| FrontendIndex.SuccEdges | frontend/src/stemmaIndex.ts:87 | the walk moves from k to m exactly when some family has k on the table's side and m on the other |
| FrontendIndex.TouchedEntries | frontend/src/stemmaIndex.ts:88 | family id is recorded at k exactly when a family with that id has k on the table's side and someone on the other |
| FrontendIndex.AncestorsStep | frontend/src/stemmaIndex.ts:104 | a person's ancestors are the person and every ancestor of its parents |
| FrontendIndex.DescendantsStep | frontend/src/stemmaIndex.ts:103 | a person's descendants are the person and every descendant of its children; the two directions never mix, so a co-parent is not reached |
| FrontendIndex.LineageParts | frontend/src/stemmaIndex.ts:102-113 | a lineage's generation is the ancestor depth, its relatives the ancestors and descendants, its families both walks' families, and it contains the person |
| FrontendIndex.GenerationPositive | frontend/src/stemmaIndex.ts:82-86 | the generation is positive exactly for a child of some family, a family without parents included |
| FrontendIndex.GenerationAboveParents | frontend/src/stemmaIndex.ts:106 | a person's generation is above each of its parents' |
| FrontendIndex.GenerationTight | frontend/src/stemmaIndex.ts:106 | a generation above 1 is exactly one more than some parent's: descendants never raise it |
| FrontendIndex.AncestorFamiliesSpec | frontend/src/stemmaIndex.ts:88 | the ancestor walk records exactly the families with parents in which some ancestor is a child |
| FrontendIndex.DescendantFamiliesSpec | frontend/src/stemmaIndex.ts:88 | the descendant walk records exactly the families with children in which some descendant is a parent |
| FrontendIndex.Build | frontend/src/stemmaIndex.ts:50-70 | the constructor builds the grouped tables, the lookups, the lineage of every person and the maximum generation |
| FrontendIndex.BuildLineageTable | frontend/src/stemmaIndex.ts:68-69 | every person id maps to its lineage, and the maximum generation is attained and bounds all, or is None for no people |
| FrontendIndex.LineageSpec | frontend/src/stemmaIndex.ts:115-117 | a known person's lineage is its two walks; an unknown id gets generation 0 and no relatives or families |
| FrontendIndex.FamilySpec | frontend/src/stemmaIndex.ts:119-121 | a family id is found exactly when some family has it, and what is found is the last family in the tree with that id |
| FrontendIndex.PersonSpec | frontend/src/stemmaIndex.ts:165-167 | an id is found exactly when some person has it, and what is found is the last person in the tree with that id |
| FrontendIndex.Relativies | frontend/src/stemmaIndex.ts:123-133 | the relatives list has no repeats |
| FrontendIndex.RelativiesSpec | frontend/src/stemmaIndex.ts:123-133 | the relatives listed are the lookups of the person and of everyone sharing a family with it, spouses and siblings included |
| FrontendIndex.RelatedFamiliesSpec | frontend/src/stemmaIndex.ts:135-143 | the related families are first those the person parents, then those it is a child of, each with the family's own parents and children |
| FrontendIndex.RelatedFamiliesListed | frontend/src/stemmaIndex.ts:135-143 | the list is every family of the tree listing the person as a parent, in tree order and once per listing, then every family listing it as a child, each described with its own parents and children; the non-empty filter drops none |
| FrontendIndex.RelatedInTreeOrder | frontend/src/stemmaIndex.ts:135-143 | a parent of two families gets both, in tree order, with the co-parent kept |
| FrontendIndex.RelativiesListed | frontend/src/stemmaIndex.ts:123-133 | the list is the first occurrence of each lookup of everyone in the families listing the person as a parent, then in those listing it as a child, each family in tree order with its other side before its own, then the person |
| FrontendIndex.MarriagesSpec | frontend/src/stemmaIndex.ts:145-155 | the marriages among a set are the ids, in tree order, of the families with at least two parents, all of them in the set |
| FrontendIndex.UncleFamiliesSpec | frontend/src/stemmaIndex.ts:149-159 | the uncle families of a set are the ids, in tree order, of the families with at least two children in the set |
| FrontendIndex.NamesakesOfSpec | frontend/src/stemmaIndex.ts:161-163 | `namesakes(n)` is the lookup of each person named n, in input order |
| ClientIndex.TableEntries | client/src/stemmaIndex.ts:42-50 | a person's entries are exactly the families that have the person on the table's side and someone on the other |
| ClientIndex.SuccEdges | client/src/stemmaIndex.ts:42-50 | the walk moves from k to m exactly when some family has k on the table's side and m on the other |
| ClientIndex.SuccKeys | client/src/stemmaIndex.ts:42-50 | a childless family adds no parent entry and a parentless one no child entry: no entry is empty |
| ClientIndex.TouchedEntries | client/src/stemmaIndex.ts:76 | family id is recorded at k exactly when a family with that id has k on the table's side and someone on the other |
| ClientIndex.GenerationPositive | client/src/stemmaIndex.ts:90-101 | the generation is positive exactly for someone with a parent |
| ClientIndex.GenerationAboveParents | client/src/stemmaIndex.ts:90-101 | a person's generation is above each of its parents' |
| ClientIndex.GenerationTight | client/src/stemmaIndex.ts:90-101 | a positive generation is one more than some parent's: it counts the people on the longest chain of ancestors |
| ClientIndex.GenerationWithinRank | client/src/stemmaIndex.ts:60-88 | no generation exceeds the person's rank |
| ClientIndex.LineageAgrees | client/src/stemmaIndex.ts:90-101 | the viewer's relatives and families equal the editor's for every person |
| ClientIndex.GenerationGap | client/src/stemmaIndex.ts:42-50 | the editor's generation is the viewer's or one more |
| ClientIndex.GenerationsDiffer | client/src/stemmaIndex.ts:47-50 | a child of a family without parents has generation 0 here and 1 in the editor |
| ClientIndex.Build | client/src/stemmaIndex.ts:41-58 | the constructor builds the grouped tables, the lookups, every lineage and the maximum generation |
| ClientIndex.BuildLineageTable | client/src/stemmaIndex.ts:54-57 | every person id maps to its lineage, and the maximum generation is attained and bounds all, or is None |
| ClientIndex.LineageSpec | client/src/stemmaIndex.ts:103-105 | a known person's lineage is its two walks; an unknown id gets generation 0 and nothing else |
| ClientIndex.PersonSpec | client/src/stemmaIndex.ts:128-130 | an id is found exactly when some person has it, and what is found is the last person in the tree with that id |
| ClientIndex.Relativies | client/src/stemmaIndex.ts:107-112 | the last element of the relatives list is the lookup of the person itself |
| Seqs.Repeats | client/src/stemmaIndex.ts:108-109 | a family's other side appears once for every time the family lists the person, so its length is that count times the other side's size |
| ClientIndex.AcrossListed | client/src/stemmaIndex.ts:41-50 | what a table files under a person, flattened, is the other side of every family listing the person on that side, in tree order, once per listing, with nothing deduplicated |
| ClientIndex.RelativiesListed | client/src/stemmaIndex.ts:107-112 | the list is the lookups of the children of every family listing the person as a parent, then of the parents of every family listing it as a child, in tree order and once per listing, then the person's own lookup; its length is one plus those counts |
| ClientIndex.RepeatsKept | client/src/stemmaIndex.ts:107-112 | a child shared by two of a parent's families is listed twice |
| ClientIndex.RelativiesSpec | client/src/stemmaIndex.ts:107-112 | the relatives listed are the lookups of the person, its children and its parents, not its spouses or siblings |
| ClientIndex.RelatedFamiliesSpec | client/src/stemmaIndex.ts:114-122 | parent-side records come first and list only the person as parent; child-side records list only the person as child |
| ClientIndex.RelatedFamiliesListed | client/src/stemmaIndex.ts:114-122 | the list is one record for every time a family of the tree lists the person as a parent and has children, in tree order, then one for every time a family lists it as a child and has parents; each record has the person alone on its side |
| ClientIndex.RelatedInTreeOrder | client/src/stemmaIndex.ts:114-122 | a parent of two families gets one record per family, in tree order, without the co-parent |
| ClientIndex.NamesakesOfSpec | client/src/stemmaIndex.ts:124-126 | `namesakes(n)` is the lookup of each person named n, in input order |
| Prototype.RelationKeys | client/src/generation.ts:16-26 | a person has an entry exactly when some family lists it on that side |
| Prototype.RelationLast | client/src/generation.ts:16-26 | the entry is the other side of the last family listing the person; earlier families are forgotten |
| Prototype.RelationSteps | client/src/generation.ts:16-26 | every step the walk takes is an edge of the tree |
| Prototype.ComputeLineage | client/src/generation.ts:39-60 | the relatives are the reversed preorder and cover exactly the people reached; the depth counts the expanded people |
| Prototype.SpreadCoversHeight | client/src/generation.ts:44-50 | the count of expanded people is never below the longest chain |
| Prototype.Lineage | client/src/generation.ts:62-72 | a person's record is its written generation and the people both walks reach |
| Prototype.Lineages | client/src/generation.ts:74-78 | exactly one record per person id |
| Prototype.CorrectedLineage | client/src/generation.ts:62-72 | the corrected record takes the longest chain of ancestors as the generation |
| Prototype.WrittenCoversIntended | client/src/generation.ts:62-72 | the written generation is never below the intended one |
| Prototype.IntendedIsLongestChain | client/src/generation.test.ts:57-63 | the corrected generation is positive exactly for a child, above every listed parent's, and one more than the highest |
| JJFamily.TreeAcyclic | client/src/stemmaIndex.test.ts:29-49 | the test tree has no cycle |
| JJFamily.BuildIndex | client/src/stemmaIndex.test.ts:103-106 | the index of the test tree gives Jane generation 0, July 1 and Jeff 4, and its largest generation is 4 |
| JJFamily.GenerationsBounded | client/src/stemmaIndex.test.ts:67-72 | no one in the test tree is more than four generations down, so Jeff's 4 is the largest |
| JJFamily.AncestorRelation | client/src/generation.ts:22-26 | the prototype's child-to-parents map on the test tree |
| JJFamily.PrototypeJeffAsWritten | client/src/generation.ts:44-50 | as written, the prototype gives Jeff generation 5 |
| JJFamily.PrototypeJeffCorrected | client/src/generation.test.ts:57-63 | corrected, the prototype gives Jeff generation 4, as its test expects |
| JJLineages.ParentsOf | client/src/stemmaIndex.test.ts:29-49 | the test tree's parent relation is exactly its nine parent-child edges |
| JJLineages.DescendantsOfJane | frontend/src/stemmaIndex.ts:78-92 | Jane's descendants are Josh, Jill, James, Jeff and herself |
| JJLineages.AncestorsOfJeff | frontend/src/stemmaIndex.ts:78-92 | Jeff's ancestors are everyone in the tree but Josh |
| JJLineages.JaneLineage | client/src/stemmaIndex.test.ts:51-58 | the index gives Jane generation 0, relatives Josh, Jill, James, Jeff and herself, and families 1, 2 and 4 |
| JJLineages.JulyLineage | client/src/stemmaIndex.test.ts:60-65 | the index gives July generation 1, relatives Joseph, Jake, James, Jeff and herself, and families 2 to 5 |
| JJLineages.JeffLineage | client/src/stemmaIndex.test.ts:67-72 | the index gives Jeff generation 4 (Joseph's line), every relative but Josh, and all five families |
| JJLineages.PrototypeJane | client/src/generation.test.ts:41-47 | the prototype gives Jane generation 0 and relatives Josh, Jill, James, Jeff and herself |
| JJLineages.PrototypeJuly | client/src/generation.test.ts:49-55 | the prototype gives July generation 1 and relatives Joseph, Jake, James, Jeff and herself |
| JJLineages.PrototypeJeff | client/src/generation.test.ts:57-63 | the prototype's relatives of Jeff are everyone but Josh |
| MashaFamily.AllChildrenCounted | client/src/stemmaIndex.test.ts:80-101 | a parent of two families gets the children of both as relatives and both families |
| MashaFamily.EmptyFamilySkipped | client/src/stemmaIndex.test.ts:108-125 | a family without children adds neither relatives nor a family id |
| Highlight.Remake | client/src/highlight.ts:40-45 | after every rebuild the caches equal the unions over the entries and the marriages and uncle families among their people |
| Highlight.PeopleOfSpec | client/src/highlight.ts:41 | the people cache holds exactly the people some entry covers |
| Highlight.FamiliesOfSpec | client/src/highlight.ts:42 | the families cache holds exactly the families some entry covers |
| Highlight.PersonEntry | client/src/highlight.ts:47-54 | a person's entry covers its lineage's relatives and families |
| Highlight.FamilyEntry | client/src/highlight.ts:56-63 | a family's entry covers its parents, its children and the family itself |
| Highlight.New | client/src/highlight.ts:33-38 | the constructor holds one person entry per given person, in order, with consistent caches |
| Highlight.PushPerson | client/src/highlight.ts:73-76 | pushing a person appends its entry and keeps the caches consistent |
| Highlight.PushFamily | client/src/highlight.ts:78-81 | pushing an existing family appends its entry and keeps the caches consistent |
| Highlight.Pop | client/src/highlight.ts:83-86 | popping drops the last entry (nothing on an empty stack) and keeps the caches consistent |
| Highlight.AllHighlighted | client/src/highlight.ts:8-16 | `HighlightAll` highlights every person and family |
| Highlight.EmptyStackHighlightsAll | client/src/highlight.ts:65-71 | with nothing selected everything is highlighted |
| Highlight.PersonHighlightedSpec | client/src/highlight.ts:65-67 | otherwise a person is highlighted exactly when some entry covers it |
| Highlight.FamilyHighlightedSpec | client/src/highlight.ts:69-71 | otherwise a family is highlighted exactly when some entry covers it or it is a marriage or an uncle family among the covered people |
| Highlight.PushPersonPop | client/src/highlight.ts:73-86 | pushing a person and popping restores the stack, caches included |
| Highlight.PushFamilyPop | client/src/highlight.ts:78-86 | pushing a family and popping restores the stack |
| Highlight.PushFamilyHighlights | client/src/highlight.ts:56-81 | after pushing a family, it, its parents and its children are highlighted |
| Highlight.PushPersonHighlights | client/src/highlight.ts:73-76 | after pushing a person its relatives are highlighted, and so is whatever was highlighted before when something was selected |
| Highlight.NewIsPushes | client/src/highlight.ts:33-38 | the constructor equals pushing each person in order onto the empty stack |
| Selection.Connected | client/src/selectionController.ts:17-30 | `connected` holds exactly when both the person and the family are selected |
| Selection.SimpleOf | client/src/selectionController.ts:49-66 | the explicit selector selects exactly the given person and family ids |
| Selection.LineageSelector | client/src/selectionController.ts:68-83 | the lineage selector selects exactly the lineage's relatives and families |
| Selection.NoOpSelectsNothing | client/src/selectionController.ts:10-21 | the no-op selector selects no person, no family and no pair |
| Selection.ComposeIsOr | client/src/selectionController.ts:33-43 | a composition selects what either side selects |
| Selection.ComposeAllPeople | client/src/selectionController.ts:45-47 | a composition of many selects a person exactly when one of them does; the empty composition selects nothing |
| Selection.ComposeAllFamilies | client/src/selectionController.ts:45-47 | the same for families |
| Selection.LineageSelectorSpec | client/src/selectionController.ts:68-83 | on an index, a known person's selector selects its walks' relatives and families, and an unknown person's nothing |
| GraphTools.SplitJoin | frontend/src/graphTools.js:139-141 | joining the pieces of a split with the separator gives the string back |
| GraphTools.NormalizeRoundTrip | frontend/src/graphTools.js:135-141 | decoding an encoded id gives the id back when neither part holds an underscore |
| GraphTools.NormalizeTruncates | client/src/graphTools.js:165-171 | otherwise decoding keeps the part of the id before its first underscore |
| GraphTools.NodesAndRelations | frontend/src/graphTools.js:9-20 | there is one node per person then one per family, with ids `person_` and `family_` followed by the id |
| GraphTools.RelationsLayout | frontend/src/graphTools.js:22-41 | there is one line per child and per parent of each family, every child line before every parent line |
| GraphTools.RelationsMembership | client/src/graphTools.js:29-48 | the lines are exactly the child lines and the parent lines of the families |
| GraphTools.StyleDeterminedBy | client/src/graphTools.js:238-253 | a line's colour, width and arrow depend only on whether it is highlighted and on its kind |
| GraphTools.ShadedIff | frontend/src/graphTools.js:208-223 | each of the colour, width and arrow tells whether the line is shaded |
| GraphTools.MarkerOfKind | frontend/src/graphTools.js:213-223 | a highlighted child line has the child width and the arrow to the person; a parent line the family width and the arrow to the family |
| GraphTools.ChildLineHighlighted | frontend/src/graphTools.js:201-206 | a child line is highlighted exactly when one end answers the family question and one end the person question |
| GraphTools.ParentLineHighlighted | client/src/graphTools.js:231-236 | the same for a parent line |
| GraphTools.HighlightedEnds | frontend/src/graphTools.js:201-206 | a line between a highlighted family and a highlighted member is highlighted, and with nothing selected every line is |
| I18n.InitialLocale | frontend/src/i18n.ts:19-25 | the stored value is used when it is `en` or `ru`, and anything else gives `en` |
| I18n.WordRun | frontend/src/i18n.ts:293 | `\w+` takes the longest run of word characters |
| I18n.PlaceholderAt | frontend/src/i18n.ts:293 | a placeholder found at the start of a text is a brace, a non-empty key and a closing brace |
| I18n.ReplaceHole | frontend/src/i18n.ts:293 | a placeholder is replaced by its parameter, or kept when there is none, and the scan resumes after it |
| I18n.InterpolateFills | frontend/src/i18n.ts:291-294 | interpolating a template of texts and placeholders fills each placeholder and keeps every text |
| I18n.MissingKeysKept | frontend/src/i18n.ts:291-294 | a template whose placeholders all lack parameters, or which has none, comes back unchanged |
| I18n.Translate | frontend/src/i18n.ts:298-305 | a missing or empty dictionary entry gives the key back; without parameters an entry is returned as it is |
| I18n.NameMessageListed | frontend/src/i18n.ts:65-76 | each person-naming error message is in its dictionary as its text around one `{name}` |
| I18n.NameMessageFilled | frontend/src/i18n.ts:291-294 | such a message shows the name it is given, or its placeholder when it is given none |
| I18n.InterpolateGiven | frontend/src/i18n.test.ts:17-20 | `Hello {name}` with name Ann gives `Hello Ann` |
| I18n.InterpolateMissing | frontend/src/i18n.test.ts:17-20 | `Hello {name}` without a name stays as it is |
| ErrorMapping.NoFieldReturned | frontend/src/stemmaErrorMapping.ts:18-39 | a response comes back unchanged exactly when it carries no error field |
| ErrorMapping.FirstFieldDecides | frontend/src/stemmaErrorMapping.ts:19-36 | otherwise the first present field, in the fixed order, decides the key |
| ErrorMapping.FirstFieldParams | frontend/src/stemmaErrorMapping.ts:21-31 | only the four person fields carry a name, the described person (the child's id for a child that already has parents) |
| ErrorMapping.FieldsBefore | frontend/src/stemmaErrorMapping.ts:19-36 | the fields before the deciding one are absent |
| ErrorMapping.MappingExamples | frontend/src/stemmaErrorMapping.test.ts:7-28 | an unknown error, an unknown person and an error-free response map as the tests expect |
| ErrorMapping.KeysTranslated | frontend/src/i18n.ts:65-76 | every key the mapping raises has a non-empty message in both languages |
| ErrorMapping.NamingKeys | frontend/src/i18n.ts:192-203 | a key's message names a person exactly when its field is one of the four person fields |
| ErrorMapping.MessageNamesPerson | frontend/src/stemmaErrorMapping.ts:21-31 | the message of a person error shows the described person |
| Storage.PinnedKey | client/src/pinnedPeopleStorage.ts:6-8 | the key is `pinned.` followed by the tree id |
| Storage.LoadPinned | client/src/pinnedPeopleStorage.ts:10-14 | loading gives a list without repeats, empty when nothing is stored |
| Storage.Add | client/src/pinnedPeopleStorage.ts:23-27 | on a loaded set, adding writes the new set back under the same key |
| Storage.Remove | client/src/pinnedPeopleStorage.ts:29-33 | on a loaded set, removing writes the new set back under the same key |
| Storage.NewPinned | client/src/pinnedPeopleStorage.ts:6-8 | a new object has its key, `pinned.` and the tree id, and no set yet |
| Storage.Load | client/src/pinnedPeopleStorage.ts:10-14 | after `load` the object holds a set without repeats under the same key, empty when nothing is stored |
| Storage.AddTo | client/src/pinnedPeopleStorage.ts:23-27 | `add` fails exactly when `load` has not run; otherwise the id is pinned, the key kept and the set written back |
| Storage.RemoveFrom | client/src/pinnedPeopleStorage.ts:29-33 | `remove` fails exactly when `load` has not run; otherwise the id is unpinned, the key kept and the set written back |
| Storage.AllPinnedOf | client/src/pinnedPeopleStorage.ts:35-37 | `allPinned` fails exactly when `load` has not run |
| Storage.IsPinnedIn | client/src/pinnedPeopleStorage.ts:39-41 | `isPinned` fails exactly when `load` has not run |
| Storage.PinnedQueriesAgree | client/src/pinnedPeopleStorage.ts:35-41 | `isPinned(id)` is true exactly when `allPinned()` lists the id, and both fail together |
| Storage.LoadRequired | client/src/pinnedPeopleStorage.ts:6-41 | a fresh object fails every operation; once loaded it answers all of them, holding what is stored under its key |
| Storage.LoadEmptyExample | frontend/src/pinnedPeopleStorage.test.ts:8-13 | a fresh object loaded over an empty store pins nothing |
| Storage.AddPins | client/src/pinnedPeopleStorage.ts:23-27 | after adding, the id is pinned and every other id is as it was |
| Storage.RemoveUnpins | client/src/pinnedPeopleStorage.ts:29-33 | after removing, the id is not pinned and every other id is as it was |
| Storage.OperationsKeepDistinct | client/src/pinnedPeopleStorage.ts:35-37 | the pinned list never repeats an id |
| Storage.PinnedReload | client/src/pinnedPeopleStorage.ts:10-21 | what was saved is what a fresh instance loads, order included |
| Storage.AddRemovePersist | client/src/pinnedPeopleStorage.ts:23-33 | every add and remove is visible to the next load |
| Storage.PinnedExample | frontend/src/pinnedPeopleStorage.test.ts:15-26 | load, pin p1 and p2 (p1 is pinned), unpin p1 (p1 is not), and a fresh instance loads just p2 |
| Storage.SettingsKey | client/src/settingsStroage.ts:11-14 | the key is `settings-` followed by the tree id |
| Storage.LoadSettings | client/src/settingsStroage.ts:11-14 | loading always gives settings, the defaults when nothing is stored |
| Storage.SettingsRoundTrip | client/src/settingsStroage.ts:16-23 | what is stored is what `get` returns and what a fresh instance loads |
| Storage.SettingsIsolated | client/src/settingsStroage.ts:11-19 | storing one tree's settings leaves what another tree loads as it was |
| Storage.StoresIndependent | client/src/settingsStroage.ts:16-19 | storing settings leaves every pinned list alone, and saving pins leaves every tree's settings alone |
| AppRules.FindById | frontend/src/appControllerSelection.ts:6 | the tree found has the id, and none is found exactly when no tree has it |
| AppRules.SelectStemmaIdSpec | frontend/src/appControllerSelection.ts:3-10 | nothing is chosen exactly for a missing or empty list; the choice is a listed tree, the last viewed one when listed and the first otherwise |
| AppRules.SelectStemmaIdExamples | frontend/src/appControllerSelection.test.ts:3-25 | the tests' four choices |
| AppRules.SanitizeSpec | frontend/src/requestSanitizer.ts:1-3 | exactly the null, undefined and empty-string entries go; zero and false stay; the rest keep their order; sanitising twice is sanitising once |
| AppRules.SanitizeExample | frontend/src/requestSanitizer.test.ts:3-8 | the test's payload loses its empty and null fields |
| AppRules.FilterEditableSpec | client/src/personSelectionRules.ts:5-7 | only existing read-only people are dropped; the rest keep their order; filtering is idempotent and an empty list stays empty |
| AppRules.FilterEditableExample | frontend/src/personSelectionRules.test.ts:3-20 | the test's list loses Bob |

## Left out

- The chart's rendering, simulation, dragging and coordinate cache, and every other use of d3 and the DOM: they are UI. The person colour `generation / maxGeneration` is floating-point arithmetic.
- The network, the async application controller and stores, authentication and the build tooling: none of them is part of the index logic.
- `Lineage.computeGenerations` in the prototype: nothing calls it.
- Cyclic trees: no walk ends on them. Every walk takes an acyclicity ranking instead.
- The viewer's `_families` field: it is declared but never assigned or read.
- The browser's `localStorage`, `JSON.parse` and `JSON.stringify`: they are replaced by a map from keys to `Stored` values. A read or write failure is not modelled.
- The settings record and `DEFAULT_SETTINGS`: these are in `client/src/model.ts`, which is not part of this model. The settings type is a parameter and the defaults an argument.
- The Svelte `locale` store and its subscription, which writes the locale back: this is store wiring. `getInitialLocale` takes what the store holds as an argument, with a failing read given as `None`.
- The dictionaries' entries other than the error messages: they are display text no modelled operation reads.
- The frontend copies of `highlight.ts`, `pinnedPeopleStorage.ts` and `personSelectionRules.ts`: they are not part of this model. The example lemmas taken from their tests are stated over the client copies.
- Storage.LoadSettings: a settings key holding anything other than settings is read as the defaults, where the source would parse whatever JSON is there.
- Storage.LoadPinned: a pinned key holding anything other than a pinned list loads as the empty set, where the source would read the `items` field of whatever JSON is there.
- ErrorMapping.MessageNamesPerson: assumes the message text itself holds no `{` outside its placeholder, which every person-naming message in both dictionaries meets.
- GraphTools.ChildLineHighlighted: stated for ids without an underscore; with one, `denormalizeId` cuts the id short, which `GraphTools.NormalizeTruncates` describes.
- I18n.ReplaceHole: a placeholder whose key the parameters only inherit from `Object.prototype` (`{constructor}`, `{toString}`, `{__proto__}`) is kept here, where the source fills it with that inherited member's text; JavaScript's object prototype is not modelled.
- I18n.InterpolateFills: parameters are a map of their own keys only; keys inherited from `Object.prototype` are not modelled, for the same reason.
- I18n.MissingKeysKept: a template holding a placeholder such as `{toString}` or `{constructor}` does not come back unchanged in the source, which fills it from `Object.prototype`; inherited keys are not modelled.
- I18n.Translate: a key such as `toString` that a dictionary object only inherits gives the key back here, where the source takes the inherited function as the template and returns it (without parameters) or throws (with them); inherited keys are not modelled.
- Walk.MaxOf: `Math.max()` over no people is -Infinity; it is `None` here.

## Findings

| source | as written | input that shows it | evidently intended | confidence | as-written member | corrected member |
|---|---|---|---|---|---|---|
| client/src/generation.ts:44-50 | the depth grows by one for every person the ancestor walk expands, so it counts expanded people rather than generations | the JJ family of client/src/generation.test.ts:19-39: Jeff's ancestor walk expands Jeff, James, Jill, Jake and July, giving generation 5 | the longest chain of ancestors, 4 for Jeff, as the test at client/src/generation.test.ts:57-63 expects and as the later index computes | not executed | JJFamily.PrototypeJeffAsWritten | JJFamily.PrototypeJeffCorrected |

=== FILE: app_rules.dfy ===
/** Small rules of the application shell: which tree to open, what a request may carry,
    and whom the family editor may offer. */
module AppRules {
  import opened Wrappers
  import opened Seqs

  // ---------------------------------------------------------------------------------
  // The tree to open.

  datatype StemmaDescription = StemmaDescription(id: string, name: string, removable: bool)

  /** `Array.prototype.find` by id. */
  function FindById(stemmas: seq<StemmaDescription>, id: string): (r: Option<StemmaDescription>)
    ensures r.Some? ==> r.value in stemmas && r.value.id == id
    ensures r.None? <==> forall i :: 0 <= i < |stemmas| ==> stemmas[i].id != id
  {
    if |stemmas| == 0 then None
    else if stemmas[0].id == id then Some(stemmas[0])
    else FindById(stemmas[1..], id)
  }

  /** `selectStemmaId`: the last viewed tree if it is still listed, else the first one; a
      missing list and the empty string stand for JavaScript's falsy values. */
  function SelectStemmaId(stemmas: Option<seq<StemmaDescription>>, lastStemmaId: Option<string>): Option<string> {
    if stemmas.None? || |stemmas.value| == 0 then None
    else if lastStemmaId.Some? && lastStemmaId.value != "" && FindById(stemmas.value, lastStemmaId.value).Some? then
      Some(FindById(stemmas.value, lastStemmaId.value).value.id)
    else Some(stemmas.value[0].id)
  }

  /** Nothing is chosen exactly when there is nothing to choose from; what is chosen is
      always a listed tree: the last viewed one when it is listed, the first otherwise. */
  lemma SelectStemmaIdSpec(stemmas: Option<seq<StemmaDescription>>, lastStemmaId: Option<string>)
    ensures SelectStemmaId(stemmas, lastStemmaId).None? <==> stemmas.None? || stemmas.value == []
    ensures SelectStemmaId(stemmas, lastStemmaId).Some? ==>
      exists s :: s in stemmas.value && s.id == SelectStemmaId(stemmas, lastStemmaId).value
    ensures (stemmas.Some? && lastStemmaId.Some? && lastStemmaId.value != "" &&
             exists s :: s in stemmas.value && s.id == lastStemmaId.value) ==>
      SelectStemmaId(stemmas, lastStemmaId) == lastStemmaId
    ensures (stemmas.Some? && stemmas.value != [] &&
             (lastStemmaId.None? || lastStemmaId.value == "" || forall s :: s in stemmas.value ==> s.id != lastStemmaId.value)) ==>
      SelectStemmaId(stemmas, lastStemmaId) == Some(stemmas.value[0].id)
  {
    if stemmas.Some? && stemmas.value != [] {
      assert stemmas.value[0] in stemmas.value;
      if lastStemmaId.Some? && lastStemmaId.value != "" {
        if s :| s in stemmas.value && s.id == lastStemmaId.value {
          var i :| 0 <= i < |stemmas.value| && stemmas.value[i] == s;
        }
      }
    }
  }

  /** The examples of the tree-selection tests. */
  lemma SelectStemmaIdExamples()
    ensures var l := [StemmaDescription("a", "A", true), StemmaDescription("b", "B", true), StemmaDescription("c", "C", true)];
      && SelectStemmaId(Some(l), None) == Some("a")
      && SelectStemmaId(Some(l), Some("c")) == Some("c")
      && SelectStemmaId(Some(l), Some("missing")) == Some("a")
      && SelectStemmaId(Some([]), Some("a")) == None
  {
    var l := [StemmaDescription("a", "A", true), StemmaDescription("b", "B", true), StemmaDescription("c", "C", true)];
    SelectStemmaIdSpec(Some(l), Some("c"));
    assert l[2] in l;
    SelectStemmaIdSpec(Some(l), Some("missing"));
  }

  // ---------------------------------------------------------------------------------
  // Request payloads.

  /** The values a request field can hold. */
  datatype Value = Null | Undefined | Str(s: string) | Num(n: int) | Bool(b: bool) | Object

  /** A request object: its entries in insertion order. */
  type Payload = seq<(string, Value)>

  /** The test `sanitizeRequestPayload` keeps an entry by. */
  predicate Kept(entry: (string, Value)) {
    entry.1 != Null && entry.1 != Undefined && entry.1 != Str("")
  }

  /** `sanitizeRequestPayload`. */
  function Sanitize(payload: Payload): Payload {
    Filter(payload, Kept)
  }

  /** Exactly the null, undefined and empty-string entries go; zero and false stay; the
      others keep their values and their order; and sanitising is idempotent. */
  lemma SanitizeSpec(payload: Payload, key: string, v: Value)
    ensures (key, v) in Sanitize(payload) <==> (key, v) in payload && v !in {Null, Undefined, Str("")}
    ensures (key, Num(0)) in payload ==> (key, Num(0)) in Sanitize(payload)
    ensures (key, Bool(false)) in payload ==> (key, Bool(false)) in Sanitize(payload)
    ensures Subsequence(Sanitize(payload), payload)
    ensures Sanitize(Sanitize(payload)) == Sanitize(payload)
  {
    FilterMembership(payload, Kept, (key, v));
    FilterMembership(payload, Kept, (key, Num(0)));
    FilterMembership(payload, Kept, (key, Bool(false)));
    FilterSubsequence(payload, Kept);
    FilterIdempotent(payload, Kept);
  }

  /** The example of the sanitiser's test. */
  lemma SanitizeExample()
    ensures Sanitize([("name", Str("Ann")), ("bio", Str("")), ("birthDate", Null), ("age", Num(0)), ("active", Bool(false))])
         == [("name", Str("Ann")), ("age", Num(0)), ("active", Bool(false))]
  {
    var p := [("name", Str("Ann")), ("bio", Str("")), ("birthDate", Null), ("age", Num(0)), ("active", Bool(false))];
    assert p[1..][1..][1..] == [("age", Num(0)), ("active", Bool(false))];
    assert p[1..][1..][1..][1..][1..] == [];
  }

  // ---------------------------------------------------------------------------------
  // People the family editor offers.

  /** An existing person, which carries `readOnly`, or one to be created, which does not. */
  datatype Selectable = Existing(id: string, name: string, readOnly: bool) | ToCreate(name: string)

  predicate Editable(p: Selectable) {
    !p.Existing? || !p.readOnly
  }

  /** `filterEditablePeople`. */
  function FilterEditable(people: seq<Selectable>): seq<Selectable> {
    Filter(people, Editable)
  }

  /** Only existing read-only people are dropped; the rest stay in order; filtering is
      idempotent and an empty list stays empty. */
  lemma FilterEditableSpec(people: seq<Selectable>, p: Selectable)
    ensures p in FilterEditable(people) <==> p in people && !(p.Existing? && p.readOnly)
    ensures Subsequence(FilterEditable(people), people)
    ensures FilterEditable(FilterEditable(people)) == FilterEditable(people)
    ensures people == [] ==> FilterEditable(people) == []
  {
    FilterMembership(people, Editable, p);
    FilterSubsequence(people, Editable);
    FilterIdempotent(people, Editable);
  }

  /** The example of the editor's test. */
  lemma FilterEditableExample()
    ensures FilterEditable([Existing("1", "Alice", false), Existing("2", "Bob", true), ToCreate("New Person")])
         == [Existing("1", "Alice", false), ToCreate("New Person")]
  {
    var p := [Existing("1", "Alice", false), Existing("2", "Bob", true), ToCreate("New Person")];
    assert p[1..][1..] == [ToCreate("New Person")];
    assert p[1..][1..][1..] == [];
  }
}

=== FILE: client_index.dfy ===
/** The viewer's `StemmaIndex` (client/src/stemmaIndex.ts): the same walks as the editor's
    index over leaner tables. A family contributes to a table only when its other side is
    non-empty, and an entry carries only that other side. */
module ClientIndex {
  import opened Wrappers
  import opened Seqs
  import opened Model
  import opened Grouping
  import opened Walk
  import opened Directory
  import FrontendIndex

  /** A family seen from one of its members: the other side of the family. */
  datatype Entry = Entry(familyId: FamilyId, members: seq<PersonId>)

  type Table = map<PersonId, seq<Entry>>

  /** The pairs one family contributes to a table: one per person on `side`, and none at all
      when the other side is empty (`if (f.children.length)` / `if (f.parents.length)`). */
  function Entries(f: Family, side: Side): seq<(PersonId, Entry)> {
    if |side.Opposite().Of(f)| > 0 then MapSeq(side.Of(f), (k: PersonId) => (k, Entry(f.id, side.Opposite().Of(f))))
    else []
  }

  function Pairs(families: seq<Family>, side: Side): seq<(PersonId, Entry)>
    decreases |families|
  {
    if families == [] then [] else Entries(families[0], side) + Pairs(families[1..], side)
  }

  /** `_parentToChildren` (side `Parents`) and `_childToParents` (side `Children`). */
  function TableOf(families: seq<Family>, side: Side): Table {
    GroupByKey(Pairs(families, side))
  }

  /** The entry a family yields for the members of `side`. */
  function EntryOf(f: Family, side: Side): Entry {
    Entry(f.id, side.Opposite().Of(f))
  }

  /** `f` has `k` on `side` and someone on the other side. */
  ghost predicate Contributes(f: Family, side: Side, k: PersonId) {
    k in side.Of(f) && |side.Opposite().Of(f)| > 0
  }

  lemma {:induction false} PairsMembership(families: seq<Family>, side: Side, k: PersonId, e: Entry)
    ensures (k, e) in Pairs(families, side) <==>
      exists f :: f in families && Contributes(f, side, k) && e == EntryOf(f, side)
    decreases |families|
  {
    if families != [] {
      PairsMembership(families[1..], side, k, e);
      var f0 := families[0];
      if Contributes(f0, side, k) && e == EntryOf(f0, side) {
        var i :| 0 <= i < |side.Of(f0)| && side.Of(f0)[i] == k;
        assert Entries(f0, side)[i] == (k, e);
      }
      if (k, e) in Entries(f0, side) {
        var i :| 0 <= i < |Entries(f0, side)| && Entries(f0, side)[i] == (k, e);
        assert side.Of(f0)[i] == k;
      }
      assert forall f :: f in families <==> f == f0 || f in families[1..];
    }
  }

  /** A person's entries in a table are exactly the families that have the person on the
      table's side and someone on the other. */
  lemma TableEntries(families: seq<Family>, side: Side, k: PersonId, e: Entry)
    ensures (k in TableOf(families, side) && e in TableOf(families, side)[k]) <==>
      exists f :: f in families && Contributes(f, side, k) && e == EntryOf(f, side)
  {
    GroupByKeyMembership(Pairs(families, side), k, e);
    PairsMembership(families, side, k, e);
  }

  // ---------------------------------------------------------------------------------
  // What the walk sees of a table.

  function MembersOf(e: Entry): seq<PersonId> {
    e.members
  }

  function IdOf(e: Entry): FamilyId {
    e.familyId
  }

  /** The people the walk queues after a person: `descr.flatMap(x => x.members)`. */
  function Succ(t: Table): Adjacency {
    map k | k in t :: FlatMap(t[k], MembersOf)
  }

  /** The families the walk records at a person: every entry's id. */
  function Touched(t: Table): map<PersonId, seq<FamilyId>> {
    map k | k in t :: MapSeq(t[k], IdOf)
  }

  /** The walk moves from `k` to `m` exactly when some family has `k` on the table's side
      and `m` on the other. */
  lemma SuccEdges(families: seq<Family>, side: Side, k: PersonId, m: PersonId)
    ensures Step(Succ(TableOf(families, side)), k, m) <==> Edge(families, side, k, m)
  {
    var t := TableOf(families, side);
    if k in t && m in Succ(t)[k] {
      FlatMapMembership(t[k], MembersOf, m);
      var e: Entry :| e in t[k] && m in e.members;
      TableEntries(families, side, k, e);
    }
    if f :| f in families && k in side.Of(f) && m in side.Opposite().Of(f) {
      TableEntries(families, side, k, EntryOf(f, side));
      FlatMapMembership(t[k], MembersOf, m);
    }
  }

  /** Unlike the editor's tables, no entry is empty: a person has an entry exactly when the
      walk can move on from it. */
  lemma SuccKeys(families: seq<Family>, side: Side, k: PersonId)
    ensures k in Succ(TableOf(families, side)) <==> exists m :: Edge(families, side, k, m)
    ensures k in Succ(TableOf(families, side)) ==> |Succ(TableOf(families, side))[k]| > 0
  {
    var t := TableOf(families, side);
    if k in t {
      var e := t[k][0];
      TableEntries(families, side, k, e);
      var m := e.members[0];
      FlatMapMembership(t[k], MembersOf, m);
      SuccEdges(families, side, k, m);
    }
    if m :| Edge(families, side, k, m) {
      SuccEdges(families, side, k, m);
    }
  }

  /** The walk records family `id` at `k` exactly when a family with that id has `k` on the
      table's side and someone on the other side. */
  lemma TouchedEntries(families: seq<Family>, side: Side, k: PersonId, id: FamilyId)
    ensures id in TouchedAt(Touched(TableOf(families, side)), k) <==> Joins(families, side, k, id)
  {
    var t := TableOf(families, side);
    if k in t && id in Touched(t)[k] {
      var i :| 0 <= i < |t[k]| && IdOf(t[k][i]) == id;
      TableEntries(families, side, k, t[k][i]);
    }
    if f :| f in families && k in side.Of(f) && |side.Opposite().Of(f)| > 0 && f.id == id {
      TableEntries(families, side, k, EntryOf(f, side));
      var i :| 0 <= i < |t[k]| && t[k][i] == EntryOf(f, side);
      assert MapSeq(t[k], IdOf)[i] == id;
    }
  }

  /** Towards ancestors (keyed by children) every edge goes down in the ranking. */
  lemma AncestorsRanked(s: Stemma, rank: map<PersonId, nat>)
    requires Acyclic(s, rank)
    ensures Ranked(Succ(TableOf(s.families, Children)), rank)
  {
    var succ := Succ(TableOf(s.families, Children));
    forall k | k in succ
      ensures forall i | 0 <= i < |succ[k]| :: Below(rank, succ[k][i], k)
    {
      forall i | 0 <= i < |succ[k]|
        ensures Below(rank, succ[k][i], k)
      {
        SuccEdges(s.families, Children, k, succ[k][i]);
        EdgeRanked(s, rank, k, succ[k][i]);
      }
    }
  }

  /** Towards descendants (keyed by parents) every edge goes down in the flipped ranking. */
  lemma DescendantsRanked(s: Stemma, rank: map<PersonId, nat>)
    requires Acyclic(s, rank)
    ensures Ranked(Succ(TableOf(s.families, Parents)), Flip(rank))
  {
    var succ := Succ(TableOf(s.families, Parents));
    var flipped := Flip(rank);
    forall k | k in succ
      ensures forall i | 0 <= i < |succ[k]| :: Below(flipped, succ[k][i], k)
    {
      forall i | 0 <= i < |succ[k]|
        ensures Below(flipped, succ[k][i], k)
      {
        SuccEdges(s.families, Parents, k, succ[k][i]);
        EdgeRanked(s, rank, succ[k][i], k);
        FlipOrder(rank, k, succ[k][i]);
      }
    }
  }

  // ---------------------------------------------------------------------------------
  // Lineage, in terms of the tree.

  /** What `buildLineage` yields for a person of the tree. */
  ghost function LineageOf(s: Stemma, rank: map<PersonId, nat>, p: PersonId): Generation
    requires Acyclic(s, rank)
  {
    AncestorsRanked(s, rank);
    DescendantsRanked(s, rank);
    var anc := TableOf(s.families, Children);
    var desc := TableOf(s.families, Parents);
    Combined(Succ(anc), Touched(anc), rank, Succ(desc), Touched(desc), Flip(rank), p)
  }

  /** The depth of the ancestor walk. */
  ghost function GenerationOf(s: Stemma, rank: map<PersonId, nat>, p: PersonId): nat
    requires Acyclic(s, rank)
  {
    AncestorsRanked(s, rank);
    Height(Succ(TableOf(s.families, Children)), rank, p)
  }

  /** Only someone with a parent has a positive generation. */
  lemma GenerationPositive(s: Stemma, rank: map<PersonId, nat>, p: PersonId)
    requires Acyclic(s, rank)
    ensures GenerationOf(s, rank, p) >= 1 <==> exists q :: ParentOf(s, q, p)
  {
    AncestorsRanked(s, rank);
    HeightVia(Succ(TableOf(s.families, Children)), rank, p);
    SuccKeys(s.families, Children, p);
    forall q ensures ParentOf(s, q, p) <==> Edge(s.families, Children, p, q) {
      EdgeUp(s, p, q);
    }
  }

  /** A person's generation is above each of its parents'. */
  lemma GenerationAboveParents(s: Stemma, rank: map<PersonId, nat>, p: PersonId, q: PersonId)
    requires Acyclic(s, rank)
    requires ParentOf(s, q, p)
    ensures GenerationOf(s, rank, q) < GenerationOf(s, rank, p)
  {
    AncestorsRanked(s, rank);
    HeightVia(Succ(TableOf(s.families, Children)), rank, p);
    EdgeUp(s, p, q);
    SuccEdges(s.families, Children, p, q);
  }

  /** A positive generation is exactly one more than some parent's: the generation is the
      number of people on the longest chain of ancestors above the person. */
  lemma GenerationTight(s: Stemma, rank: map<PersonId, nat>, p: PersonId)
    requires Acyclic(s, rank)
    ensures GenerationOf(s, rank, p) == 0 ||
      exists q :: ParentOf(s, q, p) && GenerationOf(s, rank, p) == GenerationOf(s, rank, q) + 1
  {
    AncestorsRanked(s, rank);
    var succ := Succ(TableOf(s.families, Children));
    HeightStep(succ, rank, p);
    if p in succ {
      SuccKeys(s.families, Children, p);
      var q := succ[p][0];
      if Height(succ, rank, p) != 1 {
        var j :| 0 <= j < |succ[p]| && Height(succ, rank, p) == Height(succ, rank, succ[p][j]) + 1;
        q := succ[p][j];
      }
      SuccEdges(s.families, Children, p, q);
      EdgeUp(s, p, q);
    }
  }

  /** With no entry empty, no generation exceeds the person's rank. */
  lemma GenerationWithinRank(s: Stemma, rank: map<PersonId, nat>, p: PersonId)
    requires Acyclic(s, rank)
    requires p in rank
    ensures GenerationOf(s, rank, p) <= rank[p]
  {
    AncestorsRanked(s, rank);
    forall k | k in Succ(TableOf(s.families, Children))
      ensures |Succ(TableOf(s.families, Children))[k]| > 0
    {
      SuccKeys(s.families, Children, k);
    }
    HeightWithinRank(Succ(TableOf(s.families, Children)), rank, p);
  }

  // ---------------------------------------------------------------------------------
  // The two versions of the index, compared.

  /** Both versions walk the same relatives and record the same families: the client's
      tables leave out exactly the entries the editor's walks cannot move on from. */
  lemma LineageAgrees(s: Stemma, rank: map<PersonId, nat>, p: PersonId)
    requires Acyclic(s, rank)
    ensures LineageOf(s, rank, p).relativies == FrontendIndex.LineageOf(s, rank, p).relativies
    ensures LineageOf(s, rank, p).families == FrontendIndex.LineageOf(s, rank, p).families
  {
    AncestorsRanked(s, rank);
    DescendantsRanked(s, rank);
    FrontendIndex.AncestorsRanked(s, rank);
    FrontendIndex.DescendantsRanked(s, rank);
    SameWalk(s, Children, rank, p);
    SameWalk(s, Parents, Flip(rank), p);
  }

  lemma SameWalk(s: Stemma, side: Side, rank: map<PersonId, nat>, p: PersonId)
    requires Ranked(Succ(TableOf(s.families, side)), rank)
    requires Ranked(FrontendIndex.Succ(FrontendIndex.TableOf(s.families, side)), rank)
    ensures Reach(Succ(TableOf(s.families, side)), rank, p) ==
      Reach(FrontendIndex.Succ(FrontendIndex.TableOf(s.families, side)), rank, p)
    ensures Fams(Succ(TableOf(s.families, side)), Touched(TableOf(s.families, side)), rank, p) ==
      Fams(FrontendIndex.Succ(FrontendIndex.TableOf(s.families, side)),
           FrontendIndex.Touched(FrontendIndex.TableOf(s.families, side)), rank, p)
  {
    var t := TableOf(s.families, side);
    var u := FrontendIndex.TableOf(s.families, side);
    forall k, m
      ensures Step(Succ(t), k, m) <==> Step(FrontendIndex.Succ(u), k, m)
    {
      SuccEdges(s.families, side, k, m);
      FrontendIndex.SuccEdges(s.families, side, k, m);
    }
    ReachSameSteps(Succ(t), FrontendIndex.Succ(u), rank, p);
    forall q, f
      ensures f in TouchedAt(Touched(t), q) <==> f in TouchedAt(FrontendIndex.Touched(u), q)
    {
      TouchedEntries(s.families, side, q, f);
      FrontendIndex.TouchedEntries(s.families, side, q, f);
    }
    FamsSameTouched(Succ(t), Touched(t), FrontendIndex.Succ(u), FrontendIndex.Touched(u), rank, p);
  }

  /** The generations differ by at most one: the editor also counts a child of a family
      without parents as one generation down. */
  lemma {:induction false} GenerationGap(s: Stemma, rank: map<PersonId, nat>, p: PersonId)
    requires Acyclic(s, rank)
    ensures GenerationOf(s, rank, p) <= FrontendIndex.GenerationOf(s, rank, p) <= GenerationOf(s, rank, p) + 1
    decreases if p in rank then rank[p] else 0
  {
    GenerationPositive(s, rank, p);
    GenerationTight(s, rank, p);
    FrontendIndex.GenerationTight(s, rank, p);
    if GenerationOf(s, rank, p) >= 1 {
      var q :| ParentOf(s, q, p) && GenerationOf(s, rank, p) == GenerationOf(s, rank, q) + 1;
      ParentRanked(s, rank, q, p);
      GenerationGap(s, rank, q);
      FrontendIndex.GenerationAboveParents(s, rank, p, q);
    }
    if FrontendIndex.GenerationOf(s, rank, p) > 1 {
      var q :| ParentOf(s, q, p) && FrontendIndex.GenerationOf(s, rank, p) == FrontendIndex.GenerationOf(s, rank, q) + 1;
      ParentRanked(s, rank, q, p);
      GenerationGap(s, rank, q);
      GenerationAboveParents(s, rank, p, q);
    }
  }

  lemma ParentRanked(s: Stemma, rank: map<PersonId, nat>, parent: PersonId, child: PersonId)
    requires Acyclic(s, rank)
    requires ParentOf(s, parent, child)
    ensures parent in rank && child in rank && rank[parent] < rank[child]
  {
    EdgeUp(s, child, parent);
    EdgeRanked(s, rank, child, parent);
  }

  /** A child of a family without parents: generation 1 for the editor, 0 here. */
  lemma GenerationsDiffer()
    ensures var s := Stemma([Person("c", "C", false)], [Family("f", [], ["c"], false)]);
      Acyclic(s, map[]) && GenerationOf(s, map[], "c") == 0 && FrontendIndex.GenerationOf(s, map[], "c") == 1
  {
    var s := Stemma([Person("c", "C", false)], [Family("f", [], ["c"], false)]);
    assert s.families[0] in s.families;
    GenerationPositive(s, map[], "c");
    FrontendIndex.GenerationPositive(s, map[], "c");
    FrontendIndex.GenerationTight(s, map[], "c");
  }

  // ---------------------------------------------------------------------------------
  // The index.

  datatype Index = Index(
    parentToChildren: Table,
    childToParents: Table,
    namesakes: map<string, seq<PersonId>>,
    people: map<PersonId, Person>,
    lineage: map<PersonId, Generation>,
    maxGeneration: Option<nat>)

  /** The lookup tables of the index of tree `s`. */
  ghost predicate TablesOf(idx: Index, s: Stemma) {
    && idx.parentToChildren == TableOf(s.families, Parents)
    && idx.childToParents == TableOf(s.families, Children)
    && idx.namesakes == NamesakeTable(s.people)
    && idx.people == PeopleById(s.people)
  }

  /** One lineage per person id, and the largest generation (`None` for an empty tree). */
  ghost predicate LineagesOf(lineage: map<PersonId, Generation>, maxGeneration: Option<nat>, s: Stemma, rank: map<PersonId, nat>)
    requires Acyclic(s, rank)
  {
    && lineage.Keys == PersonIds(s)
    && (forall id | id in lineage :: lineage[id] == LineageOf(s, rank, id))
    && (maxGeneration == None <==> s.people == [])
    && (maxGeneration.Some? ==>
          (exists p :: p in s.people && GenerationOf(s, rank, p.id) == maxGeneration.value) &&
          (forall p | p in s.people :: GenerationOf(s, rank, p.id) <= maxGeneration.value))
  }

  /** The index of tree `s`, whose parent-to-child relation `rank` orders. */
  ghost predicate IndexOf(idx: Index, s: Stemma, rank: map<PersonId, nat>) {
    && Acyclic(s, rank)
    && TablesOf(idx, s)
    && LineagesOf(idx.lineage, idx.maxGeneration, s, rank)
  }

  /** A person's entry in the lineage table, and its generation. */
  lemma LineageEntry(lineage: map<PersonId, Generation>, maxGeneration: Option<nat>, s: Stemma, rank: map<PersonId, nat>, id: PersonId)
    requires Acyclic(s, rank) && LineagesOf(lineage, maxGeneration, s, rank)
    requires id in PersonIds(s)
    ensures id in lineage && lineage[id] == LineageOf(s, rank, id)
    ensures lineage[id].generation == GenerationOf(s, rank, id)
  {
  }

  /** The constructor. The ranking only witnesses that the tree has no cycle. */
  method Build(s: Stemma, ghost rank: map<PersonId, nat>) returns (idx: Index)
    requires Acyclic(s, rank)
    ensures IndexOf(idx, s, rank)
  {
    var lineage, maxGeneration := BuildLineageTable(s, rank);
    idx := Index(TableOf(s.families, Parents), TableOf(s.families, Children),
                 NamesakeTable(s.people), PeopleById(s.people), lineage, maxGeneration);
  }

  /** The constructor's `_lineage` and `_maxGeneration`. */
  method BuildLineageTable(s: Stemma, ghost rank: map<PersonId, nat>)
    returns (lineage: map<PersonId, Generation>, maxGeneration: Option<nat>)
    requires Acyclic(s, rank)
    ensures LineagesOf(lineage, maxGeneration, s, rank)
  {
    var ptc := TableOf(s.families, Parents);
    var ctp := TableOf(s.families, Children);
    AncestorsRanked(s, rank);
    DescendantsRanked(s, rank);
    lineage, maxGeneration := BuildLineages(s.people, Succ(ctp), Touched(ctp), rank, Succ(ptc), Touched(ptc), Flip(rank));
  }

  /** `lineage(personId)`: an unknown person has the empty lineage of generation 0. */
  function Lineage(idx: Index, id: PersonId): Generation {
    if id in idx.lineage then idx.lineage[id] else EmptyGeneration
  }

  lemma LineageSpec(idx: Index, s: Stemma, rank: map<PersonId, nat>, id: PersonId)
    requires IndexOf(idx, s, rank)
    ensures id in PersonIds(s) ==> Lineage(idx, id) == LineageOf(s, rank, id)
    ensures id !in PersonIds(s) ==> Lineage(idx, id) == Generation(0, {}, {})
  {
  }

  /** `get(personId)`. */
  function PersonById(idx: Index, id: PersonId): Option<Person> {
    Get(idx.people, id)
  }

  lemma PersonSpec(idx: Index, s: Stemma, id: PersonId)
    requires TablesOf(idx, s)
    ensures PersonById(idx, id).Some? <==> id in PersonIds(s)
    ensures PersonById(idx, id).Some? ==> PersonById(idx, id).value in s.people && PersonById(idx, id).value.id == id
    ensures PersonById(idx, id).Some? ==> exists i :: (0 <= i < |s.people| && s.people[i] == PersonById(idx, id).value &&
      forall j :: i < j < |s.people| ==> s.people[j].id != id)
  {
    PeopleByIdSpec(s.people, id);
  }

  /** The other side of every family the person has an entry for. */
  function Across(t: Table, id: PersonId): seq<PersonId> {
    if id in t then FlatMap(t[id], MembersOf) else []
  }

  /** `relativies(personId)`: the lookups of the person's children, of its parents, then
      of the person itself, repeats kept. */
  function Relativies(idx: Index, id: PersonId): (r: seq<Option<Person>>)
    ensures |r| >= 1 && r[|r| - 1] == Get(idx.people, id)
  {
    Lookups(idx.people, Across(idx.parentToChildren, id)) +
    Lookups(idx.people, Across(idx.childToParents, id)) +
    [Get(idx.people, id)]
  }

  lemma AcrossMembership(s: Stemma, side: Side, id: PersonId, q: PersonId)
    ensures q in Across(TableOf(s.families, side), id) <==> Edge(s.families, side, id, q)
  {
    SuccEdges(s.families, side, id, q);
  }

  // ---------------------------------------------------------------------------------
  // `relativies`, list for list, in terms of the tree.

  /** Reference definition: the people across from `id` over every family of the tree, in
      tree order, a family's other side once for each time it lists `id` on `side`. No
      family is skipped and nothing is deduplicated. */
  function Listed(families: seq<Family>, side: Side, id: PersonId): seq<PersonId>
    decreases |families|
  {
    if families == [] then []
    else Repeats(side.Of(families[0]), id, side.Opposite().Of(families[0])) + Listed(families[1..], side, id)
  }

  /** The entries one family files under `id`, flattened, are its other side once per
      listing of `id`. */
  lemma {:induction false} EntriesListed(xs: seq<PersonId>, pairs: seq<(PersonId, Entry)>, id: PersonId, e: Entry)
    requires |pairs| == |xs|
    requires forall i :: 0 <= i < |xs| ==> pairs[i] == (xs[i], e)
    ensures FlatMap(ValuesOf(pairs, id), MembersOf) == Repeats(xs, id, e.members)
    decreases |xs|
  {
    if xs != [] {
      EntriesListed(xs[1..], pairs[1..], id, e);
      var head: seq<Entry> := if xs[0] == id then [e] else [];
      assert ValuesOf(pairs, id) == head + ValuesOf(pairs[1..], id);
      FlatMapAppend(head, ValuesOf(pairs[1..], id), MembersOf);
      if xs[0] == id {
        assert FlatMap(head, MembersOf) == e.members + FlatMap(head[1..], MembersOf);
      }
    }
  }

  lemma {:induction false} PairsListed(families: seq<Family>, side: Side, id: PersonId)
    ensures FlatMap(ValuesOf(Pairs(families, side), id), MembersOf) == Listed(families, side, id)
    decreases |families|
  {
    if families != [] {
      var f := families[0];
      PairsListed(families[1..], side, id);
      ValuesOfAppend(Entries(f, side), Pairs(families[1..], side), id);
      FlatMapAppend(ValuesOf(Entries(f, side), id), ValuesOf(Pairs(families[1..], side), id), MembersOf);
      if |side.Opposite().Of(f)| > 0 {
        EntriesListed(side.Of(f), Entries(f, side), id, EntryOf(f, side));
      } else {
        RepeatsNothing<PersonId, PersonId>(side.Of(f), id);
      }
    }
  }

  /** What a table holds for `id`, flattened, is the reference list: grouping and the
      skipped one-sided families change nothing. */
  lemma AcrossListed(families: seq<Family>, side: Side, id: PersonId)
    ensures Across(TableOf(families, side), id) == Listed(families, side, id)
  {
    var pairs := Pairs(families, side);
    PairsListed(families, side, id);
    if id !in TableOf(families, side) {
      forall i | 0 <= i < |pairs| ensures pairs[i].0 != id {
        assert pairs[i].0 in TableOf(families, side);
      }
      ValuesOfEmpty(pairs, id);
    }
  }

  /** `relativies(personId)` is the lookups of the children of every family listing the
      person as a parent, then of the parents of every family listing it as a child, each
      family in tree order and once per listing, then the person's own lookup. A child the
      person shares with two partners is listed twice. */
  lemma RelativiesListed(idx: Index, s: Stemma, id: PersonId)
    requires TablesOf(idx, s)
    ensures Relativies(idx, id) ==
      Lookups(idx.people, Listed(s.families, Parents, id)) +
      Lookups(idx.people, Listed(s.families, Children, id)) +
      [Get(idx.people, id)]
    ensures |Relativies(idx, id)| == 1 + |Listed(s.families, Parents, id)| + |Listed(s.families, Children, id)|
  {
    AcrossListed(s.families, Parents, id);
    AcrossListed(s.families, Children, id);
  }

  /** Two families of the same parent with the same child: the child is listed once per
      family, so the list is longer than the set of people it names. */
  lemma RepeatsKept()
    ensures Listed([Family("1", ["a"], ["x"], false), Family("2", ["a"], ["x"], false)], Parents, "a") == ["x", "x"]
  {
    var f1 := Family("1", ["a"], ["x"], false);
    var f2 := Family("2", ["a"], ["x"], false);
    assert Repeats(["a"], "a", ["x"]) == ["x"] + Repeats([], "a", ["x"]);
    assert [f1, f2][1..] == [f2];
    assert [f2][1..] == [];
  }

  /** The relatives listed are the lookups of the person, of its children and of its
      parents; unlike the editor's, spouses and siblings are not among them. */
  lemma RelativiesSpec(idx: Index, s: Stemma, id: PersonId, r: Option<Person>)
    requires TablesOf(idx, s)
    ensures r in Relativies(idx, id) <==>
      r == Get(idx.people, id) || exists q :: (ParentOf(s, id, q) || ParentOf(s, q, id)) && r == Get(idx.people, q)
  {
    var cs := Across(idx.parentToChildren, id);
    var ps := Across(idx.childToParents, id);
    LookupsMembership(idx.people, cs, r);
    LookupsMembership(idx.people, ps, r);
    forall q
      ensures (ParentOf(s, id, q) || ParentOf(s, q, id)) <==> q in cs || q in ps
    {
      AcrossMembership(s, Parents, id, q);
      AcrossMembership(s, Children, id, q);
      EdgeDown(s, id, q);
      EdgeUp(s, id, q);
    }
  }

  function EntriesOf(t: Table, id: PersonId): seq<Entry> {
    if id in t then t[id] else []
  }

  /** A family as `relatedFamilies` reports it: the person alone on its own side. */
  function Viewed(side: Side, id: PersonId, e: Entry): FamilyDescription {
    if side == Parents then FamilyDescription(e.familyId, [id], e.members)
    else FamilyDescription(e.familyId, e.members, [id])
  }

  function ViewedList(es: seq<Entry>, side: Side, id: PersonId): seq<FamilyDescription> {
    MapSeq(es, (e: Entry) => Viewed(side, id, e))
  }

  function ViewedAll(t: Table, side: Side, id: PersonId): seq<FamilyDescription> {
    ViewedList(EntriesOf(t, id), side, id)
  }

  /** `relatedFamilies(personId)`: the families the person is a parent in, then those the
      person is a child in. */
  function RelatedFamilies(idx: Index, id: PersonId): seq<FamilyDescription> {
    ViewedAll(idx.parentToChildren, Parents, id) + ViewedAll(idx.childToParents, Children, id)
  }

  /** `x` reports a family of the tree with `id` on `side` and someone on the other side,
      listing `id` alone on its side. */
  ghost predicate ReportedOn(s: Stemma, side: Side, id: PersonId, x: FamilyDescription) {
    exists f :: f in s.families && Contributes(f, side, id) && x == Viewed(side, id, EntryOf(f, side))
  }

  lemma ViewedSide(s: Stemma, side: Side, id: PersonId, x: FamilyDescription)
    ensures x in ViewedAll(TableOf(s.families, side), side, id) <==> ReportedOn(s, side, id, x)
  {
    var t := TableOf(s.families, side);
    var es := EntriesOf(t, id);
    if x in ViewedAll(t, side, id) {
      var i :| 0 <= i < |es| && Viewed(side, id, es[i]) == x;
      TableEntries(s.families, side, id, es[i]);
    }
    if f :| f in s.families && Contributes(f, side, id) && x == Viewed(side, id, EntryOf(f, side)) {
      TableEntries(s.families, side, id, EntryOf(f, side));
      var i :| 0 <= i < |es| && es[i] == EntryOf(f, side);
      assert ViewedAll(t, side, id)[i] == x;
    }
  }

  /** Every family reported on one side, and only those. */
  lemma ViewedAllSide(s: Stemma, side: Side, id: PersonId)
    ensures forall x :: x in ViewedAll(TableOf(s.families, side), side, id) <==> ReportedOn(s, side, id, x)
  {
    forall x
      ensures x in ViewedAll(TableOf(s.families, side), side, id) <==> ReportedOn(s, side, id, x)
    {
      ViewedSide(s, side, id, x);
    }
  }

  /** The first `k` records of `r` are exactly those reported on the parents' side and the
      rest exactly those reported on the children's side. */
  ghost predicate SplitsReported(r: seq<FamilyDescription>, s: Stemma, id: PersonId, k: int) {
    && 0 <= k <= |r|
    && (forall x :: x in r[..k] <==> ReportedOn(s, Parents, id, x))
    && (forall x :: x in r[k..] <==> ReportedOn(s, Children, id, x))
  }

  lemma SplitReported(r: seq<FamilyDescription>, a: seq<FamilyDescription>, b: seq<FamilyDescription>, s: Stemma, id: PersonId)
    requires r == a + b
    requires forall x :: x in a <==> ReportedOn(s, Parents, id, x)
    requires forall x :: x in b <==> ReportedOn(s, Children, id, x)
    ensures SplitsReported(r, s, id, |a|)
  {
    assert r[..|a|] == a && r[|a|..] == b;
  }

  /** The related families are every family with children the person is a parent in,
      followed by every family with parents the person is a child in; a co-parent or a
      sibling is not listed on the person's side. */
  lemma RelatedFamiliesSpec(idx: Index, s: Stemma, id: PersonId)
    requires TablesOf(idx, s)
    ensures exists k :: SplitsReported(RelatedFamilies(idx, id), s, id, k)
  {
    var a := ViewedAll(TableOf(s.families, Parents), Parents, id);
    var b := ViewedAll(TableOf(s.families, Children), Children, id);
    assert RelatedFamilies(idx, id) == a + b;
    ViewedAllSide(s, Parents, id);
    ViewedAllSide(s, Children, id);
    SplitReported(RelatedFamilies(idx, id), a, b, s, id);
  }

  // ---------------------------------------------------------------------------------
  // `relatedFamilies`, list for list, in terms of the tree.

  /** Reference definition: the records `relatedFamilies` gives on `side`, over every
      family of the tree in tree order. A family with `id` on `side` and someone on the other
      side is reported once for each time it lists `id`; a one-sided family is not. */
  function ReportedList(families: seq<Family>, side: Side, id: PersonId): seq<FamilyDescription>
    decreases |families|
  {
    if families == [] then []
    else
      var f := families[0];
      (if |side.Opposite().Of(f)| > 0 then Repeats(side.Of(f), id, [Viewed(side, id, EntryOf(f, side))]) else []) +
      ReportedList(families[1..], side, id)
  }

  lemma ViewedListAppend(a: seq<Entry>, b: seq<Entry>, side: Side, id: PersonId)
    ensures ViewedList(a + b, side, id) == ViewedList(a, side, id) + ViewedList(b, side, id)
  {
    var l, r := ViewedList(a + b, side, id), ViewedList(a, side, id) + ViewedList(b, side, id);
    assert |l| == |r|;
    forall i | 0 <= i < |l| ensures l[i] == r[i] {
      if i < |a| {
        assert (a + b)[i] == a[i];
      } else {
        assert (a + b)[i] == b[i - |a|];
      }
    }
  }

  lemma {:induction false} ViewedListRepeats(xs: seq<PersonId>, side: Side, id: PersonId, e: Entry)
    ensures ViewedList(Repeats(xs, id, [e]), side, id) == Repeats(xs, id, [Viewed(side, id, e)])
    decreases |xs|
  {
    if xs != [] {
      var head: seq<Entry> := if xs[0] == id then [e] else [];
      ViewedListRepeats(xs[1..], side, id, e);
      ViewedListAppend(head, Repeats(xs[1..], id, [e]), side, id);
    }
  }

  lemma {:induction false} PairsReported(families: seq<Family>, side: Side, id: PersonId)
    ensures ViewedList(ValuesOf(Pairs(families, side), id), side, id) == ReportedList(families, side, id)
    decreases |families|
  {
    if families != [] {
      var f := families[0];
      PairsReported(families[1..], side, id);
      ValuesOfAppend(Entries(f, side), Pairs(families[1..], side), id);
      ViewedListAppend(ValuesOf(Entries(f, side), id), ValuesOf(Pairs(families[1..], side), id), side, id);
      if |side.Opposite().Of(f)| > 0 {
        ValuesOfKeyed(side.Of(f), Entries(f, side), id, EntryOf(f, side));
        ViewedListRepeats(side.Of(f), side, id, EntryOf(f, side));
      }
    }
  }

  /** A table's entries for `id` are the values the tree's pairs give `id`, none at all when
      `id` has no entry. */
  lemma EntriesOfValues(families: seq<Family>, side: Side, id: PersonId)
    ensures EntriesOf(TableOf(families, side), id) == ValuesOf(Pairs(families, side), id)
  {
    var pairs := Pairs(families, side);
    if id !in TableOf(families, side) {
      forall i | 0 <= i < |pairs| ensures pairs[i].0 != id {
        assert pairs[i].0 in TableOf(families, side);
      }
      ValuesOfEmpty(pairs, id);
    }
  }

  /** `relatedFamilies(personId)` is one record for every time a family of the tree lists
      the person as a parent (with children), in tree order, then one for every time a
      family lists the person as a child (with parents), in tree order. */
  lemma RelatedFamiliesListed(idx: Index, s: Stemma, id: PersonId)
    requires TablesOf(idx, s)
    ensures RelatedFamilies(idx, id) == ReportedList(s.families, Parents, id) + ReportedList(s.families, Children, id)
  {
    EntriesOfValues(s.families, Parents, id);
    EntriesOfValues(s.families, Children, id);
    PairsReported(s.families, Parents, id);
    PairsReported(s.families, Children, id);
  }

  /** A parent of two families with children gets one record per family, in tree order,
      each with the person alone on the parents' side. */
  lemma RelatedInTreeOrder()
    ensures ReportedList([Family("1", ["a", "b"], ["x"], false), Family("2", ["a"], ["y"], false)], Parents, "a") ==
      [FamilyDescription("1", ["a"], ["x"]), FamilyDescription("2", ["a"], ["y"])]
  {
  }

  /** `namesakes(personName)`. */
  function NamesakesOf(idx: Index, name: string): seq<Option<Person>> {
    Namesakes(idx.namesakes, idx.people, name)
  }

  lemma NamesakesOfSpec(idx: Index, s: Stemma, name: string)
    requires TablesOf(idx, s)
    ensures NamesakesOf(idx, name) ==
      MapSeq(Filter(s.people, (p: Person) => p.name == name), (p: Person) => Get(PeopleById(s.people), p.id))
  {
    NamesakesSpec(s.people, name);
  }
}

=== FILE: directory.dfy ===
/** The person lookups both versions of the index keep: `_people` (id to person, built
    with `new Map`, so the last person with an id wins) and `_namesakes` (name to the ids
    carrying it, built with `groupByKey`). */
module Directory {
  import opened Wrappers
  import opened Seqs
  import opened Model
  import opened Grouping

  function PeopleById(people: seq<Person>): map<PersonId, Person> {
    LastWins(MapSeq(people, (p: Person) => (p.id, p)))
  }

  /** `Map.prototype.get`: `None` is `undefined`. */
  function Get(byId: map<PersonId, Person>, id: PersonId): (r: Option<Person>)
    ensures r.Some? <==> id in byId
  {
    if id in byId then Some(byId[id]) else None
  }

  /** Each id looked up in turn. */
  function Lookups(byId: map<PersonId, Person>, ids: seq<PersonId>): seq<Option<Person>> {
    MapSeq(ids, (id: PersonId) => Get(byId, id))
  }

  lemma LookupsMembership(byId: map<PersonId, Person>, ids: seq<PersonId>, r: Option<Person>)
    ensures r in Lookups(byId, ids) <==> exists id :: id in ids && r == Get(byId, id)
  {
    if id :| id in ids && r == Get(byId, id) {
      var i :| 0 <= i < |ids| && ids[i] == id;
      assert Lookups(byId, ids)[i] == r;
    }
  }

  function NamesakeTable(people: seq<Person>): map<string, seq<PersonId>> {
    GroupByKey(MapSeq(people, (p: Person) => (p.name, p.id)))
  }

  /** `namesakes(name)`: the people recorded under a name, looked up by id. */
  function Namesakes(table: map<string, seq<PersonId>>, byId: map<PersonId, Person>, name: string): (r: seq<Option<Person>>)
    ensures name !in table ==> r == []
  {
    if name in table then Lookups(byId, table[name]) else []
  }

  ghost predicate UniqueIds(people: seq<Person>) {
    forall i, j :: 0 <= i < j < |people| ==> people[i].id != people[j].id
  }

  lemma {:induction false} NamedIds(people: seq<Person>, name: string)
    ensures ValuesOf(MapSeq(people, (p: Person) => (p.name, p.id)), name) ==
      MapSeq(Filter(people, (p: Person) => p.name == name), (p: Person) => p.id)
    decreases |people|
  {
    if people != [] {
      var pair := (p: Person) => (p.name, p.id);
      MapSeqCons(people, pair);
      assert MapSeq(people, pair)[1..] == MapSeq(people[1..], pair);
      NamedIds(people[1..], name);
      var head := if people[0].name == name then [people[0]] else [];
      MapSeqAppend(head, Filter(people[1..], (p: Person) => p.name == name), (p: Person) => p.id);
    }
  }

  /** `namesakes(name)` lists the people named `name`, in input order (each looked up by
      its id), and nothing for an unused name. */
  lemma NamesakesSpec(people: seq<Person>, name: string)
    ensures Namesakes(NamesakeTable(people), PeopleById(people), name) ==
      MapSeq(Filter(people, (p: Person) => p.name == name), (p: Person) => Get(PeopleById(people), p.id))
  {
    var named := Filter(people, (p: Person) => p.name == name);
    var table := NamesakeTable(people);
    NamedIds(people, name);
    if name in table {
      var ids := MapSeq(named, (p: Person) => p.id);
      assert table[name] == ids;
    } else {
      ValuesOfEmpty(MapSeq(people, (p: Person) => (p.name, p.id)), name);
    }
  }

  /** `_people` has an entry exactly for the ids some person carries, and each entry is
      the last person in the list carrying its key. */
  lemma PeopleByIdSpec(people: seq<Person>, id: PersonId)
    ensures id in PeopleById(people) <==> exists p :: p in people && p.id == id
    ensures id in PeopleById(people) ==> PeopleById(people)[id] in people && PeopleById(people)[id].id == id
    ensures id in PeopleById(people) ==> exists i :: (0 <= i < |people| && people[i] == PeopleById(people)[id] &&
      forall j :: i < j < |people| ==> people[j].id != id)
  {
    var pairs := MapSeq(people, (p: Person) => (p.id, p));
    if id in PeopleById(people) {
      LastWinsValue(pairs, id);
      var i :| 0 <= i < |pairs| && pairs[i] == (id, PeopleById(people)[id]) && forall j :: i < j < |pairs| ==> pairs[j].0 != id;
      assert people[i] == PeopleById(people)[id];
      forall j | i < j < |people| ensures people[j].id != id {
        assert pairs[j].0 == people[j].id;
      }
    }
    if p :| p in people && p.id == id {
      var i :| 0 <= i < |people| && people[i] == p;
      assert pairs[i].0 == id;
    }
  }

  /** With distinct ids every person is its own entry of `_people`. */
  lemma PeopleByIdUnique(people: seq<Person>, i: nat)
    requires UniqueIds(people)
    requires i < |people|
    ensures PeopleById(people)[people[i].id] == people[i]
  {
    var pairs := MapSeq(people, (p: Person) => (p.id, p));
    assert pairs[i].0 == people[i].id;
    LastWinsValue(pairs, people[i].id);
  }

  /** With distinct ids `namesakes(name)` is exactly the people named `name`, in order. */
  lemma NamesakesUnique(people: seq<Person>, name: string)
    requires UniqueIds(people)
    ensures Namesakes(NamesakeTable(people), PeopleById(people), name) ==
      MapSeq(Filter(people, (p: Person) => p.name == name), (p: Person) => Some(p))
  {
    NamesakesSpec(people, name);
    var named := Filter(people, (p: Person) => p.name == name);
    forall k | 0 <= k < |named|
      ensures Get(PeopleById(people), named[k].id) == Some(named[k])
    {
      var i :| 0 <= i < |people| && people[i] == named[k];
      PeopleByIdUnique(people, i);
    }
  }
}

=== FILE: error_mapping.dfy ===
/** How a server response carrying an error becomes a localized error: the error fields
    are tried in a fixed order and the first one present decides the message key. */
module ErrorMapping {
  import opened Wrappers
  import opened I18n

  datatype ChildInFamily = ChildInFamily(familyId: string, personId: string)

  /** The error fields a response may carry, with the payload each one names. A field
      whose payload is empty is a flag. */
  datatype ErrorFields = ErrorFields(
    unknownError: Option<string>,
    requestDeserializationProblem: Option<string>,
    noSuchPersonId: Option<string>,
    childAlreadyBelongsToFamily: Option<ChildInFamily>,
    incompleteFamily: bool,
    duplicatedIds: Option<string>,
    accessToFamilyDenied: Option<string>,
    accessToPersonDenied: Option<string>,
    accessToStemmaDenied: Option<string>,
    invalidInviteToken: bool,
    foreignInviteToken: bool,
    stemmaHasCycles: bool)

  /** The response handed back, or the error thrown. */
  datatype Outcome<T> = Returned(value: T) | Thrown(error: LocalizedError)

  function Named(name: string): Option<map<string, string>> {
    Some(map["name" := name])
  }

  /** `mapStemmaError`. */
  function MapStemmaError<T>(response: T, e: ErrorFields, describePerson: string -> string): Outcome<T> {
    if e.unknownError.Some? then Thrown(LocalizedError("error.unknown", None))
    else if e.requestDeserializationProblem.Some? then Thrown(LocalizedError("error.invalidRequest", None))
    else if e.noSuchPersonId.Some? then
      Thrown(LocalizedError("error.noSuchPerson", Named(describePerson(e.noSuchPersonId.value))))
    else if e.childAlreadyBelongsToFamily.Some? then
      Thrown(LocalizedError("error.childAlreadyHasParents", Named(describePerson(e.childAlreadyBelongsToFamily.value.personId))))
    else if e.incompleteFamily then Thrown(LocalizedError("error.incompleteFamily", None))
    else if e.duplicatedIds.Some? then
      Thrown(LocalizedError("error.duplicatedIds", Named(describePerson(e.duplicatedIds.value))))
    else if e.accessToFamilyDenied.Some? then Thrown(LocalizedError("error.accessToFamilyDenied", None))
    else if e.accessToPersonDenied.Some? then
      Thrown(LocalizedError("error.accessToPersonDenied", Named(describePerson(e.accessToPersonDenied.value))))
    else if e.accessToStemmaDenied.Some? then Thrown(LocalizedError("error.accessToStemmaDenied", None))
    else if e.invalidInviteToken then Thrown(LocalizedError("error.invalidInviteToken", None))
    else if e.foreignInviteToken then Thrown(LocalizedError("error.foreignInviteToken", None))
    else if e.stemmaHasCycles then Thrown(LocalizedError("error.stemmaHasCycles", None))
    else Returned(response)
  }

  // ---------------------------------------------------------------------------------
  // The order, as data.

  /** Which fields are present, in the order they are tried. */
  function Present(e: ErrorFields): (r: seq<bool>)
    ensures |r| == 12
  {
    [e.unknownError.Some?, e.requestDeserializationProblem.Some?, e.noSuchPersonId.Some?,
     e.childAlreadyBelongsToFamily.Some?, e.incompleteFamily, e.duplicatedIds.Some?,
     e.accessToFamilyDenied.Some?, e.accessToPersonDenied.Some?, e.accessToStemmaDenied.Some?,
     e.invalidInviteToken, e.foreignInviteToken, e.stemmaHasCycles]
  }

  /** The message key of each field, in the same order. */
  const ErrorKeys: seq<string> := [
    "error.unknown", "error.invalidRequest", "error.noSuchPerson", "error.childAlreadyHasParents",
    "error.incompleteFamily", "error.duplicatedIds", "error.accessToFamilyDenied",
    "error.accessToPersonDenied", "error.accessToStemmaDenied", "error.invalidInviteToken",
    "error.foreignInviteToken", "error.stemmaHasCycles"]

  /** The fields whose message names a person. */
  const NamingFields: set<nat> := {2, 3, 5, 7}

  /** The first index from `from` on where `flags` holds. */
  function FirstSet(flags: seq<bool>, from: nat): (r: Option<nat>)
    requires from <= |flags|
    ensures r.Some? ==> from <= r.value < |flags| && flags[r.value] && forall j :: from <= j < r.value ==> !flags[j]
    ensures r.None? ==> forall j :: from <= j < |flags| ==> !flags[j]
    decreases |flags| - from
  {
    if from == |flags| then None
    else if flags[from] then Some(from)
    else FirstSet(flags, from + 1)
  }

  /** The person a naming field names. */
  function NamedPerson(e: ErrorFields, i: nat): string
    requires i in NamingFields && Present(e)[i]
  {
    if i == 2 then e.noSuchPersonId.value
    else if i == 3 then e.childAlreadyBelongsToFamily.value.personId
    else if i == 5 then e.duplicatedIds.value
    else e.accessToPersonDenied.value
  }

  /** A response comes back as it is exactly when it carries no error field. */
  lemma NoFieldReturned<T>(response: T, e: ErrorFields, describePerson: string -> string)
    ensures FirstSet(Present(e), 0).None? <==> MapStemmaError(response, e, describePerson) == Returned(response)
  {
    var p := Present(e);
    if FirstSet(p, 0).None? {
      assert !p[0] && !p[1] && !p[2] && !p[3] && !p[4] && !p[5];
      assert !p[6] && !p[7] && !p[8] && !p[9] && !p[10] && !p[11];
    }
  }

  /** Otherwise the first field present, in the order of `ErrorKeys`, decides the key ... */
  lemma FirstFieldDecides<T>(response: T, e: ErrorFields, describePerson: string -> string, i: nat)
    requires FirstSet(Present(e), 0) == Some(i)
    ensures MapStemmaError(response, e, describePerson).Thrown?
    ensures MapStemmaError(response, e, describePerson).error.key == ErrorKeys[i]
  {
    FieldsBefore(e, i);
  }

  /** ... and only the four fields that name a person carry a `name` parameter: the
      described person. */
  lemma FirstFieldParams<T>(response: T, e: ErrorFields, describePerson: string -> string, i: nat)
    requires FirstSet(Present(e), 0) == Some(i)
    ensures MapStemmaError(response, e, describePerson).Thrown?
    ensures i in NamingFields ==> MapStemmaError(response, e, describePerson).error.params == Named(describePerson(NamedPerson(e, i)))
    ensures i !in NamingFields ==> MapStemmaError(response, e, describePerson).error.params == None
  {
    FieldsBefore(e, i);
  }

  /** The fields before the first present one are absent, spelled out. */
  lemma FieldsBefore(e: ErrorFields, i: nat)
    requires FirstSet(Present(e), 0) == Some(i)
    ensures i < 12 && Present(e)[i]
    ensures i > 0 ==> e.unknownError.None?
    ensures i > 1 ==> e.requestDeserializationProblem.None?
    ensures i > 2 ==> e.noSuchPersonId.None?
    ensures i > 3 ==> e.childAlreadyBelongsToFamily.None?
    ensures i > 4 ==> !e.incompleteFamily
    ensures i > 5 ==> e.duplicatedIds.None?
    ensures i > 6 ==> e.accessToFamilyDenied.None?
    ensures i > 7 ==> e.accessToPersonDenied.None?
    ensures i > 8 ==> e.accessToStemmaDenied.None?
    ensures i > 9 ==> !e.invalidInviteToken
    ensures i > 10 ==> !e.foreignInviteToken
  {
    var p := Present(e);
    if i > 0 { assert !p[0]; }
    if i > 1 { assert !p[1]; }
    if i > 2 { assert !p[2]; }
    if i > 3 { assert !p[3]; }
    if i > 4 { assert !p[4]; }
    if i > 5 { assert !p[5]; }
    if i > 6 { assert !p[6]; }
    if i > 7 { assert !p[7]; }
    if i > 8 { assert !p[8]; }
    if i > 9 { assert !p[9]; }
    if i > 10 { assert !p[10]; }
  }

  function Bracketed(id: string): string {
    "[" + id + "]"
  }

  /** The examples of the error-mapping tests. */
  const NoErrors := ErrorFields(None, None, None, None, false, None, None, None, None, false, false, false)

  lemma MappingExamples()
    ensures MapStemmaError(0, NoErrors.(unknownError := Some("x")), Bracketed) == Thrown(LocalizedError("error.unknown", None))
    ensures MapStemmaError(0, NoErrors.(noSuchPersonId := Some("p1")), Bracketed) == Thrown(LocalizedError("error.noSuchPerson", Named("[p1]")))
    ensures MapStemmaError(7, NoErrors, Bracketed) == Returned(7)
  {
    assert Bracketed("p1") == "[p1]";
  }

  // ---------------------------------------------------------------------------------
  // Every key has its messages.

  /** Every key the mapping can raise has a non-empty message in both dictionaries. */
  lemma KeysTranslated(l: Locale, i: nat)
    requires i < 12
    ensures ErrorKeys[i] in Dictionary(l) && Dictionary(l)[ErrorKeys[i]] != ""
  {
  }

  /** The keys of the naming fields are the messages written around a name. */
  lemma NamingKeys(l: Locale, i: nat)
    requires i < 12
    ensures i in NamingFields <==> NameMessageOf(l, ErrorKeys[i]).Some?
  {
  }

  /** The message of a mapped error shows the described person whenever its field names
      one, in either language. */
  lemma MessageNamesPerson<T>(l: Locale, response: T, e: ErrorFields, describePerson: string -> string)
    requires FirstSet(Present(e), 0).Some? && FirstSet(Present(e), 0).value in NamingFields
    requires NameMessageOf(l, ErrorKeys[FirstSet(Present(e), 0).value]).Some?
    requires NameMessageOf(l, ErrorKeys[FirstSet(Present(e), 0).value]).value.Plain()
    ensures var i := FirstSet(Present(e), 0).value;
      var m := NameMessageOf(l, ErrorKeys[i]).value;
      Message(l, MapStemmaError(response, e, describePerson).error) == m.before + describePerson(NamedPerson(e, i)) + m.after
  {
    var i := FirstSet(Present(e), 0).value;
    var m := NameMessageOf(l, ErrorKeys[i]).value;
    FirstFieldDecides(response, e, describePerson, i);
    FirstFieldParams(response, e, describePerson, i);
    NameMessageListed(l, ErrorKeys[i]);
    NameMessageFilled(m, map["name" := describePerson(NamedPerson(e, i))]);
  }
}

=== FILE: frontend_index.dfy ===
/** The editor's `StemmaIndex` (frontend/src/stemmaIndex.ts): lookup tables built once
    from a tree, a lineage per person, and the queries the views ask of it. */
module FrontendIndex {
  import opened Wrappers
  import opened Seqs
  import opened Model
  import opened Grouping
  import opened Walk
  import opened Directory

  /** A family seen from one of its members: `members` is the other side of the family
      (the side the walk moves to), `otherMembers` the member's own side. */
  datatype Directed = Directed(familyId: FamilyId, members: seq<PersonId>, otherMembers: seq<PersonId>)

  type Table = map<PersonId, seq<Directed>>

  datatype FamilyMembers = FamilyMembers(familyId: FamilyId, members: seq<PersonId>)

  /** The pairs one family contributes to a table: one per person on `side`. The source
      guards these with `if (f.children)` / `if (f.parents)`, which an array always passes. */
  function Entries(f: Family, side: Side): seq<(PersonId, Directed)> {
    MapSeq(side.Of(f), (k: PersonId) => (k, Directed(f.id, side.Opposite().Of(f), side.Of(f))))
  }

  function Pairs(families: seq<Family>, side: Side): seq<(PersonId, Directed)>
    decreases |families|
  {
    if families == [] then [] else Entries(families[0], side) + Pairs(families[1..], side)
  }

  /** `_parentToChildren` (side `Parents`) and `_childToParents` (side `Children`). */
  function TableOf(families: seq<Family>, side: Side): Table {
    GroupByKey(Pairs(families, side))
  }

  lemma {:induction false} PairsMembership(families: seq<Family>, side: Side, k: PersonId, d: Directed)
    ensures (k, d) in Pairs(families, side) <==>
      exists f :: f in families && k in side.Of(f) && d == Directed(f.id, side.Opposite().Of(f), side.Of(f))
    decreases |families|
  {
    if families != [] {
      PairsMembership(families[1..], side, k, d);
      var f0 := families[0];
      if k in side.Of(f0) && d == Directed(f0.id, side.Opposite().Of(f0), side.Of(f0)) {
        var i :| 0 <= i < |side.Of(f0)| && side.Of(f0)[i] == k;
        assert Entries(f0, side)[i] == (k, d);
      }
      if (k, d) in Entries(f0, side) {
        var i :| 0 <= i < |Entries(f0, side)| && Entries(f0, side)[i] == (k, d);
        assert side.Of(f0)[i] == k;
      }
      assert forall f :: f in families <==> f == f0 || f in families[1..];
    }
  }

  /** A person's entries in a table are exactly the families that have the person on the
      table's side, each seen from that side. */
  lemma TableEntries(families: seq<Family>, side: Side, k: PersonId, d: Directed)
    ensures (k in TableOf(families, side) && d in TableOf(families, side)[k]) <==>
      exists f :: f in families && k in side.Of(f) && d == Directed(f.id, side.Opposite().Of(f), side.Of(f))
  {
    GroupByKeyMembership(Pairs(families, side), k, d);
    PairsMembership(families, side, k, d);
  }

  /** A person has an entry exactly when some family has the person on the table's side. */
  lemma TableKeys(families: seq<Family>, side: Side, k: PersonId)
    ensures k in TableOf(families, side) <==> exists f :: f in families && k in side.Of(f)
  {
    var t := TableOf(families, side);
    if k in t {
      var d := t[k][0];
      TableEntries(families, side, k, d);
    }
    if f :| f in families && k in side.Of(f) {
      TableEntries(families, side, k, Directed(f.id, side.Opposite().Of(f), side.Of(f)));
    }
  }

  // ---------------------------------------------------------------------------------
  // What the walk sees of a table.

  function MembersOf(d: Directed): seq<PersonId> {
    d.members
  }

  function IdOf(d: Directed): FamilyId {
    d.familyId
  }

  predicate Fruitful(d: Directed) {
    |d.members| > 0
  }

  /** The people the walk queues after a person: `descr.flatMap(x => x.members)`. */
  function Succ(t: Table): Adjacency {
    map k | k in t :: FlatMap(t[k], MembersOf)
  }

  /** The families the walk records at a person: the entries with members. */
  function Touched(t: Table): map<PersonId, seq<FamilyId>> {
    map k | k in t :: MapSeq(Filter(t[k], Fruitful), IdOf)
  }

  lemma TouchedKeys(t: Table)
    ensures Touched(t).Keys == Succ(t).Keys
  {
  }

  /** The walk moves from `k` to `m` exactly when some family has `k` on the table's side
      and `m` on the other. */
  lemma SuccEdges(families: seq<Family>, side: Side, k: PersonId, m: PersonId)
    ensures (k in Succ(TableOf(families, side)) && m in Succ(TableOf(families, side))[k]) <==> Edge(families, side, k, m)
  {
    var t := TableOf(families, side);
    if k in t && m in Succ(t)[k] {
      FlatMapMembership(t[k], MembersOf, m);
      var d: Directed :| d in t[k] && m in d.members;
      TableEntries(families, side, k, d);
    }
    if f :| f in families && k in side.Of(f) && m in side.Opposite().Of(f) {
      var d := Directed(f.id, side.Opposite().Of(f), side.Of(f));
      TableEntries(families, side, k, d);
      FlatMapMembership(t[k], MembersOf, m);
    }
  }

  /** The walk records family `id` at `k` exactly when a family with that id has `k` on
      the table's side and someone on the other side. */
  lemma TouchedEntries(families: seq<Family>, side: Side, k: PersonId, id: FamilyId)
    ensures (k in Touched(TableOf(families, side)) && id in Touched(TableOf(families, side))[k]) <==> Joins(families, side, k, id)
  {
    var t := TableOf(families, side);
    if k in t && id in Touched(t)[k] {
      TouchedFound(families, side, k, id);
    }
    if Joins(families, side, k, id) {
      TouchedRecorded(families, side, k, id);
    }
  }

  lemma TouchedFound(families: seq<Family>, side: Side, k: PersonId, id: FamilyId)
    requires k in TableOf(families, side) && id in Touched(TableOf(families, side))[k]
    ensures Joins(families, side, k, id)
  {
    var t := TableOf(families, side);
    var ds := Filter(t[k], Fruitful);
    assert Touched(t)[k] == MapSeq(ds, IdOf);
    var i :| 0 <= i < |ds| && IdOf(ds[i]) == id;
    TableEntries(families, side, k, ds[i]);
  }

  lemma TouchedRecorded(families: seq<Family>, side: Side, k: PersonId, id: FamilyId)
    requires Joins(families, side, k, id)
    ensures k in Touched(TableOf(families, side)) && id in Touched(TableOf(families, side))[k]
  {
    var t := TableOf(families, side);
    var f :| f in families && k in side.Of(f) && |side.Opposite().Of(f)| > 0 && f.id == id;
    var d := Directed(f.id, side.Opposite().Of(f), side.Of(f));
    TableEntries(families, side, k, d);
    var ds := Filter(t[k], Fruitful);
    assert Fruitful(d);
    var i :| 0 <= i < |ds| && ds[i] == d;
    assert MapSeq(ds, IdOf)[i] == id;
  }

  /** Towards ancestors (keyed by children) every edge goes down in the ranking. */
  lemma AncestorsRanked(s: Stemma, rank: map<PersonId, nat>)
    requires Acyclic(s, rank)
    ensures Ranked(Succ(TableOf(s.families, Children)), rank)
  {
    var succ := Succ(TableOf(s.families, Children));
    forall k | k in succ
      ensures forall i | 0 <= i < |succ[k]| :: Below(rank, succ[k][i], k)
    {
      forall i | 0 <= i < |succ[k]|
        ensures Below(rank, succ[k][i], k)
      {
        SuccEdges(s.families, Children, k, succ[k][i]);
        EdgeRanked(s, rank, k, succ[k][i]);
      }
    }
  }

  /** Towards descendants (keyed by parents) every edge goes down in the flipped ranking. */
  lemma DescendantsRanked(s: Stemma, rank: map<PersonId, nat>)
    requires Acyclic(s, rank)
    ensures Ranked(Succ(TableOf(s.families, Parents)), Flip(rank))
  {
    var succ := Succ(TableOf(s.families, Parents));
    var flipped := Flip(rank);
    forall k | k in succ
      ensures forall i | 0 <= i < |succ[k]| :: Below(flipped, succ[k][i], k)
    {
      forall i | 0 <= i < |succ[k]|
        ensures Below(flipped, succ[k][i], k)
      {
        SuccEdges(s.families, Parents, k, succ[k][i]);
        EdgeRanked(s, rank, succ[k][i], k);
        FlipOrder(rank, k, succ[k][i]);
      }
    }
  }

  // ---------------------------------------------------------------------------------
  // Lineage, in terms of the tree.

  ghost function Ancestors(s: Stemma, rank: map<PersonId, nat>, p: PersonId): set<PersonId>
    requires Acyclic(s, rank)
  {
    AncestorsRanked(s, rank);
    Reach(Succ(TableOf(s.families, Children)), rank, p)
  }

  ghost function Descendants(s: Stemma, rank: map<PersonId, nat>, p: PersonId): set<PersonId>
    requires Acyclic(s, rank)
  {
    DescendantsRanked(s, rank);
    Reach(Succ(TableOf(s.families, Parents)), Flip(rank), p)
  }

  /** What `buildLineage` yields for a person of the tree. */
  ghost function LineageOf(s: Stemma, rank: map<PersonId, nat>, p: PersonId): Generation
    requires Acyclic(s, rank)
  {
    AncestorsRanked(s, rank);
    DescendantsRanked(s, rank);
    var anc := TableOf(s.families, Children);
    var desc := TableOf(s.families, Parents);
    Combined(Succ(anc), Touched(anc), rank, Succ(desc), Touched(desc), Flip(rank), p)
  }

  lemma StepFrom(s: Stemma, side: Side, rank: map<PersonId, nat>, p: PersonId, x: PersonId)
    requires Ranked(Succ(TableOf(s.families, side)), rank)
    ensures x in Reach(Succ(TableOf(s.families, side)), rank, p) <==>
      x == p || exists q :: Edge(s.families, side, p, q) && x in Reach(Succ(TableOf(s.families, side)), rank, q)
  {
    var succ := Succ(TableOf(s.families, side));
    ReachVia(succ, rank, p, x);
    if q :| p in succ && q in succ[p] && x in Reach(succ, rank, q) {
      SuccEdges(s.families, side, p, q);
    }
    if q :| Edge(s.families, side, p, q) && x in Reach(succ, rank, q) {
      SuccEdges(s.families, side, p, q);
    }
  }

  /** A person's ancestors are the person and every ancestor of its parents. */
  lemma AncestorsStep(s: Stemma, rank: map<PersonId, nat>, p: PersonId, x: PersonId)
    requires Acyclic(s, rank)
    ensures x in Ancestors(s, rank, p) <==> x == p || exists q :: ParentOf(s, q, p) && x in Ancestors(s, rank, q)
  {
    AncestorsRanked(s, rank);
    StepFrom(s, Children, rank, p, x);
    forall q ensures ParentOf(s, q, p) <==> Edge(s.families, Children, p, q) {
      EdgeUp(s, p, q);
    }
  }

  /** A person's descendants are the person and every descendant of its children. */
  lemma DescendantsStep(s: Stemma, rank: map<PersonId, nat>, p: PersonId, x: PersonId)
    requires Acyclic(s, rank)
    ensures x in Descendants(s, rank, p) <==> x == p || exists q :: ParentOf(s, p, q) && x in Descendants(s, rank, q)
  {
    DescendantsRanked(s, rank);
    StepFrom(s, Parents, Flip(rank), p, x);
    forall q ensures ParentOf(s, p, q) <==> Edge(s.families, Parents, p, q) {
      EdgeDown(s, p, q);
    }
  }

  /** The length of the longest chain of ancestors above `p`, as the ancestor walk
      measures it. */
  ghost function GenerationOf(s: Stemma, rank: map<PersonId, nat>, p: PersonId): nat
    requires Acyclic(s, rank)
  {
    AncestorsRanked(s, rank);
    Height(Succ(TableOf(s.families, Children)), rank, p)
  }

  ghost function AncestorFamilies(s: Stemma, rank: map<PersonId, nat>, p: PersonId): set<FamilyId>
    requires Acyclic(s, rank)
  {
    AncestorsRanked(s, rank);
    var anc := TableOf(s.families, Children);
    Fams(Succ(anc), Touched(anc), rank, p)
  }

  ghost function DescendantFamilies(s: Stemma, rank: map<PersonId, nat>, p: PersonId): set<FamilyId>
    requires Acyclic(s, rank)
  {
    DescendantsRanked(s, rank);
    var desc := TableOf(s.families, Parents);
    Fams(Succ(desc), Touched(desc), Flip(rank), p)
  }

  /** A lineage is made of the two walks: its generation is the ancestor walk's alone,
      its relatives are the person's ancestors and descendants (so a spouse or a sibling
      is not a relative unless it is also one of those), its families those of both walks. */
  lemma LineageParts(s: Stemma, rank: map<PersonId, nat>, p: PersonId)
    requires Acyclic(s, rank)
    ensures LineageOf(s, rank, p).generation == GenerationOf(s, rank, p)
    ensures LineageOf(s, rank, p).relativies == Ancestors(s, rank, p) + Descendants(s, rank, p)
    ensures LineageOf(s, rank, p).families == AncestorFamilies(s, rank, p) + DescendantFamilies(s, rank, p)
    ensures p in LineageOf(s, rank, p).relativies
  {
    AncestorsStep(s, rank, p, p);
  }

  /** Only a child of some family has a positive generation; a child of a family without
      parents has generation 1. */
  lemma GenerationPositive(s: Stemma, rank: map<PersonId, nat>, p: PersonId)
    requires Acyclic(s, rank)
    ensures GenerationOf(s, rank, p) >= 1 <==> IsChild(s, p)
  {
    AncestorsRanked(s, rank);
    HeightVia(Succ(TableOf(s.families, Children)), rank, p);
    TableKeys(s.families, Children, p);
  }

  /** A person's generation is above each of its parents'. */
  lemma GenerationAboveParents(s: Stemma, rank: map<PersonId, nat>, p: PersonId, q: PersonId)
    requires Acyclic(s, rank)
    requires ParentOf(s, q, p)
    ensures GenerationOf(s, rank, q) < GenerationOf(s, rank, p)
  {
    AncestorsRanked(s, rank);
    HeightVia(Succ(TableOf(s.families, Children)), rank, p);
    EdgeUp(s, p, q);
    SuccEdges(s.families, Children, p, q);
  }

  /** A generation above 1 is exactly one more than some parent's: the generation is the
      length of the longest chain of ancestors. */
  lemma GenerationTight(s: Stemma, rank: map<PersonId, nat>, p: PersonId)
    requires Acyclic(s, rank)
    ensures GenerationOf(s, rank, p) <= 1 ||
      exists q :: ParentOf(s, q, p) && GenerationOf(s, rank, p) == GenerationOf(s, rank, q) + 1
  {
    AncestorsRanked(s, rank);
    var succ := Succ(TableOf(s.families, Children));
    HeightVia(succ, rank, p);
    if Height(succ, rank, p) > 1 {
      var q :| p in succ && q in succ[p] && Height(succ, rank, p) == Height(succ, rank, q) + 1;
      SuccEdges(s.families, Children, p, q);
      EdgeUp(s, p, q);
    }
  }

  lemma SideFamilies(s: Stemma, side: Side, rank: map<PersonId, nat>, p: PersonId, id: FamilyId)
    requires Ranked(Succ(TableOf(s.families, side)), rank)
    ensures id in Fams(Succ(TableOf(s.families, side)), Touched(TableOf(s.families, side)), rank, p) <==>
      exists q :: q in Reach(Succ(TableOf(s.families, side)), rank, p) && Joins(s.families, side, q, id)
  {
    var t := TableOf(s.families, side);
    var succ, touched := Succ(t), Touched(t);
    FamsMembership(succ, touched, rank, p, id);
    if id in Fams(succ, touched, rank, p) {
      var q :| q in Reach(succ, rank, p) && q in touched && id in touched[q];
      TouchedEntries(s.families, side, q, id);
    }
    if q :| q in Reach(succ, rank, p) && Joins(s.families, side, q, id) {
      TouchedEntries(s.families, side, q, id);
    }
  }

  /** The ancestor walk records the families with parents in which an ancestor is a child. */
  lemma AncestorFamiliesSpec(s: Stemma, rank: map<PersonId, nat>, p: PersonId, id: FamilyId)
    requires Acyclic(s, rank)
    ensures id in AncestorFamilies(s, rank, p) <==> exists q :: q in Ancestors(s, rank, p) && ChildIn(s, q, id)
  {
    AncestorsRanked(s, rank);
    SideFamilies(s, Children, rank, p, id);
    forall q ensures ChildIn(s, q, id) <==> Joins(s.families, Children, q, id) {
      JoinsAsChild(s, q, id);
    }
  }

  /** The descendant walk records the families with children in which a descendant is a
      parent. */
  lemma DescendantFamiliesSpec(s: Stemma, rank: map<PersonId, nat>, p: PersonId, id: FamilyId)
    requires Acyclic(s, rank)
    ensures id in DescendantFamilies(s, rank, p) <==> exists q :: q in Descendants(s, rank, p) && ParentIn(s, q, id)
  {
    DescendantsRanked(s, rank);
    SideFamilies(s, Parents, Flip(rank), p, id);
    forall q ensures ParentIn(s, q, id) <==> Joins(s.families, Parents, q, id) {
      JoinsAsParent(s, q, id);
    }
  }

  // ---------------------------------------------------------------------------------
  // The index.

  datatype Index = Index(
    parentToChildren: Table,
    childToParents: Table,
    families: map<FamilyId, Family>,
    marriages: seq<FamilyMembers>,
    uncles: seq<FamilyMembers>,
    namesakes: map<string, seq<PersonId>>,
    people: map<PersonId, Person>,
    lineage: map<PersonId, Generation>,
    maxGeneration: Option<nat>)

  function ParentsOf(f: Family): FamilyMembers {
    FamilyMembers(f.id, f.parents)
  }

  function ChildrenOf(f: Family): FamilyMembers {
    FamilyMembers(f.id, f.children)
  }

  function FamiliesById(families: seq<Family>): map<FamilyId, Family> {
    LastWins(MapSeq(families, (f: Family) => (f.id, f)))
  }

  /** The lookup tables of the index of tree `s`. */
  ghost predicate TablesOf(idx: Index, s: Stemma) {
    && idx.parentToChildren == TableOf(s.families, Parents)
    && idx.childToParents == TableOf(s.families, Children)
    && idx.families == FamiliesById(s.families)
    && idx.marriages == MapSeq(s.families, ParentsOf)
    && idx.uncles == MapSeq(s.families, ChildrenOf)
    && idx.namesakes == NamesakeTable(s.people)
    && idx.people == PeopleById(s.people)
  }

  /** The index of tree `s`, whose parent-to-child relation `rank` orders. */
  ghost predicate IndexOf(idx: Index, s: Stemma, rank: map<PersonId, nat>) {
    && Acyclic(s, rank)
    && TablesOf(idx, s)
    && LineagesOf(idx.lineage, idx.maxGeneration, s, rank)
  }

  /** One lineage per person id, and the largest generation (`None` for an empty tree). */
  ghost predicate LineagesOf(lineage: map<PersonId, Generation>, maxGeneration: Option<nat>, s: Stemma, rank: map<PersonId, nat>)
    requires Acyclic(s, rank)
  {
    && lineage.Keys == PersonIds(s)
    && (forall id | id in lineage :: lineage[id] == LineageOf(s, rank, id))
    && (maxGeneration == None <==> s.people == [])
    && (maxGeneration.Some? ==>
          (exists p :: p in s.people && GenerationOf(s, rank, p.id) == maxGeneration.value) &&
          (forall p | p in s.people :: GenerationOf(s, rank, p.id) <= maxGeneration.value))
  }

  /** The constructor. The ranking is a proof device only: it witnesses that the tree has
      no cycle, which the walks need to end. */
  method Build(s: Stemma, ghost rank: map<PersonId, nat>) returns (idx: Index)
    requires Acyclic(s, rank)
    ensures IndexOf(idx, s, rank)
  {
    var lineage, maxGeneration := BuildLineageTable(s, rank);
    idx := Index(TableOf(s.families, Parents), TableOf(s.families, Children), FamiliesById(s.families),
                 MapSeq(s.families, ParentsOf), MapSeq(s.families, ChildrenOf),
                 NamesakeTable(s.people), PeopleById(s.people), lineage, maxGeneration);
  }

  /** The constructor's `_lineage` and `_maxGeneration`: both walks run from every
      person. */
  method BuildLineageTable(s: Stemma, ghost rank: map<PersonId, nat>)
    returns (lineage: map<PersonId, Generation>, maxGeneration: Option<nat>)
    requires Acyclic(s, rank)
    ensures LineagesOf(lineage, maxGeneration, s, rank)
  {
    var ptc := TableOf(s.families, Parents);
    var ctp := TableOf(s.families, Children);
    AncestorsRanked(s, rank);
    DescendantsRanked(s, rank);
    lineage, maxGeneration := BuildLineages(s.people, Succ(ctp), Touched(ctp), rank, Succ(ptc), Touched(ptc), Flip(rank));
  }

  /** `lineage(personId)`: an unknown person has the empty lineage of generation 0. */
  function Lineage(idx: Index, id: PersonId): Generation {
    if id in idx.lineage then idx.lineage[id] else EmptyGeneration
  }

  lemma LineageSpec(idx: Index, s: Stemma, rank: map<PersonId, nat>, id: PersonId)
    requires IndexOf(idx, s, rank)
    ensures id in PersonIds(s) ==> Lineage(idx, id) == LineageOf(s, rank, id)
    ensures id !in PersonIds(s) ==> Lineage(idx, id) == Generation(0, {}, {})
  {
  }

  /** `family(familyId)`. */
  function FamilyById(idx: Index, id: FamilyId): Option<Family> {
    if id in idx.families then Some(idx.families[id]) else None
  }

  /** A family id is found exactly when some family has it, and what is found is the last
      family of the tree with that id (`new Map` keeps the last entry per key). */
  lemma FamilySpec(idx: Index, s: Stemma, id: FamilyId)
    requires TablesOf(idx, s)
    ensures FamilyById(idx, id).Some? <==> exists f :: f in s.families && f.id == id
    ensures FamilyById(idx, id).Some? ==> FamilyById(idx, id).value in s.families && FamilyById(idx, id).value.id == id
    ensures FamilyById(idx, id).Some? ==> exists i :: (0 <= i < |s.families| && s.families[i] == FamilyById(idx, id).value &&
      forall j :: i < j < |s.families| ==> s.families[j].id != id)
  {
    var pairs := MapSeq(s.families, (f: Family) => (f.id, f));
    if id in idx.families {
      LastWinsValue(pairs, id);
      var i :| 0 <= i < |pairs| && pairs[i] == (id, idx.families[id]) && forall j :: i < j < |pairs| ==> pairs[j].0 != id;
      assert s.families[i] == idx.families[id];
      forall j | i < j < |s.families| ensures s.families[j].id != id {
        assert pairs[j].0 == s.families[j].id;
      }
    }
    if f :| f in s.families && f.id == id {
      var i :| 0 <= i < |s.families| && s.families[i] == f;
      assert pairs[i].0 == id;
    }
  }

  /** `person(personId)`. */
  function PersonById(idx: Index, id: PersonId): Option<Person> {
    Get(idx.people, id)
  }

  lemma PersonSpec(idx: Index, s: Stemma, id: PersonId)
    requires TablesOf(idx, s)
    ensures PersonById(idx, id).Some? <==> id in PersonIds(s)
    ensures PersonById(idx, id).Some? ==> PersonById(idx, id).value in s.people && PersonById(idx, id).value.id == id
    ensures PersonById(idx, id).Some? ==> exists i :: (0 <= i < |s.people| && s.people[i] == PersonById(idx, id).value &&
      forall j :: i < j < |s.people| ==> s.people[j].id != id)
  {
    PeopleByIdSpec(s.people, id);
  }

  function Everyone(d: Directed): seq<PersonId> {
    d.members + d.otherMembers
  }

  function Around(t: Table, id: PersonId): seq<PersonId> {
    if id in t then FlatMap(t[id], Everyone) else []
  }

  /** `relativies(personId)`: everyone sharing a family with the person, and the person,
      each looked up once (a `Set` of lookups keeps first occurrences). */
  function Relativies(idx: Index, id: PersonId): (r: seq<Option<Person>>)
    ensures NoDuplicates(r)
  {
    Distinct(Lookups(idx.people, Around(idx.parentToChildren, id)) +
             Lookups(idx.people, Around(idx.childToParents, id)) +
             [Get(idx.people, id)])
  }

  /** Someone sharing a family with `id`, in which `id` is on `side`. */
  ghost predicate KinVia(s: Stemma, side: Side, id: PersonId, q: PersonId) {
    exists f :: f in s.families && id in side.Of(f) && (q in f.parents || q in f.children)
  }

  /** Someone sharing a family with `id`, as parent or child, on either side. */
  ghost predicate Kin(s: Stemma, id: PersonId, q: PersonId) {
    exists f :: f in s.families && (id in f.parents || id in f.children) && (q in f.parents || q in f.children)
  }

  lemma KinSides(s: Stemma, id: PersonId, q: PersonId)
    ensures Kin(s, id, q) <==> KinVia(s, Parents, id, q) || KinVia(s, Children, id, q)
  {
    if Kin(s, id, q) {
      var f :| f in s.families && (id in f.parents || id in f.children) && (q in f.parents || q in f.children);
      if id in f.parents {
        assert KinVia(s, Parents, id, q);
      } else {
        assert KinVia(s, Children, id, q);
      }
    }
  }

  lemma AroundMembership(s: Stemma, side: Side, id: PersonId, q: PersonId)
    ensures q in Around(TableOf(s.families, side), id) <==> KinVia(s, side, id, q)
  {
    var t := TableOf(s.families, side);
    if id in t {
      FlatMapMembership(t[id], Everyone, q);
      if q in Around(t, id) {
        var d :| d in t[id] && q in Everyone(d);
        TableEntries(s.families, side, id, d);
      }
      if KinVia(s, side, id, q) {
        var f :| f in s.families && id in side.Of(f) && (q in f.parents || q in f.children);
        TableEntries(s.families, side, id, Directed(f.id, side.Opposite().Of(f), side.Of(f)));
      }
    } else {
      TableKeys(s.families, side, id);
    }
  }

  /** Someone shares a family with the person exactly when the person's entry in one of
      the two tables lists them. */
  lemma KinAround(s: Stemma, id: PersonId, q: PersonId)
    ensures Kin(s, id, q) <==>
      q in Around(TableOf(s.families, Parents), id) || q in Around(TableOf(s.families, Children), id)
  {
    KinSides(s, id, q);
    AroundMembership(s, Parents, id, q);
    AroundMembership(s, Children, id, q);
  }

  lemma LookupsOfKin(people: map<PersonId, Person>, ps: seq<PersonId>, cs: seq<PersonId>, s: Stemma, id: PersonId, r: Option<Person>)
    requires forall q :: Kin(s, id, q) <==> q in ps || q in cs
    ensures r in Lookups(people, ps) + Lookups(people, cs) + [Get(people, id)] <==>
      r == Get(people, id) || exists q :: Kin(s, id, q) && r == Get(people, q)
  {
    LookupsMembership(people, ps, r);
    LookupsMembership(people, cs, r);
  }

  /** The relatives listed are the lookups of the person and of everyone sharing a family
      with the person, each once. */
  lemma RelativiesSpec(idx: Index, s: Stemma, id: PersonId, r: Option<Person>)
    requires TablesOf(idx, s)
    ensures r in Relativies(idx, id) <==>
      r == Get(idx.people, id) || exists q :: Kin(s, id, q) && r == Get(idx.people, q)
  {
    var ps := Around(TableOf(s.families, Parents), id);
    var cs := Around(TableOf(s.families, Children), id);
    var all := Lookups(idx.people, ps) + Lookups(idx.people, cs) + [Get(idx.people, id)];
    assert r in Relativies(idx, id) <==> r in Elems(all);
    forall q
      ensures Kin(s, id, q) <==> q in ps || q in cs
    {
      KinAround(s, id, q);
    }
    LookupsOfKin(idx.people, ps, cs, s, id, r);
  }

  predicate Populated(d: Directed) {
    |d.members| + |d.otherMembers| > 0
  }

  function AsParentsFamily(d: Directed): FamilyDescription {
    FamilyDescription(d.familyId, d.otherMembers, d.members)
  }

  function AsChildrensFamily(d: Directed): FamilyDescription {
    FamilyDescription(d.familyId, d.members, d.otherMembers)
  }

  function EntriesOf(t: Table, id: PersonId): seq<Directed> {
    if id in t then t[id] else []
  }

  /** `relatedFamilies(personId)`: the families the person is a parent in, then those the
      person is a child in. */
  function RelatedFamilies(idx: Index, id: PersonId): seq<FamilyDescription> {
    MapSeq(Filter(EntriesOf(idx.parentToChildren, id), Populated), AsParentsFamily) +
    MapSeq(Filter(EntriesOf(idx.childToParents, id), Populated), AsChildrensFamily)
  }

  /** `x` describes a family of the tree that has `id` on `side`. */
  ghost predicate FamilyOn(s: Stemma, side: Side, id: PersonId, x: FamilyDescription) {
    exists f :: f in s.families && id in side.Of(f) && x == Describe(f)
  }

  lemma RelatedSide(s: Stemma, side: Side, id: PersonId, conv: Directed -> FamilyDescription, x: FamilyDescription)
    requires forall f: Family :: conv(Directed(f.id, side.Opposite().Of(f), side.Of(f))) == Describe(f)
    ensures x in MapSeq(Filter(EntriesOf(TableOf(s.families, side), id), Populated), conv) <==> FamilyOn(s, side, id, x)
  {
    var t := TableOf(s.families, side);
    var ds := Filter(EntriesOf(t, id), Populated);
    if x in MapSeq(ds, conv) {
      var i :| 0 <= i < |ds| && conv(ds[i]) == x;
      TableEntries(s.families, side, id, ds[i]);
    }
    if f :| f in s.families && id in side.Of(f) && x == Describe(f) {
      var d := Directed(f.id, side.Opposite().Of(f), side.Of(f));
      TableEntries(s.families, side, id, d);
      assert Populated(d);
      var i :| 0 <= i < |ds| && ds[i] == d;
      assert MapSeq(ds, conv)[i] == x;
    }
  }

  /** The first `k` records of `r` are exactly the person's families on the parents' side
      and the rest exactly those on the children's side. */
  ghost predicate SplitsOn(r: seq<FamilyDescription>, s: Stemma, id: PersonId, k: int) {
    && 0 <= k <= |r|
    && (forall x :: x in r[..k] <==> FamilyOn(s, Parents, id, x))
    && (forall x :: x in r[k..] <==> FamilyOn(s, Children, id, x))
  }

  lemma SplitOn(r: seq<FamilyDescription>, a: seq<FamilyDescription>, b: seq<FamilyDescription>, s: Stemma, id: PersonId)
    requires r == a + b
    requires forall x :: x in a <==> FamilyOn(s, Parents, id, x)
    requires forall x :: x in b <==> FamilyOn(s, Children, id, x)
    ensures SplitsOn(r, s, id, |a|)
  {
    assert r[..|a|] == a && r[|a|..] == b;
  }

  /** The related families are every family the person is a parent in, followed by every
      family the person is a child in, each with its own parents and children. The filter
      on non-empty families never drops one, since the person is always a member. */
  lemma RelatedFamiliesSpec(idx: Index, s: Stemma, id: PersonId)
    requires TablesOf(idx, s)
    ensures exists k :: SplitsOn(RelatedFamilies(idx, id), s, id, k)
  {
    var a := MapSeq(Filter(EntriesOf(idx.parentToChildren, id), Populated), AsParentsFamily);
    var b := MapSeq(Filter(EntriesOf(idx.childToParents, id), Populated), AsChildrensFamily);
    assert RelatedFamilies(idx, id) == a + b;
    forall x
      ensures x in a <==> FamilyOn(s, Parents, id, x)
      ensures x in b <==> FamilyOn(s, Children, id, x)
    {
      RelatedSide(s, Parents, id, AsParentsFamily, x);
      RelatedSide(s, Children, id, AsChildrensFamily, x);
    }
    SplitOn(RelatedFamilies(idx, id), a, b, s, id);
  }

  // ---------------------------------------------------------------------------------
  // `relatedFamilies` and `relativies`, list for list, in terms of the tree.

  /** Reference definition: the records `relatedFamilies` gives on `side`, over every
      family of the tree in tree order, each family described whole, once for each time it
      lists `id` on `side`. */
  function DescribedList(families: seq<Family>, side: Side, id: PersonId): seq<FamilyDescription>
    decreases |families|
  {
    if families == [] then []
    else Repeats(side.Of(families[0]), id, [Describe(families[0])]) + DescribedList(families[1..], side, id)
  }

  /** A table's entries for `id` are the values the tree's pairs give `id`, none at all when
      `id` has no entry. */
  lemma EntriesOfValues(families: seq<Family>, side: Side, id: PersonId)
    ensures EntriesOf(TableOf(families, side), id) == ValuesOf(Pairs(families, side), id)
  {
    var pairs := Pairs(families, side);
    if id !in TableOf(families, side) {
      forall i | 0 <= i < |pairs| ensures pairs[i].0 != id {
        assert pairs[i].0 in TableOf(families, side);
      }
      ValuesOfEmpty(pairs, id);
    }
  }

  function DirectedOf(f: Family, side: Side): Directed {
    Directed(f.id, side.Opposite().Of(f), side.Of(f))
  }

  /** The filter on non-empty families drops nothing, and each entry converts back to the
      family it came from. */
  lemma {:induction false} PairsDescribed(families: seq<Family>, side: Side, id: PersonId, conv: Directed -> FamilyDescription)
    requires forall f: Family :: conv(DirectedOf(f, side)) == Describe(f)
    ensures MapSeq(Filter(ValuesOf(Pairs(families, side), id), Populated), conv) == DescribedList(families, side, id)
    decreases |families|
  {
    if families != [] {
      var f := families[0];
      var here, later := ValuesOf(Entries(f, side), id), ValuesOf(Pairs(families[1..], side), id);
      PairsDescribed(families[1..], side, id, conv);
      ValuesOfAppend(Entries(f, side), Pairs(families[1..], side), id);
      FilterAppend(here, later, Populated);
      MapSeqAppend(Filter(here, Populated), Filter(later, Populated), conv);
      ValuesOfKeyed(side.Of(f), Entries(f, side), id, DirectedOf(f, side));
      FilterRepeats(side.Of(f), id, DirectedOf(f, side), Populated);
      MapSeqRepeats(side.Of(f), id, DirectedOf(f, side), conv);
    }
  }

  /** `relatedFamilies(personId)` is every family of the tree that lists the person as a
      parent, in tree order and once per listing, then every family that lists the person as
      a child, each with its own parents and children. */
  lemma RelatedFamiliesListed(idx: Index, s: Stemma, id: PersonId)
    requires TablesOf(idx, s)
    ensures RelatedFamilies(idx, id) == DescribedList(s.families, Parents, id) + DescribedList(s.families, Children, id)
  {
    EntriesOfValues(s.families, Parents, id);
    EntriesOfValues(s.families, Children, id);
    PairsDescribed(s.families, Parents, id, AsParentsFamily);
    PairsDescribed(s.families, Children, id, AsChildrensFamily);
  }

  /** Two families of the same parent are both reported, in tree order, each with the
      co-parent kept. */
  lemma RelatedInTreeOrder()
    ensures DescribedList([Family("1", ["a", "b"], ["x"], false), Family("2", ["a"], ["y"], false)], Parents, "a") ==
      [FamilyDescription("1", ["a", "b"], ["x"]), FamilyDescription("2", ["a"], ["y"])]
  {
  }

  /** Reference definition: everyone `relativies` meets on `side`, over every family of the
      tree in tree order: the other side, then the person's own side, once for each time the
      family lists `id` on `side`. */
  function AroundList(families: seq<Family>, side: Side, id: PersonId): seq<PersonId>
    decreases |families|
  {
    if families == [] then []
    else
      var f := families[0];
      Repeats(side.Of(f), id, side.Opposite().Of(f) + side.Of(f)) + AroundList(families[1..], side, id)
  }

  lemma {:induction false} PairsAround(families: seq<Family>, side: Side, id: PersonId)
    ensures FlatMap(ValuesOf(Pairs(families, side), id), Everyone) == AroundList(families, side, id)
    decreases |families|
  {
    if families != [] {
      var f := families[0];
      PairsAround(families[1..], side, id);
      ValuesOfAppend(Entries(f, side), Pairs(families[1..], side), id);
      FlatMapAppend(ValuesOf(Entries(f, side), id), ValuesOf(Pairs(families[1..], side), id), Everyone);
      ValuesOfKeyed(side.Of(f), Entries(f, side), id, DirectedOf(f, side));
      FlatMapRepeats(side.Of(f), id, DirectedOf(f, side), Everyone);
    }
  }

  /** `relativies(personId)` is the first occurrence of each lookup, in this order: everyone
      in the families listing the person as a parent, then everyone in the families listing
      it as a child, each family in tree order, then the person. */
  lemma RelativiesListed(idx: Index, s: Stemma, id: PersonId)
    requires TablesOf(idx, s)
    ensures Relativies(idx, id) ==
      Distinct(Lookups(idx.people, AroundList(s.families, Parents, id)) +
               Lookups(idx.people, AroundList(s.families, Children, id)) +
               [Get(idx.people, id)])
  {
    EntriesOfValues(s.families, Parents, id);
    EntriesOfValues(s.families, Children, id);
    PairsAround(s.families, Parents, id);
    PairsAround(s.families, Children, id);
    assert Around(idx.parentToChildren, id) == FlatMap(EntriesOf(idx.parentToChildren, id), Everyone);
    assert Around(idx.childToParents, id) == FlatMap(EntriesOf(idx.childToParents, id), Everyone);
  }

  predicate HasAllMembers(members: seq<PersonId>, pool: set<PersonId>) {
    |members| != 0 && CountIn(members, pool) == |members|
  }

  predicate Has2Members(members: seq<PersonId>, pool: set<PersonId>) {
    |members| != 0 && CountIn(members, pool) > 1
  }

  function FamilyIdOf(fm: FamilyMembers): FamilyId {
    fm.familyId
  }

  /** `marriages(peopleIds)`. */
  function Marriages(idx: Index, pool: set<PersonId>): seq<FamilyId> {
    MapSeq(Filter(idx.marriages, (fm: FamilyMembers) => |fm.members| > 1 && HasAllMembers(fm.members, pool)), FamilyIdOf)
  }

  /** `uncleFamilies(peopleIds)`. */
  function UncleFamilies(idx: Index, pool: set<PersonId>): seq<FamilyId> {
    MapSeq(Filter(idx.uncles, (fm: FamilyMembers) => Has2Members(fm.members, pool)), FamilyIdOf)
  }

  /** A couple (or more) whose parents are all in the pool. */
  predicate AllParentsIn(f: Family, pool: set<PersonId>) {
    |f.parents| > 1 && forall i :: 0 <= i < |f.parents| ==> f.parents[i] in pool
  }

  /** A family with at least two of its children in the pool. */
  predicate TwoChildrenIn(f: Family, pool: set<PersonId>) {
    exists i, j :: 0 <= i < j < |f.children| && f.children[i] in pool && f.children[j] in pool
  }

  function IdOfFamily(f: Family): FamilyId {
    f.id
  }

  /** The marriages among a set of people are the ids of the families, in tree order, with
      at least two parents all of whom are in the set. */
  lemma MarriagesSpec(idx: Index, s: Stemma, pool: set<PersonId>)
    requires TablesOf(idx, s)
    ensures Marriages(idx, pool) == MapSeq(Filter(s.families, (f: Family) => AllParentsIn(f, pool)), IdOfFamily)
  {
    forall i | 0 <= i < |s.families|
      ensures (|s.families[i].parents| > 1 && HasAllMembers(s.families[i].parents, pool)) == AllParentsIn(s.families[i], pool)
    {
      CountInAll(s.families[i].parents, pool);
    }
    FilterMapFused(s.families, ParentsOf, (fm: FamilyMembers) => |fm.members| > 1 && HasAllMembers(fm.members, pool), FamilyIdOf,
                   (f: Family) => AllParentsIn(f, pool), IdOfFamily);
  }

  /** The uncle families of a set of people are the ids of the families, in tree order,
      with at least two children in the set. */
  lemma UncleFamiliesSpec(idx: Index, s: Stemma, pool: set<PersonId>)
    requires TablesOf(idx, s)
    ensures UncleFamilies(idx, pool) == MapSeq(Filter(s.families, (f: Family) => TwoChildrenIn(f, pool)), IdOfFamily)
  {
    forall i | 0 <= i < |s.families|
      ensures Has2Members(s.families[i].children, pool) == TwoChildrenIn(s.families[i], pool)
    {
      CountInTwo(s.families[i].children, pool);
    }
    FilterMapFused(s.families, ChildrenOf, (fm: FamilyMembers) => Has2Members(fm.members, pool), FamilyIdOf,
                   (f: Family) => TwoChildrenIn(f, pool), IdOfFamily);
  }

  /** `namesakes(personName)`. */
  function NamesakesOf(idx: Index, name: string): seq<Option<Person>> {
    Namesakes(idx.namesakes, idx.people, name)
  }

  lemma NamesakesOfSpec(idx: Index, s: Stemma, name: string)
    requires TablesOf(idx, s)
    ensures NamesakesOf(idx, name) ==
      MapSeq(Filter(s.people, (p: Person) => p.name == name), (p: Person) => Get(PeopleById(s.people), p.id))
  {
    NamesakesSpec(s.people, name);
  }
}

=== FILE: graph_tools.dfy ===
/** The chart's data: one node per person and per family, one line per family membership,
    the node-id encoding, and how a line is drawn under a highlight. The frontend and the
    client carry the same copy of this logic. */
module GraphTools {
  import opened Wrappers
  import opened Seqs
  import opened Model
  import Highlight

  // ---------------------------------------------------------------------------------
  // Node ids.

  /** `normalizeId(suffix, id)`. */
  function Normalize(prefix: string, id: string): string {
    prefix + "_" + id
  }

  /** `String.prototype.split` on one character: the pieces between the separators. */
  function Split(s: string, sep: char): (r: seq<string>)
    ensures |r| >= 1
  {
    if |s| == 0 then [""]
    else
      var rest := Split(s[1..], sep);
      if s[0] == sep then [""] + rest else [[s[0]] + rest[0]] + rest[1..]
  }

  /** Glues pieces back together with the separator between them. */
  function Join(pieces: seq<string>, sep: char): string {
    if |pieces| == 0 then ""
    else if |pieces| == 1 then pieces[0]
    else pieces[0] + [sep] + Join(pieces[1..], sep)
  }

  /** Splitting loses nothing: joining the pieces gives the string back ... */
  lemma {:induction false} SplitJoin(s: string, sep: char)
    ensures Join(Split(s, sep), sep) == s
  {
    if |s| > 0 {
      var rest := Split(s[1..], sep);
      SplitJoin(s[1..], sep);
      if s[0] == sep {
        assert Split(s, sep) == [""] + rest;
        assert ([""] + rest)[1..] == rest;
        assert s == [sep] + s[1..];
      } else if |rest| == 1 {
        assert s == [s[0]] + s[1..];
      } else {
        var r := Split(s, sep);
        assert r[1..] == rest[1..];
        assert Join(rest, sep) == rest[0] + [sep] + Join(rest[1..], sep);
        assert s == [s[0]] + s[1..];
      }
    }
  }

  /** ... and no piece holds the separator. */
  lemma {:induction false} SplitPieces(s: string, sep: char)
    ensures forall i :: 0 <= i < |Split(s, sep)| ==> sep !in Split(s, sep)[i]
  {
    if |s| > 0 {
      SplitPieces(s[1..], sep);
    }
  }

  /** A string without the separator is one piece. */
  lemma {:induction false} SplitWhole(s: string, sep: char)
    requires sep !in s
    ensures Split(s, sep) == [s]
  {
    if |s| > 0 {
      SplitWhole(s[1..], sep);
      assert s == [s[0]] + s[1..];
    }
  }

  /** A separator after a separator-free prefix closes the first piece. */
  lemma {:induction false} SplitAfter(a: string, sep: char, b: string)
    requires sep !in a
    ensures Split(a + [sep] + b, sep) == [a] + Split(b, sep)
  {
    var s := a + [sep] + b;
    if |a| == 0 {
      assert s[1..] == b;
    } else {
      assert s[1..] == a[1..] + [sep] + b;
      SplitAfter(a[1..], sep, b);
      assert a == [a[0]] + a[1..];
    }
  }

  /** `denormalizeId`: the second piece of the id, if there is one. */
  function Denormalize(id: string): Option<string> {
    var pieces := Split(id, '_');
    if |pieces| >= 2 then Some(pieces[1]) else None
  }

  /** Decoding an encoded id gives the id back, when neither part holds an underscore. */
  lemma NormalizeRoundTrip(prefix: string, id: string)
    requires '_' !in prefix && '_' !in id
    ensures Denormalize(Normalize(prefix, id)) == Some(id)
  {
    SplitAfter(prefix, '_', id);
    SplitWhole(id, '_');
  }

  /** With an underscore in the id, decoding keeps only the part of the id before it. */
  lemma NormalizeTruncates(prefix: string, id: string)
    requires '_' !in prefix
    ensures Denormalize(Normalize(prefix, id)).Some?
    ensures var x := Denormalize(Normalize(prefix, id)).value;
      && x <= id && '_' !in x && (|x| < |id| ==> id[|x|] == '_')
  {
    SplitAfter(prefix, '_', id);
    SplitHead(id, '_');
  }

  /** The first piece is the longest separator-free prefix. */
  lemma {:induction false} SplitHead(s: string, sep: char)
    ensures var x := Split(s, sep)[0];
      x <= s && sep !in x && (|x| < |s| ==> s[|x|] == sep)
  {
    if |s| > 0 {
      SplitHead(s[1..], sep);
    }
  }

  // ---------------------------------------------------------------------------------
  // Nodes and lines.

  datatype NodeKind = PersonNode | FamilyNode
  datatype Node = Node(id: string, name: Option<string>, kind: NodeKind)

  datatype RelationKind = FamilyToChild | SpouseToFamily
  datatype Relation = Relation(id: string, source: string, target: string, kind: RelationKind)

  function PersonNodeOf(p: Person): Node {
    Node(Normalize("person", p.id), Some(p.name), PersonNode)
  }

  function FamilyNodeOf(f: Family): Node {
    Node(Normalize("family", f.id), None, FamilyNode)
  }

  /** The line from a family to one of its children. */
  function ChildLine(f: Family, c: PersonId): Relation {
    Relation(f.id + "_" + c, Normalize("family", f.id), Normalize("person", c), FamilyToChild)
  }

  /** The line from a parent to its family. */
  function ParentLine(f: Family, p: PersonId): Relation {
    Relation(p + "_" + f.id, Normalize("person", p), Normalize("family", f.id), SpouseToFamily)
  }

  function ChildLines(f: Family): seq<Relation> {
    MapSeq(f.children, (c: PersonId) => ChildLine(f, c))
  }

  function ParentLines(f: Family): seq<Relation> {
    MapSeq(f.parents, (p: PersonId) => ParentLine(f, p))
  }

  /** `makeNodesAndRelations`. */
  function NodesAndRelations(people: seq<Person>, families: seq<Family>): (r: (seq<Node>, seq<Relation>))
    ensures |r.0| == |people| + |families|
    ensures forall i :: 0 <= i < |people| ==> r.0[i].kind == PersonNode && r.0[i].id == "person_" + people[i].id
    ensures forall i :: 0 <= i < |families| ==> r.0[|people| + i].kind == FamilyNode && r.0[|people| + i].id == "family_" + families[i].id
  {
    var ps, fs := MapSeq(people, PersonNodeOf), MapSeq(families, FamilyNodeOf);
    assert forall i :: 0 <= i < |families| ==> (ps + fs)[|people| + i] == fs[i];
    (ps + fs, FlatMap(families, ChildLines) + FlatMap(families, ParentLines))
  }

  function ChildCount(families: seq<Family>): nat {
    if |families| == 0 then 0 else |families[0].children| + ChildCount(families[1..])
  }

  function ParentCount(families: seq<Family>): nat {
    if |families| == 0 then 0 else |families[0].parents| + ParentCount(families[1..])
  }

  lemma {:induction false} ChildLinesCount(families: seq<Family>)
    ensures |FlatMap(families, ChildLines)| == ChildCount(families)
    ensures forall i :: 0 <= i < |FlatMap(families, ChildLines)| ==> FlatMap(families, ChildLines)[i].kind == FamilyToChild
  {
    if |families| > 0 {
      ChildLinesCount(families[1..]);
    }
  }

  lemma {:induction false} ParentLinesCount(families: seq<Family>)
    ensures |FlatMap(families, ParentLines)| == ParentCount(families)
    ensures forall i :: 0 <= i < |FlatMap(families, ParentLines)| ==> FlatMap(families, ParentLines)[i].kind == SpouseToFamily
  {
    if |families| > 0 {
      ParentLinesCount(families[1..]);
    }
  }

  /** There is one line per child and one per parent of each family, and every child line
      comes before every parent line. */
  lemma RelationsLayout(people: seq<Person>, families: seq<Family>)
    ensures var rel := NodesAndRelations(people, families).1;
      && |rel| == ChildCount(families) + ParentCount(families)
      && (forall i :: 0 <= i < |rel| ==> (rel[i].kind == FamilyToChild <==> i < ChildCount(families)))
  {
    ChildLinesCount(families);
    ParentLinesCount(families);
  }

  /** The lines are exactly the child lines and the parent lines of the families. */
  lemma RelationsMembership(people: seq<Person>, families: seq<Family>, r: Relation)
    ensures r in NodesAndRelations(people, families).1 <==>
      || (exists f, c :: f in families && c in f.children && r == ChildLine(f, c))
      || (exists f, p :: f in families && p in f.parents && r == ParentLine(f, p))
  {
    FlatMapMembership(families, ChildLines, r);
    FlatMapMembership(families, ParentLines, r);
    if f, c :| f in families && c in f.children && r == ChildLine(f, c) {
      var i :| 0 <= i < |f.children| && f.children[i] == c;
      assert ChildLines(f)[i] == r;
    }
    if f, p :| f in families && p in f.parents && r == ParentLine(f, p) {
      var i :| 0 <= i < |f.parents| && f.parents[i] == p;
      assert ParentLines(f)[i] == r;
    }
  }

  // ---------------------------------------------------------------------------------
  // Drawing.

  const ShadedRelationColor := "#a9a9a9"
  const RelationsColor := "#808080"
  const ChildRelationWidth := "0.5px"
  const FamilyRelationWidth := "2.5px"
  const ShadedRelationWidth := "0.1px"
  const ArrowToPerson := "url(#arrow-to-person)"
  const ArrowToFamily := "url(#arrow-to-family)"

  /** The highlight asked about a decoded id. An id that does not decode reaches the
      highlight as `undefined`, which no cache holds. */
  predicate PersonLit(h: Highlight.Highlighter, id: Option<string>) {
    match id
    case Some(x) => Highlight.PersonIsHighlighted(h, x)
    case None => h.HighlightAll? || |h.stack.entries| == 0
  }

  predicate FamilyLit(h: Highlight.Highlighter, id: Option<string>) {
    match id
    case Some(x) => Highlight.FamilyIsHighlighted(h, x)
    case None => h.HighlightAll? || |h.stack.entries| == 0
  }

  /** `lineHighlighted`: some end is a highlighted family and some end a highlighted
      person; both questions are put to both ends. */
  predicate LineHighlighted(h: Highlight.Highlighter, line: Relation) {
    var s := Denormalize(line.source);
    var t := Denormalize(line.target);
    (FamilyLit(h, s) || FamilyLit(h, t)) && (PersonLit(h, s) || PersonLit(h, t))
  }

  function LineFill(h: Highlight.Highlighter, line: Relation): string {
    if !LineHighlighted(h, line) then ShadedRelationColor else RelationsColor
  }

  function LineWidth(h: Highlight.Highlighter, line: Relation): string {
    if !LineHighlighted(h, line) then ShadedRelationWidth
    else if line.kind == FamilyToChild then ChildRelationWidth
    else FamilyRelationWidth
  }

  function MarkerEnd(h: Highlight.Highlighter, line: Relation): Option<string> {
    if !LineHighlighted(h, line) then None
    else if line.kind == FamilyToChild then Some(ArrowToPerson)
    else Some(ArrowToFamily)
  }

  /** A line's look depends on nothing but whether it is highlighted and its kind. */
  lemma StyleDeterminedBy(h1: Highlight.Highlighter, l1: Relation, h2: Highlight.Highlighter, l2: Relation)
    requires LineHighlighted(h1, l1) == LineHighlighted(h2, l2) && l1.kind == l2.kind
    ensures LineFill(h1, l1) == LineFill(h2, l2)
    ensures LineWidth(h1, l1) == LineWidth(h2, l2)
    ensures MarkerEnd(h1, l1) == MarkerEnd(h2, l2)
  {
  }

  /** Each of the three attributes tells whether the line is shaded. */
  lemma ShadedIff(h: Highlight.Highlighter, line: Relation)
    ensures !LineHighlighted(h, line) <==> LineFill(h, line) == ShadedRelationColor
    ensures !LineHighlighted(h, line) <==> LineWidth(h, line) == ShadedRelationWidth
    ensures !LineHighlighted(h, line) <==> MarkerEnd(h, line) == None
  {
  }

  /** A highlighted line carries the arrow of its kind. */
  lemma MarkerOfKind(h: Highlight.Highlighter, line: Relation)
    requires LineHighlighted(h, line)
    ensures line.kind == FamilyToChild ==> MarkerEnd(h, line) == Some(ArrowToPerson) && LineWidth(h, line) == ChildRelationWidth
    ensures line.kind == SpouseToFamily ==> MarkerEnd(h, line) == Some(ArrowToFamily) && LineWidth(h, line) == FamilyRelationWidth
  {
  }

  /** On a chart built from underscore-free ids, a child line is highlighted exactly when
      the family or the child answers the family question and the family or the child
      answers the person question. */
  lemma ChildLineHighlighted(h: Highlight.Highlighter, f: Family, c: PersonId)
    requires '_' !in f.id && '_' !in c
    ensures LineHighlighted(h, ChildLine(f, c)) <==>
      && (Highlight.FamilyIsHighlighted(h, f.id) || Highlight.FamilyIsHighlighted(h, c))
      && (Highlight.PersonIsHighlighted(h, f.id) || Highlight.PersonIsHighlighted(h, c))
  {
    NormalizeRoundTrip("family", f.id);
    NormalizeRoundTrip("person", c);
  }

  /** The same for a parent line. */
  lemma ParentLineHighlighted(h: Highlight.Highlighter, f: Family, p: PersonId)
    requires '_' !in f.id && '_' !in p
    ensures LineHighlighted(h, ParentLine(f, p)) <==>
      && (Highlight.FamilyIsHighlighted(h, p) || Highlight.FamilyIsHighlighted(h, f.id))
      && (Highlight.PersonIsHighlighted(h, p) || Highlight.PersonIsHighlighted(h, f.id))
  {
    NormalizeRoundTrip("person", p);
    NormalizeRoundTrip("family", f.id);
  }

  /** So a line between a highlighted family and a highlighted member is highlighted, and
      with nothing selected every line is. */
  lemma HighlightedEnds(h: Highlight.Highlighter, f: Family, c: PersonId)
    requires '_' !in f.id && '_' !in c
    ensures Highlight.FamilyIsHighlighted(h, f.id) && Highlight.PersonIsHighlighted(h, c) ==>
      LineHighlighted(h, ChildLine(f, c)) && LineHighlighted(h, ParentLine(f, c))
    ensures (h.HighlightAll? || |h.stack.entries| == 0) ==> LineHighlighted(h, ChildLine(f, c))
  {
    ChildLineHighlighted(h, f, c);
    ParentLineHighlighted(h, f, c);
  }
}

=== FILE: grouping.dfy ===
/** The two ways the repository turns a list of key/value pairs into a map:
    `groupByKey` (every value kept, per key, in order) and `new Map(pairs)`
    (the last value per key wins). */
module Grouping {
  import opened Seqs

  /** Reference definition: the values paired with `k`, in input order. */
  function ValuesOf<K(==), V>(pairs: seq<(K, V)>, k: K): seq<V>
    decreases |pairs|
  {
    if pairs == [] then []
    else (if pairs[0].0 == k then [pairs[0].1] else []) + ValuesOf(pairs[1..], k)
  }

  lemma {:induction false} ValuesOfSnoc<K, V>(pairs: seq<(K, V)>, last: (K, V), k: K)
    ensures ValuesOf(pairs + [last], k) == ValuesOf(pairs, k) + (if last.0 == k then [last.1] else [])
    decreases |pairs|
  {
    if pairs == [] {
      assert pairs + [last] == [last];
    } else {
      assert (pairs + [last])[1..] == pairs[1..] + [last];
      ValuesOfSnoc(pairs[1..], last, k);
    }
  }

  /** The values of `k` in two lists one after the other are those of each in turn. */
  lemma {:induction false} ValuesOfAppend<K, V>(a: seq<(K, V)>, b: seq<(K, V)>, k: K)
    ensures ValuesOf(a + b, k) == ValuesOf(a, k) + ValuesOf(b, k)
    decreases |a|
  {
    if a == [] {
      assert a + b == b;
    } else {
      var head := if a[0].0 == k then [a[0].1] else [];
      assert (a + b)[0] == a[0];
      assert (a + b)[1..] == a[1..] + b;
      calc {
        ValuesOf(a + b, k);
        head + ValuesOf(a[1..] + b, k);
        { ValuesOfAppend(a[1..], b, k); }
        head + (ValuesOf(a[1..], k) + ValuesOf(b, k));
        (head + ValuesOf(a[1..], k)) + ValuesOf(b, k);
      }
    }
  }

  /** Pairing every element of `xs` with the same value `v`, the values of `k` are `v`
      once for every time `k` occurs in `xs`. */
  lemma {:induction false} ValuesOfKeyed<K, V>(xs: seq<K>, pairs: seq<(K, V)>, k: K, v: V)
    requires |pairs| == |xs|
    requires forall i :: 0 <= i < |xs| ==> pairs[i] == (xs[i], v)
    ensures ValuesOf(pairs, k) == Repeats(xs, k, [v])
    decreases |xs|
  {
    if xs != [] {
      ValuesOfKeyed(xs[1..], pairs[1..], k, v);
    }
  }

  /** `v` is among the values of `k` exactly when the pair `(k, v)` occurs. */
  lemma {:induction false} ValuesOfMembership<K, V>(pairs: seq<(K, V)>, k: K, v: V)
    ensures v in ValuesOf(pairs, k) <==> (k, v) in pairs
    decreases |pairs|
  {
    if pairs != [] {
      ValuesOfMembership(pairs[1..], k, v);
      assert (k, v) in pairs <==> pairs[0] == (k, v) || (k, v) in pairs[1..];
    }
  }

  /** `groupByKey`: a left fold (`reduce`) that appends each value to its key's bucket. */
  function GroupByKey<K(==,!new), V>(pairs: seq<(K, V)>): (r: map<K, seq<V>>)
    ensures forall k :: k in r <==> exists i :: 0 <= i < |pairs| && pairs[i].0 == k
    ensures forall k | k in r :: r[k] == ValuesOf(pairs, k) && |r[k]| > 0
    decreases |pairs|
  {
    if pairs == [] then map[]
    else
      var init := pairs[..|pairs| - 1];
      var last := pairs[|pairs| - 1];
      var store := GroupByKey(init);
      assert pairs == init + [last];
      assert forall k :: ValuesOf(pairs, k) == ValuesOf(init, k) + (if last.0 == k then [last.1] else []) by {
        forall k {
          ValuesOfSnoc(init, last, k);
        }
      }
      assert forall k :: k !in store ==> ValuesOf(init, k) == [] by {
        forall k | k !in store {
          ValuesOfEmpty(init, k);
        }
      }
      if last.0 !in store then store[last.0 := [last.1]]
      else store[last.0 := store[last.0] + [last.1]]
  }

  lemma {:induction false} ValuesOfEmpty<K, V>(pairs: seq<(K, V)>, k: K)
    requires forall i :: 0 <= i < |pairs| ==> pairs[i].0 != k
    ensures ValuesOf(pairs, k) == []
    decreases |pairs|
  {
    if pairs != [] {
      ValuesOfEmpty(pairs[1..], k);
    }
  }

  /** `(k, v)` is recorded in the grouped map exactly when the pair occurs. */
  lemma GroupByKeyMembership<K(!new), V>(pairs: seq<(K, V)>, k: K, v: V)
    ensures (k in GroupByKey(pairs) && v in GroupByKey(pairs)[k]) <==> (k, v) in pairs
  {
    ValuesOfMembership(pairs, k, v);
    if (k, v) in pairs {
      var i :| 0 <= i < |pairs| && pairs[i] == (k, v);
      assert pairs[i].0 == k;
    }
  }

  /** `new Map(pairs)`: entries are set in order, so a repeated key keeps its last value. */
  function LastWins<K(==,!new), V>(pairs: seq<(K, V)>): (r: map<K, V>)
    ensures forall k :: k in r <==> exists i :: 0 <= i < |pairs| && pairs[i].0 == k
    decreases |pairs|
  {
    if pairs == [] then map[]
    else
      var init := pairs[..|pairs| - 1];
      var last := pairs[|pairs| - 1];
      assert forall i :: 0 <= i < |init| ==> init[i] == pairs[i];
      LastWins(init)[last.0 := last.1]
  }

  /** The value kept for a key is the one of its last occurrence. */
  lemma {:induction false} LastWinsValue<K(!new), V>(pairs: seq<(K, V)>, k: K)
    requires k in LastWins(pairs)
    ensures exists i :: (0 <= i < |pairs| && pairs[i] == (k, LastWins(pairs)[k]) &&
      forall j :: i < j < |pairs| ==> pairs[j].0 != k)
    decreases |pairs|
  {
    var init := pairs[..|pairs| - 1];
    var last := pairs[|pairs| - 1];
    if last.0 == k {
      assert pairs[|pairs| - 1] == (k, LastWins(pairs)[k]);
    } else {
      LastWinsValue(init, k);
      var i :| 0 <= i < |init| && init[i] == (k, LastWins(init)[k]) && forall j :: i < j < |init| ==> init[j].0 != k;
      assert pairs[i] == init[i];
    }
  }

  /** Setting the entries of `a` and then those of `b`: a key of `b` keeps its value in
      `b`, any other key its value in `a`. */
  lemma {:induction false} LastWinsAppend<K(!new), V>(a: seq<(K, V)>, b: seq<(K, V)>, k: K)
    ensures k in LastWins(a + b) <==> k in LastWins(a) || k in LastWins(b)
    ensures k in LastWins(b) ==> LastWins(a + b)[k] == LastWins(b)[k]
    ensures k !in LastWins(b) && k in LastWins(a) ==> LastWins(a + b)[k] == LastWins(a)[k]
    decreases |b|
  {
    if b == [] {
      assert a + b == a;
    } else {
      var init := b[..|b| - 1];
      assert (a + b)[..|a + b| - 1] == a + init;
      assert (a + b)[|a + b| - 1] == b[|b| - 1];
      LastWinsAppend(a, init, k);
    }
  }
}

=== FILE: highlight.dfy ===
/** What the chart draws in full colour: everything, or the lineages and families on a
    stack of selections, with the marriages and "uncle" families among the people they
    cover. Ids are strings here, as in the index. */
module Highlight {
  import opened Wrappers
  import opened Seqs
  import opened Model
  import FrontendIndex

  /** One selection on the stack: whom it was made from, and what it covers. */
  datatype Entry = Entry(from: string, relatedPeople: set<PersonId>, relatedFamilies: set<FamilyId>)

  /** The stack of selections, with the unions the queries read. */
  datatype Stack = Stack(
    index: FrontendIndex.Index,
    entries: seq<Entry>,
    allPeople: set<PersonId>,
    allFamilies: set<FamilyId>,
    allMarriages: set<FamilyId>,
    allUncleFamilies: set<FamilyId>)

  /** `HighlightAll`, or a stack (`HiglightLineages`). */
  datatype Highlighter = HighlightAll | HighlightLineages(stack: Stack)

  // ---------------------------------------------------------------------------------
  // Unions over the stack.

  function PeopleOf(entries: seq<Entry>): set<PersonId> {
    if |entries| == 0 then {} else PeopleOf(entries[..|entries| - 1]) + entries[|entries| - 1].relatedPeople
  }

  function FamiliesOf(entries: seq<Entry>): set<FamilyId> {
    if |entries| == 0 then {} else FamiliesOf(entries[..|entries| - 1]) + entries[|entries| - 1].relatedFamilies
  }

  lemma {:induction false} PeopleOfSpec(entries: seq<Entry>, x: PersonId)
    ensures x in PeopleOf(entries) <==> exists i :: 0 <= i < |entries| && x in entries[i].relatedPeople
  {
    if |entries| > 0 {
      var init := entries[..|entries| - 1];
      PeopleOfSpec(init, x);
      if i :| 0 <= i < |entries| && x in entries[i].relatedPeople {
        if i < |init| {
          assert init[i] == entries[i];
        }
      }
      if i :| 0 <= i < |init| && x in init[i].relatedPeople {
        assert entries[i] == init[i];
      }
    }
  }

  lemma {:induction false} FamiliesOfSpec(entries: seq<Entry>, x: FamilyId)
    ensures x in FamiliesOf(entries) <==> exists i :: 0 <= i < |entries| && x in entries[i].relatedFamilies
  {
    if |entries| > 0 {
      var init := entries[..|entries| - 1];
      FamiliesOfSpec(init, x);
      if i :| 0 <= i < |entries| && x in entries[i].relatedFamilies {
        if i < |init| {
          assert init[i] == entries[i];
        }
      }
      if i :| 0 <= i < |init| && x in init[i].relatedFamilies {
        assert entries[i] == init[i];
      }
    }
  }

  /** `remakeCashes`: every cache recomputed from the entries. */
  function Remake(index: FrontendIndex.Index, entries: seq<Entry>): (r: Stack)
    ensures Cached(r) && r.index == index && r.entries == entries
  {
    var people := PeopleOf(entries);
    Stack(index, entries, people, FamiliesOf(entries),
          Elems(FrontendIndex.Marriages(index, people)), Elems(FrontendIndex.UncleFamilies(index, people)))
  }

  /** The caches agree with the entries. */
  ghost predicate Cached(h: Stack) {
    && h.allPeople == PeopleOf(h.entries)
    && h.allFamilies == FamiliesOf(h.entries)
    && h.allMarriages == Elems(FrontendIndex.Marriages(h.index, h.allPeople))
    && h.allUncleFamilies == Elems(FrontendIndex.UncleFamilies(h.index, h.allPeople))
  }

  // ---------------------------------------------------------------------------------
  // Entries.

  /** `personToLineageData`: a person's lineage. */
  function PersonEntry(index: FrontendIndex.Index, id: PersonId): (e: Entry)
    ensures e.from == id
    ensures e.relatedPeople == FrontendIndex.Lineage(index, id).relativies
    ensures e.relatedFamilies == FrontendIndex.Lineage(index, id).families
  {
    var g := FrontendIndex.Lineage(index, id);
    Entry(id, g.relativies, g.families)
  }

  /** `familyToLineageData`: a family's members and the family itself. The source reads
      the members of whatever `family` returns, so the family must exist. */
  function FamilyEntry(index: FrontendIndex.Index, id: FamilyId): (e: Entry)
    requires FrontendIndex.FamilyById(index, id).Some?
    ensures var f := FrontendIndex.FamilyById(index, id).value;
      && e.from == id && e.relatedFamilies == {id}
      && (forall p :: p in e.relatedPeople <==> p in f.parents || p in f.children)
  {
    var f := FrontendIndex.FamilyById(index, id).value;
    Entry(id, Elems(f.children + f.parents), {id})
  }

  // ---------------------------------------------------------------------------------
  // The operations.

  /** The constructor: one lineage per given person, in order. */
  function New(index: FrontendIndex.Index, people: seq<PersonId>): (r: Stack)
    ensures Cached(r) && r.index == index && |r.entries| == |people|
    ensures forall i :: 0 <= i < |people| ==> r.entries[i] == PersonEntry(index, people[i])
  {
    Remake(index, MapSeq(people, (id: PersonId) => PersonEntry(index, id)))
  }

  function PushPerson(h: Stack, id: PersonId): (r: Stack)
    ensures Cached(r) && r.index == h.index && r.entries == h.entries + [PersonEntry(h.index, id)]
  {
    Remake(h.index, h.entries + [PersonEntry(h.index, id)])
  }

  function PushFamily(h: Stack, id: FamilyId): (r: Stack)
    requires FrontendIndex.FamilyById(h.index, id).Some?
    ensures Cached(r) && r.index == h.index && r.entries == h.entries + [FamilyEntry(h.index, id)]
  {
    Remake(h.index, h.entries + [FamilyEntry(h.index, id)])
  }

  /** `pop`: the last selection goes; popping an empty stack changes nothing. */
  function Pop(h: Stack): (r: Stack)
    ensures Cached(r) && r.index == h.index
    ensures |h.entries| > 0 ==> r.entries == h.entries[..|h.entries| - 1]
    ensures |h.entries| == 0 ==> r.entries == []
  {
    Remake(h.index, if |h.entries| == 0 then [] else h.entries[..|h.entries| - 1])
  }

  predicate PersonIsHighlighted(h: Highlighter, id: PersonId) {
    match h
    case HighlightAll => true
    case HighlightLineages(st) => |st.entries| == 0 || id in st.allPeople
  }

  predicate FamilyIsHighlighted(h: Highlighter, id: FamilyId) {
    match h
    case HighlightAll => true
    case HighlightLineages(st) =>
      |st.entries| == 0 || id in st.allFamilies || id in st.allMarriages || id in st.allUncleFamilies
  }

  // ---------------------------------------------------------------------------------
  // Properties.

  /** `HighlightAll` highlights every person and family. */
  lemma AllHighlighted(p: PersonId, f: FamilyId)
    ensures PersonIsHighlighted(HighlightAll, p) && FamilyIsHighlighted(HighlightAll, f)
  {
  }

  /** With nothing selected, everything is highlighted. */
  lemma EmptyStackHighlightsAll(index: FrontendIndex.Index, p: PersonId, f: FamilyId)
    ensures PersonIsHighlighted(HighlightLineages(New(index, [])), p)
    ensures FamilyIsHighlighted(HighlightLineages(New(index, [])), f)
  {
  }

  /** Otherwise a person is highlighted exactly when some selection covers it. */
  lemma PersonHighlightedSpec(h: Stack, p: PersonId)
    requires Cached(h) && |h.entries| > 0
    ensures PersonIsHighlighted(HighlightLineages(h), p) <==>
      exists i :: 0 <= i < |h.entries| && p in h.entries[i].relatedPeople
  {
    PeopleOfSpec(h.entries, p);
  }

  /** ... and a family exactly when some selection covers it, or it is a marriage or an
      uncle family among the people covered. */
  lemma FamilyHighlightedSpec(h: Stack, f: FamilyId)
    requires Cached(h) && |h.entries| > 0
    ensures FamilyIsHighlighted(HighlightLineages(h), f) <==>
      || (exists i :: 0 <= i < |h.entries| && f in h.entries[i].relatedFamilies)
      || f in FrontendIndex.Marriages(h.index, PeopleOf(h.entries))
      || f in FrontendIndex.UncleFamilies(h.index, PeopleOf(h.entries))
  {
    FamiliesOfSpec(h.entries, f);
  }

  /** Pushing a person and popping restores the stack, caches included. */
  lemma PushPersonPop(h: Stack, id: PersonId)
    requires Cached(h)
    ensures Pop(PushPerson(h, id)) == h
  {
    assert (h.entries + [PersonEntry(h.index, id)])[..|h.entries|] == h.entries;
  }

  /** The same for a family. */
  lemma PushFamilyPop(h: Stack, id: FamilyId)
    requires Cached(h) && FrontendIndex.FamilyById(h.index, id).Some?
    ensures Pop(PushFamily(h, id)) == h
  {
    assert (h.entries + [FamilyEntry(h.index, id)])[..|h.entries|] == h.entries;
  }

  /** A pushed family, its parents and its children are highlighted. */
  lemma PushFamilyHighlights(h: Stack, id: FamilyId)
    requires FrontendIndex.FamilyById(h.index, id).Some?
    ensures var r := HighlightLineages(PushFamily(h, id));
      var f := FrontendIndex.FamilyById(h.index, id).value;
      && FamilyIsHighlighted(r, id)
      && (forall p | p in f.parents :: PersonIsHighlighted(r, p))
      && (forall p | p in f.children :: PersonIsHighlighted(r, p))
  {
  }

  /** A pushed person's relatives are highlighted, and so is everything highlighted
      before, when something was selected. */
  lemma PushPersonHighlights(h: Stack, id: PersonId, p: PersonId)
    requires Cached(h)
    ensures p in FrontendIndex.Lineage(h.index, id).relativies ==> PersonIsHighlighted(HighlightLineages(PushPerson(h, id)), p)
    ensures |h.entries| > 0 && PersonIsHighlighted(HighlightLineages(h), p) ==>
      PersonIsHighlighted(HighlightLineages(PushPerson(h, id)), p)
  {
  }

  /** Pushes one person after another. */
  function PushAll(h: Stack, people: seq<PersonId>): Stack
  {
    if |people| == 0 then h else PushPerson(PushAll(h, people[..|people| - 1]), people[|people| - 1])
  }

  /** The constructor is the empty stack with each person pushed in order. */
  lemma {:induction false} NewIsPushes(index: FrontendIndex.Index, people: seq<PersonId>)
    ensures New(index, people) == PushAll(New(index, []), people)
  {
    if |people| > 0 {
      var init := people[..|people| - 1];
      NewIsPushes(index, init);
      assert New(index, people).entries == New(index, init).entries + [PersonEntry(index, people[|people| - 1])];
    }
  }
}

=== FILE: i18n.dfy ===
/** Translation: the locale picked at start-up, `{word}` placeholder interpolation, and
    message lookup with the key itself as the fallback. */
module I18n {
  import opened Wrappers

  datatype Locale = En | Ru {
    function Name(): string {
      match this
      case En => "en"
      case Ru => "ru"
    }
  }

  /** The error raised with a message key and, for some keys, parameters. */
  datatype LocalizedError = LocalizedError(key: string, params: Option<map<string, string>>)

  /** `getInitialLocale`, given what the browser store holds under the locale key (`None`
      when nothing is stored or the store cannot be read). */
  function InitialLocale(stored: Option<string>): (l: Locale)
    ensures stored == Some("ru") <==> l == Ru
    ensures stored == Some("en") || stored == Some("ru") ==> Some(l.Name()) == stored
  {
    if stored == Some("en") then En
    else if stored == Some("ru") then Ru
    else En
  }

  // ---------------------------------------------------------------------------------
  // Placeholders.

  /** `\w` of a JavaScript regular expression. */
  predicate IsWordChar(c: char) {
    ('a' <= c <= 'z') || ('A' <= c <= 'Z') || ('0' <= c <= '9') || c == '_'
  }

  /** The length of the longest run of word characters at the start of `s`. */
  function WordRun(s: string): (n: nat)
    ensures n <= |s|
    ensures forall i :: 0 <= i < n ==> IsWordChar(s[i])
    ensures n < |s| ==> !IsWordChar(s[n])
  {
    if |s| == 0 || !IsWordChar(s[0]) then 0 else 1 + WordRun(s[1..])
  }

  /** The key of the `{word}` placeholder at the start of `t`, if one starts there. The
      greedy `\w+` can only be followed by `}` at the end of its longest run. */
  function PlaceholderAt(t: string): (r: Option<string>)
    ensures r.Some? ==> |r.value| >= 1 && |r.value| + 2 <= |t| && t == "{" + r.value + "}" + t[|r.value| + 2..]
  {
    if |t| >= 1 && t[0] == '{' then
      var n := WordRun(t[1..]);
      if n >= 1 && 1 + n < |t| && t[1 + n] == '}' then
        assert t == "{" + t[1..1 + n] + "}" + t[n + 2..];
        Some(t[1..1 + n])
      else None
    else None
  }

  /** What a placeholder becomes: its parameter, or itself when there is none. Only the
      parameters' own keys are looked up; keys a JavaScript object inherits (`constructor`,
      `toString`, `__proto__`, ...) are not part of this model. */
  function Fill(key: string, params: map<string, string>): string {
    if key in params then params[key] else "{" + key + "}"
  }

  /** `template.replace(/\{(\w+)\}/g, ...)`: a left-to-right scan that replaces each
      placeholder and resumes after it. */
  function Replace(t: string, params: map<string, string>): string
    decreases |t|
  {
    if |t| == 0 then ""
    else match PlaceholderAt(t)
      case Some(key) => Fill(key, params) + Replace(t[|key| + 2..], params)
      case None => [t[0]] + Replace(t[1..], params)
  }

  /** `interpolate`: without parameters the template is returned as it is. */
  function Interpolate(template: string, params: Option<map<string, string>>): string {
    if params.None? then template else Replace(template, params.value)
  }

  /** A template described piece by piece: literal text and named placeholders. */
  datatype Piece = Text(s: string) | Hole(key: string)

  function RenderPiece(p: Piece): string {
    match p
    case Text(s) => s
    case Hole(k) => "{" + k + "}"
  }

  function FillPiece(p: Piece, params: map<string, string>): string {
    match p
    case Text(s) => s
    case Hole(k) => Fill(k, params)
  }

  /** The template text of the pieces. */
  function Render(ps: seq<Piece>): string {
    if |ps| == 0 then "" else RenderPiece(ps[0]) + Render(ps[1..])
  }

  /** The message the pieces stand for, each hole filled. */
  function Filled(ps: seq<Piece>, params: map<string, string>): string {
    if |ps| == 0 then "" else FillPiece(ps[0], params) + Filled(ps[1..], params)
  }

  /** No text opens a brace and every hole names a word. */
  predicate WellFormed(ps: seq<Piece>) {
    forall i :: 0 <= i < |ps| ==>
      match ps[i]
      case Text(s) => '{' !in s
      case Hole(k) => |k| >= 1 && forall j :: 0 <= j < |k| ==> IsWordChar(k[j])
  }

  lemma {:induction false} ReplaceText(s: string, rest: string, params: map<string, string>)
    requires '{' !in s
    ensures Replace(s + rest, params) == s + Replace(rest, params)
  {
    if |s| > 0 {
      var t := s + rest;
      assert t[0] == s[0];
      assert PlaceholderAt(t).None?;
      assert t[1..] == s[1..] + rest;
      assert Replace(t, params) == [s[0]] + Replace(s[1..] + rest, params);
      ReplaceText(s[1..], rest, params);
      assert s == [s[0]] + s[1..];
      assert [s[0]] + (s[1..] + Replace(rest, params)) == s + Replace(rest, params);
    } else {
      assert s + rest == rest;
    }
  }

  lemma {:induction false} WordRunOfKey(k: string, rest: string)
    requires forall j :: 0 <= j < |k| ==> IsWordChar(k[j])
    ensures WordRun(k + "}" + rest) == |k|
  {
    if |k| > 0 {
      assert (k + "}" + rest)[1..] == k[1..] + "}" + rest;
      WordRunOfKey(k[1..], rest);
    }
  }

  lemma ReplaceHole(k: string, rest: string, params: map<string, string>)
    requires |k| >= 1 && forall j :: 0 <= j < |k| ==> IsWordChar(k[j])
    ensures Replace("{" + k + "}" + rest, params) == Fill(k, params) + Replace(rest, params)
  {
    var t := "{" + k + "}" + rest;
    assert t[1..] == k + "}" + rest;
    WordRunOfKey(k, rest);
    assert t[0] == '{' && t[1 + |k|] == '}';
    assert t[1..1 + |k|] == k;
    assert PlaceholderAt(t) == Some(k);
    assert t[|k| + 2..] == rest;
  }

  /** Interpolating a well-formed template fills each hole and keeps every text. */
  lemma {:induction false} InterpolateFills(ps: seq<Piece>, params: map<string, string>)
    requires WellFormed(ps)
    ensures Interpolate(Render(ps), Some(params)) == Filled(ps, params)
  {
    if |ps| > 0 {
      assert WellFormed(ps[1..]) by {
        forall i | 0 <= i < |ps| - 1 ensures ps[1..][i] == ps[i + 1] { }
      }
      InterpolateFills(ps[1..], params);
      match ps[0]
      case Text(s) =>
        assert '{' !in s by { assert ps[0] == Text(s); }
        ReplaceText(s, Render(ps[1..]), params);
      case Hole(k) =>
        assert ps[0] == Hole(k);
        assert "{" + k + "}" + Render(ps[1..]) == RenderPiece(ps[0]) + Render(ps[1..]);
        ReplaceHole(k, Render(ps[1..]), params);
    }
  }

  /** Every placeholder of `t` names a key `params` lacks. */
  ghost predicate KeysMissing(t: string, params: map<string, string>) {
    forall i :: 0 <= i < |t| && PlaceholderAt(t[i..]).Some? ==> PlaceholderAt(t[i..]).value !in params
  }

  /** Placeholders without a parameter stay as they are, so a template whose keys are all
      missing, or which has no placeholder at all, comes back unchanged. */
  lemma {:induction false} MissingKeysKept(t: string, params: map<string, string>)
    requires KeysMissing(t, params)
    ensures Interpolate(t, Some(params)) == t
    decreases |t|
  {
    if |t| > 0 {
      assert t[0..] == t;
      match PlaceholderAt(t)
      case Some(key) =>
        var rest := t[|key| + 2..];
        assert KeysMissing(rest, params) by {
          forall i | 0 <= i < |rest| && PlaceholderAt(rest[i..]).Some?
            ensures PlaceholderAt(rest[i..]).value !in params
          {
            assert rest[i..] == t[|key| + 2 + i..];
          }
        }
        MissingKeysKept(rest, params);
      case None =>
        assert KeysMissing(t[1..], params) by {
          forall i | 0 <= i < |t[1..]| && PlaceholderAt(t[1..][i..]).Some?
            ensures PlaceholderAt(t[1..][i..]).value !in params
          {
            assert t[1..][i..] == t[1 + i..];
          }
        }
        MissingKeysKept(t[1..], params);
        assert t == [t[0]] + t[1..];
    }
  }

  // ---------------------------------------------------------------------------------
  // Lookup.

  /** The function `t` yields for a locale's dictionary: a missing or empty entry gives
      the key back. Only the dictionary's own entries are looked up, not the keys its
      object inherits. */
  function Translate(dict: map<string, string>, key: string, params: Option<map<string, string>>): (r: string)
    ensures (key !in dict || dict[key] == "") ==> r == key
    ensures key in dict && dict[key] != "" && params.None? ==> r == dict[key]
  {
    if key !in dict || dict[key] == "" then key else Interpolate(dict[key], params)
  }

  /** A message written around one `{name}` placeholder. */
  datatype NameMessage = NameMessage(before: string, after: string) {
    function Template(): string {
      before + "{name}" + after
    }

    /** No other brace: the placeholder is the message's only one. */
    predicate Plain() {
      '{' !in before && '{' !in after
    }
  }

  /** The messages that name a person. */
  const EnNoSuchPerson := NameMessage("You specified an unknown person ", ", perhaps they have already been deleted?")
  const EnChildAlreadyHasParents := NameMessage("", " already has parents, you cannot add them to a family")
  const EnDuplicatedIds := NameMessage("Cannot specify the same person ", " in a family twice")
  const EnAccessToPersonDenied := NameMessage("Action on person ", " is forbidden")
  const RuNoSuchPerson := NameMessage("Вы указали неизвестного человека ", ", возможно, его уже удалили?")
  const RuChildAlreadyHasParents := NameMessage("У ", ", уже есть родители, вы не можете добавить его в семью")
  const RuDuplicatedIds := NameMessage("Нельзя указать одного и того же человека ", " в семье дважды")
  const RuAccessToPersonDenied := NameMessage("Действие с человеком ", " запрещено")

  /** The error messages of the two dictionaries. */
  const EnErrors: map<string, string> := map[
    "error.sessionExpired" := "Session has expired. Please sign in again (reload the page)",
    "error.unexpectedResponse" := "Received an unexpected response from the server. Try reloading the page",
    "error.unknown" := "Something went wrong. Try reloading the page",
    "error.invalidRequest" := "Invalid request — how did you manage to send that?!",
    "error.noSuchPerson" := EnNoSuchPerson.Template(),
    "error.childAlreadyHasParents" := EnChildAlreadyHasParents.Template(),
    "error.incompleteFamily" := "Cannot create a family with fewer than 2 people",
    "error.duplicatedIds" := EnDuplicatedIds.Template(),
    "error.accessToFamilyDenied" := "Action on the family is forbidden",
    "error.accessToPersonDenied" := EnAccessToPersonDenied.Template(),
    "error.accessToStemmaDenied" := "Action on the family tree is forbidden",
    "error.invalidInviteToken" := "Please check the invitation link",
    "error.foreignInviteToken" := "It seems you are using someone else's invitation link",
    "error.stemmaHasCycles" := "Invalid family composition — a cyclic dependency was detected",
    "error.noDescription" := "[NO DESCRIPTION]",
    "error.defaultStemmaName" := "My family tree"
  ]

  const RuErrors: map<string, string> := map[
    "error.sessionExpired" := "Сессия успела протухнуть. Авторизуйтесь заново (перезагрузите страницу)",
    "error.unexpectedResponse" := "Получен неожиданный ответ от сервера. Попробуйте перезагрузить страницу",
    "error.unknown" := "Что-то пошло не так. Попробуйте перезагрузить страницу",
    "error.invalidRequest" := "Невалидный запрос, как у тебя удалось-то такой послать вообще?!",
    "error.noSuchPerson" := RuNoSuchPerson.Template(),
    "error.childAlreadyHasParents" := RuChildAlreadyHasParents.Template(),
    "error.incompleteFamily" := "Нельзя создать семью, в которой меньше 2 людей",
    "error.duplicatedIds" := RuDuplicatedIds.Template(),
    "error.accessToFamilyDenied" := "Действие с семьей запрещено",
    "error.accessToPersonDenied" := RuAccessToPersonDenied.Template(),
    "error.accessToStemmaDenied" := "Действие с родословной запрещено",
    "error.invalidInviteToken" := "Проверьте правильность ссылки-приглашения",
    "error.foreignInviteToken" := "Похоже, вы используете чужую ссылку-приглашение",
    "error.stemmaHasCycles" := "Неверная композиция семьи - обнаружена циклическая зависимость",
    "error.noDescription" := "[НЕТ ОПИСАНИЯ]",
    "error.defaultStemmaName" := "Моя родословная"
  ]

  function Dictionary(l: Locale): map<string, string> {
    match l
    case En => EnErrors
    case Ru => RuErrors
  }

  /** The message shown for a localized error in a locale. */
  function Message(l: Locale, e: LocalizedError): string {
    Translate(Dictionary(l), e.key, e.params)
  }

  /** The messages of a locale that name a person, by key. */
  function NameMessageOf(l: Locale, key: string): Option<NameMessage> {
    match l
    case En =>
      if key == "error.noSuchPerson" then Some(EnNoSuchPerson)
      else if key == "error.childAlreadyHasParents" then Some(EnChildAlreadyHasParents)
      else if key == "error.duplicatedIds" then Some(EnDuplicatedIds)
      else if key == "error.accessToPersonDenied" then Some(EnAccessToPersonDenied)
      else None
    case Ru =>
      if key == "error.noSuchPerson" then Some(RuNoSuchPerson)
      else if key == "error.childAlreadyHasParents" then Some(RuChildAlreadyHasParents)
      else if key == "error.duplicatedIds" then Some(RuDuplicatedIds)
      else if key == "error.accessToPersonDenied" then Some(RuAccessToPersonDenied)
      else None
  }

  /** Each such message is in its dictionary. */
  lemma NameMessageListed(l: Locale, key: string)
    requires NameMessageOf(l, key).Some?
    ensures key in Dictionary(l) && Dictionary(l)[key] == NameMessageOf(l, key).value.Template()
  {
  }

  /** Such a message shows the name it is given, or its placeholder when it is given
      none. */
  lemma NameMessageFilled(m: NameMessage, params: map<string, string>)
    requires m.Plain()
    ensures Interpolate(m.Template(), Some(params)) == m.before + Fill("name", params) + m.after
  {
    var ps := [Text(m.before), Hole("name"), Text(m.after)];
    assert Render(ps[2..]) == m.after by {
      assert ps[2..][1..] == [];
    }
    assert Render(ps[1..]) == "{name}" + m.after by {
      assert ps[1..][1..] == ps[2..];
    }
    assert Render(ps) == m.Template();
    assert Filled(ps[2..], params) == m.after by {
      assert ps[2..][1..] == [];
    }
    assert Filled(ps[1..], params) == Fill("name", params) + m.after by {
      assert ps[1..][1..] == ps[2..];
    }
    InterpolateFills(ps, params);
  }

  /** The template of the translation tests. */
  const Hello := NameMessage("Hello ", "")
  const HelloName := "Hello {name}"

  lemma HelloParts()
    ensures Hello.Plain() && Hello.Template() == HelloName
    ensures Hello.before + Fill("name", map["name" := "Ann"]) + Hello.after == "Hello Ann"
    ensures Hello.before + Fill("name", map[]) + Hello.after == HelloName
  {
  }

  /** The examples of the translation tests: a given name is filled in ... */
  lemma InterpolateGiven()
    ensures Interpolate(HelloName, Some(map["name" := "Ann"])) == "Hello Ann"
  {
    HelloParts();
    NameMessageFilled(Hello, map["name" := "Ann"]);
  }

  /** ... and a missing one stays. */
  lemma InterpolateMissing()
    ensures Interpolate(HelloName, Some(map[])) == HelloName
  {
    HelloParts();
    NameMessageFilled(Hello, map[]);
  }
}

=== FILE: jj_family.dfy ===
/** The "JJ family" of the repository's tests: five families over nine people, and what
    the index and the prototype compute for it.

        joseph (f5)
             \
             july (f3)        jane + john (f1)
                 \           /           \
                  jake + jill (f2)        josh
                             \
                              james (f4)
                                   \
                                    jeff
*/
module JJFamily {
  import opened Wrappers
  import opened Model
  import opened Walk
  import ClientIndex
  import Prototype

  const Jane: PersonId := "1"
  const John: PersonId := "2"
  const Josh: PersonId := "3"
  const Jill: PersonId := "4"
  const Jake: PersonId := "5"
  const James: PersonId := "6"
  const July: PersonId := "7"
  const Jeff: PersonId := "8"
  const Joseph: PersonId := "9"

  const F1 := Family("1", [Jane, John], [Josh, Jill], false)
  const F2 := Family("2", [Jill, Jake], [James], false)
  const F3 := Family("3", [July], [Jake], false)
  const F4 := Family("4", [James], [Jeff], false)
  const F5 := Family("5", [Joseph], [July], false)

  const Tree := Stemma(
    [Person(Jane, "Jane", false), Person(John, "John", false), Person(Josh, "Josh", false),
     Person(Jill, "Jill", false), Person(Jake, "Jake", false), Person(James, "James", false),
     Person(July, "July", false), Person(Jeff, "Jeff", false), Person(Joseph, "Joseph", false)],
    [F1, F2, F3, F4, F5])

  /** Each person one above its highest parent. */
  const Rank: map<PersonId, nat> :=
    map[Joseph := 0, July := 1, Jake := 2, Jane := 0, John := 0, Josh := 1, Jill := 1, James := 3, Jeff := 4]

  lemma TreeAcyclic()
    ensures Acyclic(Tree, Rank)
  {
    forall f, p, c | f in Tree.families && p in f.parents && c in f.children
      ensures p in Rank && c in Rank && Rank[p] < Rank[c]
    {
      assert f == F1 || f == F2 || f == F3 || f == F4 || f == F5;
    }
  }

  // ---------------------------------------------------------------------------------
  // The index.

  lemma IndexJane()
    ensures Acyclic(Tree, Rank) && ClientIndex.GenerationOf(Tree, Rank, Jane) == 0
  {
    TreeAcyclic();
    ClientIndex.GenerationPositive(Tree, Rank, Jane);
  }

  /** A parent's generation is below its child's, on the JJ family. */
  lemma IndexStep(f: Family, q: PersonId, p: PersonId)
    requires f in Tree.families && q in f.parents && p in f.children
    ensures Acyclic(Tree, Rank) && ClientIndex.GenerationOf(Tree, Rank, q) < ClientIndex.GenerationOf(Tree, Rank, p)
  {
    TreeAcyclic();
    ClientIndex.GenerationAboveParents(Tree, Rank, p, q);
  }

  lemma IndexWithinRank(p: PersonId)
    requires p in Rank
    ensures Acyclic(Tree, Rank) && ClientIndex.GenerationOf(Tree, Rank, p) <= Rank[p]
  {
    TreeAcyclic();
    ClientIndex.GenerationWithinRank(Tree, Rank, p);
  }

  /** Joseph's line climbs one generation per person. */
  lemma JosephsLine()
    ensures Acyclic(Tree, Rank)
    ensures ClientIndex.GenerationOf(Tree, Rank, July) >= 1
    ensures ClientIndex.GenerationOf(Tree, Rank, Jeff) >= 4
  {
    IndexStep(F5, Joseph, July);
    IndexStep(F3, July, Jake);
    IndexStep(F2, Jake, James);
    IndexStep(F4, James, Jeff);
  }

  /** ... and no rank is above Jeff's. */
  lemma IndexJosephsLine()
    ensures Acyclic(Tree, Rank)
    ensures ClientIndex.GenerationOf(Tree, Rank, July) == 1
    ensures ClientIndex.GenerationOf(Tree, Rank, Jeff) == 4
  {
    JosephsLine();
    IndexWithinRank(July);
    IndexWithinRank(Jeff);
  }

  lemma Listed(i: nat)
    requires i < |Tree.people|
    ensures Tree.people[i].id in PersonIds(Tree)
  {
    assert Tree.people[i] in Tree.people;
  }

  lemma PeopleRanked(p: Person)
    requires p in Tree.people
    ensures p.id in Rank && Rank[p.id] <= 4
  {
  }

  /** No one in the tree is more than four generations down. */
  lemma GenerationsBounded(p: Person)
    requires p in Tree.people
    ensures Acyclic(Tree, Rank) && ClientIndex.GenerationOf(Tree, Rank, p.id) <= 4
  {
    TreeAcyclic();
    PeopleRanked(p);
    ClientIndex.GenerationWithinRank(Tree, Rank, p.id);
  }

  /** `new StemmaIndex(jjFamily)`, with the generations the index's tests expect: Jane 0,
      July 1, Jeff 4 (along Joseph's line), and 4 as the largest. */
  method BuildIndex() returns (idx: ClientIndex.Index)
    ensures ClientIndex.IndexOf(idx, Tree, Rank)
    ensures ClientIndex.Lineage(idx, Jane).generation == 0
    ensures ClientIndex.Lineage(idx, July).generation == 1
    ensures ClientIndex.Lineage(idx, Jeff).generation == 4
    ensures idx.maxGeneration == Some(4)
  {
    TreeAcyclic();
    idx := ClientIndex.Build(Tree, Rank);
    LineageTable(idx.lineage, idx.maxGeneration);
  }

  lemma LineageTable(lineage: map<PersonId, Generation>, maxGeneration: Option<nat>)
    requires Acyclic(Tree, Rank) && ClientIndex.LineagesOf(lineage, maxGeneration, Tree, Rank)
    ensures Jane in lineage && lineage[Jane].generation == 0
    ensures July in lineage && lineage[July].generation == 1
    ensures Jeff in lineage && lineage[Jeff].generation == 4
    ensures maxGeneration == Some(4)
  {
    TableEntry(lineage, maxGeneration, 0);
    TableEntry(lineage, maxGeneration, 6);
    TableEntry(lineage, maxGeneration, 7);
    IndexJane();
    IndexJosephsLine();
    LargestGeneration(lineage, maxGeneration);
  }

  /** The table's entry for the person at position `i` of the tree. */
  lemma TableEntry(lineage: map<PersonId, Generation>, maxGeneration: Option<nat>, i: nat)
    requires Acyclic(Tree, Rank) && ClientIndex.LineagesOf(lineage, maxGeneration, Tree, Rank)
    requires i < |Tree.people|
    ensures Tree.people[i].id in lineage
    ensures lineage[Tree.people[i].id].generation == ClientIndex.GenerationOf(Tree, Rank, Tree.people[i].id)
  {
    Listed(i);
    ClientIndex.LineageEntry(lineage, maxGeneration, Tree, Rank, Tree.people[i].id);
  }

  /** Jeff's generation 4 is the largest: nobody is ranked deeper than him. */
  lemma LargestGeneration(lineage: map<PersonId, Generation>, maxGeneration: Option<nat>)
    requires Acyclic(Tree, Rank) && ClientIndex.LineagesOf(lineage, maxGeneration, Tree, Rank)
    ensures maxGeneration == Some(4)
  {
    IndexJosephsLine();
    assert Tree.people != [];
    var m := maxGeneration.value;
    assert m <= 4 by {
      var p :| p in Tree.people && ClientIndex.GenerationOf(Tree, Rank, p.id) == m;
      GenerationsBounded(p);
    }
    assert m >= 4 by {
      assert Tree.people[7] in Tree.people;
    }
  }

  // ---------------------------------------------------------------------------------
  // The prototype.

  /** The entry of a child listed only by family `i` from there on. */
  lemma AncestorAt(k: PersonId, i: nat)
    requires i < 5 && k in Tree.families[i].children
    requires forall j :: i < j < 5 ==> k !in Tree.families[j].children
    ensures k in Prototype.Relation(Tree.families, Children)
    ensures Prototype.Relation(Tree.families, Children)[k] == Tree.families[i].parents
  {
    Prototype.RelationAt(Tree.families, Children, k, i);
  }

  lemma NoAncestorEntry(k: PersonId)
    requires forall i :: 0 <= i < 5 ==> k !in Tree.families[i].children
    ensures k !in Prototype.Relation(Tree.families, Children)
  {
    Prototype.RelationKeys(Tree.families, Children, k);
  }

  /** The prototype's ancestor relation on the JJ family. */
  lemma AncestorRelation()
    ensures var r := Prototype.Relation(Tree.families, Children);
      && Jeff in r && r[Jeff] == [James] && James in r && r[James] == [Jill, Jake]
      && Jill in r && r[Jill] == [Jane, John] && Jake in r && r[Jake] == [July]
      && July in r && r[July] == [Joseph]
      && Jane !in r && John !in r && Joseph !in r
  {
    AncestorsOfJames();
    AncestorsOfJake();
    NoAncestorEntry(Jane);
    NoAncestorEntry(John);
    NoAncestorEntry(Joseph);
  }

  lemma AncestorsOfJames()
    ensures var r := Prototype.Relation(Tree.families, Children);
      Jeff in r && r[Jeff] == [James] && James in r && r[James] == [Jill, Jake] && Jill in r && r[Jill] == [Jane, John]
  {
    AncestorAt(Jeff, 3);
    AncestorAt(James, 1);
    AncestorAt(Jill, 0);
  }

  lemma AncestorsOfJake()
    ensures var r := Prototype.Relation(Tree.families, Children);
      Jake in r && r[Jake] == [July] && July in r && r[July] == [Joseph]
  {
    AncestorAt(Jake, 2);
    AncestorAt(July, 4);
  }

  /** As written, the prototype gives Jeff generation 5: its depth counts the five people
      the ancestor walk expands (Jeff, James, Jill, Jake, July), where the test expects the
      four generations of Joseph's line. */
  lemma PrototypeJeffAsWritten()
    ensures Acyclic(Tree, Rank) && Prototype.WrittenGeneration(Tree, Rank, Jeff) == 5
  {
    TreeAcyclic();
    AncestorRelation();
    Prototype.AncestorsRanked(Tree, Rank);
    var r := Prototype.Relation(Tree.families, Children);
    Prototype.SpreadUnfold(r, Rank, Jane);
    Prototype.SpreadUnfold(r, Rank, John);
    Prototype.SpreadUnfold(r, Rank, Joseph);
    Prototype.SpreadUnfold(r, Rank, July);
    Prototype.SpreadUnfold(r, Rank, Jake);
    Prototype.SpreadUnfold(r, Rank, Jill);
    Prototype.SpreadUnfold(r, Rank, James);
    Prototype.SpreadUnfold(r, Rank, Jeff);
  }

  /** Corrected, the prototype gives Jeff generation 4, as its test expects. */
  lemma PrototypeJeffCorrected()
    ensures Acyclic(Tree, Rank) && Prototype.IntendedGeneration(Tree, Rank, Jeff) == 4
  {
    TreeAcyclic();
    AncestorRelation();
    Prototype.AncestorsRanked(Tree, Rank);
    var r := Prototype.Relation(Tree.families, Children);
    HeightUnfold(r, Rank, Jane);
    HeightUnfold(r, Rank, John);
    HeightUnfold(r, Rank, Joseph);
    HeightUnfold(r, Rank, July);
    HeightUnfold(r, Rank, Jake);
    HeightUnfold(r, Rank, Jill);
    HeightUnfold(r, Rank, James);
    HeightUnfold(r, Rank, Jeff);
  }
}

=== FILE: jj_lineages.dfy ===
/** The relatives and families the index's tests expect on the JJ family, and the
    relatives the prototype's tests expect. */
module JJLineages {
  import opened Model
  import opened Walk
  import opened JJFamily
  import FrontendIndex
  import ClientIndex
  import Prototype

  // ---------------------------------------------------------------------------------
  // The tree's relations.

  /** Who is whose parent in the JJ family. */
  lemma ParentsOf(q: PersonId, p: PersonId)
    ensures ParentOf(Tree, q, p) <==>
      || ((q == Jane || q == John) && (p == Josh || p == Jill))
      || ((q == Jill || q == Jake) && p == James)
      || (q == July && p == Jake)
      || (q == James && p == Jeff)
      || (q == Joseph && p == July)
  {
    assert Tree.families[0] == F1 && Tree.families[1] == F2 && Tree.families[2] == F3;
    assert Tree.families[3] == F4 && Tree.families[4] == F5;
    if ParentOf(Tree, q, p) {
      var f :| f in Tree.families && q in f.parents && p in f.children;
      assert f == F1 || f == F2 || f == F3 || f == F4 || f == F5;
    }
  }

  /** The families each person is a child in. */
  lemma ChildInOf(q: PersonId, id: FamilyId)
    ensures ChildIn(Tree, q, id) <==>
      || ((q == Josh || q == Jill) && id == "1")
      || (q == James && id == "2")
      || (q == Jake && id == "3")
      || (q == Jeff && id == "4")
      || (q == July && id == "5")
  {
    assert Tree.families[0] == F1 && Tree.families[1] == F2 && Tree.families[2] == F3;
    assert Tree.families[3] == F4 && Tree.families[4] == F5;
    if ChildIn(Tree, q, id) {
      var f :| f in Tree.families && q in f.children && |f.parents| > 0 && f.id == id;
      assert f == F1 || f == F2 || f == F3 || f == F4 || f == F5;
    }
  }

  /** The families each person is a parent in. */
  lemma ParentInOf(q: PersonId, id: FamilyId)
    ensures ParentIn(Tree, q, id) <==>
      || ((q == Jane || q == John) && id == "1")
      || ((q == Jill || q == Jake) && id == "2")
      || (q == July && id == "3")
      || (q == James && id == "4")
      || (q == Joseph && id == "5")
  {
    assert Tree.families[0] == F1 && Tree.families[1] == F2 && Tree.families[2] == F3;
    assert Tree.families[3] == F4 && Tree.families[4] == F5;
    if ParentIn(Tree, q, id) {
      var f :| f in Tree.families && q in f.parents && |f.children| > 0 && f.id == id;
      assert f == F1 || f == F2 || f == F3 || f == F4 || f == F5;
    }
  }

  // ---------------------------------------------------------------------------------
  // Descendants, from the leaves up.

  lemma DescendantsOfJeff()
    ensures Acyclic(Tree, Rank) && FrontendIndex.Descendants(Tree, Rank, Jeff) == {Jeff}
  {
    TreeAcyclic();
    forall x ensures x in FrontendIndex.Descendants(Tree, Rank, Jeff) <==> x == Jeff {
      FrontendIndex.DescendantsStep(Tree, Rank, Jeff, x);
      forall q ensures !ParentOf(Tree, Jeff, q) { ParentsOf(Jeff, q); }
    }
  }

  lemma DescendantsOfJosh()
    ensures Acyclic(Tree, Rank) && FrontendIndex.Descendants(Tree, Rank, Josh) == {Josh}
  {
    TreeAcyclic();
    forall x ensures x in FrontendIndex.Descendants(Tree, Rank, Josh) <==> x == Josh {
      FrontendIndex.DescendantsStep(Tree, Rank, Josh, x);
      forall q ensures !ParentOf(Tree, Josh, q) { ParentsOf(Josh, q); }
    }
  }

  /** A person with the single child `c` descends to itself and to `c`'s descendants. */
  lemma DescendantsThrough(p: PersonId, c: PersonId)
    requires Acyclic(Tree, Rank)
    requires forall q :: ParentOf(Tree, p, q) <==> q == c
    ensures FrontendIndex.Descendants(Tree, Rank, p) == {p} + FrontendIndex.Descendants(Tree, Rank, c)
  {
    forall x ensures x in FrontendIndex.Descendants(Tree, Rank, p) <==> x == p || x in FrontendIndex.Descendants(Tree, Rank, c) {
      FrontendIndex.DescendantsStep(Tree, Rank, p, x);
    }
  }

  lemma DescendantsOfJames()
    ensures Acyclic(Tree, Rank) && FrontendIndex.Descendants(Tree, Rank, James) == {James, Jeff}
  {
    DescendantsOfJeff();
    forall q ensures ParentOf(Tree, James, q) <==> q == Jeff { ParentsOf(James, q); }
    DescendantsThrough(James, Jeff);
  }

  lemma DescendantsOfJill()
    ensures Acyclic(Tree, Rank) && FrontendIndex.Descendants(Tree, Rank, Jill) == {Jill, James, Jeff}
  {
    DescendantsOfJames();
    forall q ensures ParentOf(Tree, Jill, q) <==> q == James { ParentsOf(Jill, q); }
    DescendantsThrough(Jill, James);
  }

  lemma DescendantsOfJake()
    ensures Acyclic(Tree, Rank) && FrontendIndex.Descendants(Tree, Rank, Jake) == {Jake, James, Jeff}
  {
    DescendantsOfJames();
    forall q ensures ParentOf(Tree, Jake, q) <==> q == James { ParentsOf(Jake, q); }
    DescendantsThrough(Jake, James);
  }

  lemma DescendantsOfJuly()
    ensures Acyclic(Tree, Rank) && FrontendIndex.Descendants(Tree, Rank, July) == {July, Jake, James, Jeff}
  {
    DescendantsOfJake();
    forall q ensures ParentOf(Tree, July, q) <==> q == Jake { ParentsOf(July, q); }
    DescendantsThrough(July, Jake);
  }

  lemma DescendantsOfJane()
    ensures Acyclic(Tree, Rank) && FrontendIndex.Descendants(Tree, Rank, Jane) == {Jane, Josh, Jill, James, Jeff}
  {
    DescendantsOfJosh();
    DescendantsOfJill();
    forall x ensures x in FrontendIndex.Descendants(Tree, Rank, Jane) <==> x in {Jane, Josh, Jill, James, Jeff} {
      FrontendIndex.DescendantsStep(Tree, Rank, Jane, x);
      forall q ensures ParentOf(Tree, Jane, q) <==> q == Josh || q == Jill { ParentsOf(Jane, q); }
      if x in {Josh} { assert ParentOf(Tree, Jane, Josh) && x in FrontendIndex.Descendants(Tree, Rank, Josh); }
      if x in {Jill, James, Jeff} { assert ParentOf(Tree, Jane, Jill) && x in FrontendIndex.Descendants(Tree, Rank, Jill); }
    }
  }

  // ---------------------------------------------------------------------------------
  // Ancestors, from the roots down.

  /** A person without parents is its only ancestor. */
  lemma AncestorsRoot(p: PersonId)
    requires Acyclic(Tree, Rank)
    requires forall q :: !ParentOf(Tree, q, p)
    ensures FrontendIndex.Ancestors(Tree, Rank, p) == {p}
  {
    forall x ensures x in FrontendIndex.Ancestors(Tree, Rank, p) <==> x == p {
      FrontendIndex.AncestorsStep(Tree, Rank, p, x);
    }
  }

  /** A person whose parents are `a` and `b` (possibly the same) has itself and their
      ancestors as ancestors. */
  lemma AncestorsThrough(p: PersonId, a: PersonId, b: PersonId)
    requires Acyclic(Tree, Rank)
    requires forall q :: ParentOf(Tree, q, p) <==> q == a || q == b
    ensures FrontendIndex.Ancestors(Tree, Rank, p) ==
      {p} + FrontendIndex.Ancestors(Tree, Rank, a) + FrontendIndex.Ancestors(Tree, Rank, b)
  {
    forall x ensures x in FrontendIndex.Ancestors(Tree, Rank, p) <==>
      x == p || x in FrontendIndex.Ancestors(Tree, Rank, a) || x in FrontendIndex.Ancestors(Tree, Rank, b)
    {
      FrontendIndex.AncestorsStep(Tree, Rank, p, x);
    }
  }

  lemma AncestorsOfRoots()
    ensures Acyclic(Tree, Rank)
    ensures FrontendIndex.Ancestors(Tree, Rank, Jane) == {Jane}
    ensures FrontendIndex.Ancestors(Tree, Rank, John) == {John}
    ensures FrontendIndex.Ancestors(Tree, Rank, Joseph) == {Joseph}
  {
    TreeAcyclic();
    forall q ensures !ParentOf(Tree, q, Jane) && !ParentOf(Tree, q, John) && !ParentOf(Tree, q, Joseph) {
      ParentsOf(q, Jane);
      ParentsOf(q, John);
      ParentsOf(q, Joseph);
    }
    AncestorsRoot(Jane);
    AncestorsRoot(John);
    AncestorsRoot(Joseph);
  }

  lemma AncestorsOfJuly()
    ensures Acyclic(Tree, Rank)
    ensures FrontendIndex.Ancestors(Tree, Rank, July) == {July, Joseph}
    ensures FrontendIndex.Ancestors(Tree, Rank, Jake) == {Jake, July, Joseph}
  {
    AncestorsOfRoots();
    forall q ensures ParentOf(Tree, q, July) <==> q == Joseph { ParentsOf(q, July); }
    AncestorsThrough(July, Joseph, Joseph);
    forall q ensures ParentOf(Tree, q, Jake) <==> q == July { ParentsOf(q, Jake); }
    AncestorsThrough(Jake, July, July);
  }

  lemma AncestorsOfJeff()
    ensures Acyclic(Tree, Rank)
    ensures FrontendIndex.Ancestors(Tree, Rank, Jeff) == {Jeff, James, Jill, Jake, Jane, John, July, Joseph}
  {
    AncestorsOfRoots();
    AncestorsOfJuly();
    forall q ensures ParentOf(Tree, q, Jill) <==> q == Jane || q == John { ParentsOf(q, Jill); }
    AncestorsThrough(Jill, Jane, John);
    assert FrontendIndex.Ancestors(Tree, Rank, Jill) == {Jill, Jane, John};
    forall q ensures ParentOf(Tree, q, James) <==> q == Jill || q == Jake { ParentsOf(q, James); }
    AncestorsThrough(James, Jill, Jake);
    assert FrontendIndex.Ancestors(Tree, Rank, James) == {James, Jill, Jane, John, Jake, July, Joseph};
    forall q ensures ParentOf(Tree, q, Jeff) <==> q == James { ParentsOf(q, Jeff); }
    AncestorsThrough(Jeff, James, James);
  }

  // ---------------------------------------------------------------------------------
  // Families, one id at a time.

  lemma AncestorFamilyOfJeff(id: FamilyId)
    ensures Acyclic(Tree, Rank)
    ensures id in FrontendIndex.AncestorFamilies(Tree, Rank, Jeff) <==> id in {"1", "2", "3", "4", "5"}
  {
    AncestorsOfJeff();
    FrontendIndex.AncestorFamiliesSpec(Tree, Rank, Jeff, id);
    ChildInOf(Jeff, id);
    ChildInOf(James, id);
    ChildInOf(Jill, id);
    ChildInOf(Jake, id);
    ChildInOf(Jane, id);
    ChildInOf(John, id);
    ChildInOf(July, id);
    ChildInOf(Joseph, id);
    assert {Jeff, James, Jill, Jake, July} <= FrontendIndex.Ancestors(Tree, Rank, Jeff);
  }

  lemma AncestorFamilyOfJuly(id: FamilyId)
    ensures Acyclic(Tree, Rank)
    ensures id in FrontendIndex.AncestorFamilies(Tree, Rank, July) <==> id == "5"
  {
    AncestorsOfJuly();
    FrontendIndex.AncestorFamiliesSpec(Tree, Rank, July, id);
    ChildInOf(July, id);
    ChildInOf(Joseph, id);
    assert July in FrontendIndex.Ancestors(Tree, Rank, July);
  }

  lemma AncestorFamilyOfRoot(p: PersonId, id: FamilyId)
    requires p == Jane || p == John || p == Joseph
    ensures Acyclic(Tree, Rank) && id !in FrontendIndex.AncestorFamilies(Tree, Rank, p)
  {
    AncestorsOfRoots();
    FrontendIndex.AncestorFamiliesSpec(Tree, Rank, p, id);
    ChildInOf(p, id);
  }

  lemma DescendantFamilyOfJane(id: FamilyId)
    ensures Acyclic(Tree, Rank)
    ensures id in FrontendIndex.DescendantFamilies(Tree, Rank, Jane) <==> id in {"1", "2", "4"}
  {
    DescendantsOfJane();
    FrontendIndex.DescendantFamiliesSpec(Tree, Rank, Jane, id);
    ParentInOf(Jane, id);
    ParentInOf(Josh, id);
    ParentInOf(Jill, id);
    ParentInOf(James, id);
    ParentInOf(Jeff, id);
    assert {Jane, Jill, James} <= FrontendIndex.Descendants(Tree, Rank, Jane);
  }

  lemma DescendantFamilyOfJuly(id: FamilyId)
    ensures Acyclic(Tree, Rank)
    ensures id in FrontendIndex.DescendantFamilies(Tree, Rank, July) <==> id in {"2", "3", "4"}
  {
    DescendantsOfJuly();
    FrontendIndex.DescendantFamiliesSpec(Tree, Rank, July, id);
    ParentInOf(July, id);
    ParentInOf(Jake, id);
    ParentInOf(James, id);
    ParentInOf(Jeff, id);
    assert {July, Jake, James} <= FrontendIndex.Descendants(Tree, Rank, July);
  }

  lemma DescendantFamilyOfJeff(id: FamilyId)
    ensures Acyclic(Tree, Rank) && id !in FrontendIndex.DescendantFamilies(Tree, Rank, Jeff)
  {
    DescendantsOfJeff();
    FrontendIndex.DescendantFamiliesSpec(Tree, Rank, Jeff, id);
    ParentInOf(Jeff, id);
  }

  // ---------------------------------------------------------------------------------
  // Families, as sets. Each extent is proved of a set passed as an argument, which keeps
  // the proof clear of the tree's literal terms.

  lemma AncestorFamiliesOfJaneExtent(fams: set<FamilyId>)
    requires Acyclic(Tree, Rank) && fams == FrontendIndex.AncestorFamilies(Tree, Rank, Jane)
    ensures fams == {}
  {
    forall id ensures id !in fams {
      AncestorFamilyOfRoot(Jane, id);
    }
  }

  lemma AncestorFamiliesOfJane()
    ensures Acyclic(Tree, Rank) && FrontendIndex.AncestorFamilies(Tree, Rank, Jane) == {}
  {
    TreeAcyclic();
    AncestorFamiliesOfJaneExtent(FrontendIndex.AncestorFamilies(Tree, Rank, Jane));
  }

  lemma AncestorFamiliesOfJulyExtent(fams: set<FamilyId>)
    requires Acyclic(Tree, Rank) && fams == FrontendIndex.AncestorFamilies(Tree, Rank, July)
    ensures fams == {"5"}
  {
    forall id ensures id in fams <==> id in {"5"} {
      AncestorFamilyOfJuly(id);
    }
  }

  lemma AncestorFamiliesOfJuly()
    ensures Acyclic(Tree, Rank) && FrontendIndex.AncestorFamilies(Tree, Rank, July) == {"5"}
  {
    TreeAcyclic();
    AncestorFamiliesOfJulyExtent(FrontendIndex.AncestorFamilies(Tree, Rank, July));
  }

  lemma AncestorFamiliesOfJeffExtent(fams: set<FamilyId>)
    requires Acyclic(Tree, Rank) && fams == FrontendIndex.AncestorFamilies(Tree, Rank, Jeff)
    ensures fams == {"1", "2", "3", "4", "5"}
  {
    forall id ensures id in fams <==> id in {"1", "2", "3", "4", "5"} {
      AncestorFamilyOfJeff(id);
    }
  }

  lemma AncestorFamiliesOfJeff()
    ensures Acyclic(Tree, Rank) && FrontendIndex.AncestorFamilies(Tree, Rank, Jeff) == {"1", "2", "3", "4", "5"}
  {
    TreeAcyclic();
    AncestorFamiliesOfJeffExtent(FrontendIndex.AncestorFamilies(Tree, Rank, Jeff));
  }

  lemma DescendantFamiliesOfJaneExtent(fams: set<FamilyId>)
    requires Acyclic(Tree, Rank) && fams == FrontendIndex.DescendantFamilies(Tree, Rank, Jane)
    ensures fams == {"1", "2", "4"}
  {
    forall id ensures id in fams <==> id in {"1", "2", "4"} {
      DescendantFamilyOfJane(id);
    }
  }

  lemma DescendantFamiliesOfJane()
    ensures Acyclic(Tree, Rank) && FrontendIndex.DescendantFamilies(Tree, Rank, Jane) == {"1", "2", "4"}
  {
    TreeAcyclic();
    DescendantFamiliesOfJaneExtent(FrontendIndex.DescendantFamilies(Tree, Rank, Jane));
  }

  lemma DescendantFamiliesOfJulyExtent(fams: set<FamilyId>)
    requires Acyclic(Tree, Rank) && fams == FrontendIndex.DescendantFamilies(Tree, Rank, July)
    ensures fams == {"2", "3", "4"}
  {
    forall id ensures id in fams <==> id in {"2", "3", "4"} {
      DescendantFamilyOfJuly(id);
    }
  }

  lemma DescendantFamiliesOfJuly()
    ensures Acyclic(Tree, Rank) && FrontendIndex.DescendantFamilies(Tree, Rank, July) == {"2", "3", "4"}
  {
    TreeAcyclic();
    DescendantFamiliesOfJulyExtent(FrontendIndex.DescendantFamilies(Tree, Rank, July));
  }

  lemma DescendantFamiliesOfJeffExtent(fams: set<FamilyId>)
    requires Acyclic(Tree, Rank) && fams == FrontendIndex.DescendantFamilies(Tree, Rank, Jeff)
    ensures fams == {}
  {
    forall id ensures id !in fams {
      DescendantFamilyOfJeff(id);
    }
  }

  lemma DescendantFamiliesOfJeff()
    ensures Acyclic(Tree, Rank) && FrontendIndex.DescendantFamilies(Tree, Rank, Jeff) == {}
  {
    TreeAcyclic();
    DescendantFamiliesOfJeffExtent(FrontendIndex.DescendantFamilies(Tree, Rank, Jeff));
  }

  /** The viewer's relatives on the JJ family, in terms of the two walks ... */
  lemma RelativesSplit(p: PersonId)
    ensures Acyclic(Tree, Rank)
    ensures ClientIndex.LineageOf(Tree, Rank, p).relativies ==
      FrontendIndex.Ancestors(Tree, Rank, p) + FrontendIndex.Descendants(Tree, Rank, p)
  {
    TreeAcyclic();
    ClientIndex.LineageAgrees(Tree, Rank, p);
    FrontendIndex.LineageParts(Tree, Rank, p);
  }

  /** ... and its families. */
  lemma FamiliesSplit(p: PersonId)
    ensures Acyclic(Tree, Rank)
    ensures ClientIndex.LineageOf(Tree, Rank, p).families ==
      FrontendIndex.AncestorFamilies(Tree, Rank, p) + FrontendIndex.DescendantFamilies(Tree, Rank, p)
  {
    TreeAcyclic();
    ClientIndex.LineageAgrees(Tree, Rank, p);
    FrontendIndex.LineageParts(Tree, Rank, p);
  }

  // ---------------------------------------------------------------------------------
  // The lineages the index's tests expect.

  /** Jane is the first of her line; her relatives are her descendants and her families
      those she and they parent. */
  lemma JaneLineage()
    ensures Acyclic(Tree, Rank)
    ensures ClientIndex.LineageOf(Tree, Rank, Jane) == Generation(0, {Jane, Josh, Jill, James, Jeff}, {"1", "2", "4"})
  {
    IndexJane();
    JaneRelatives();
    JaneFamilies();
  }

  lemma JaneRelatives()
    ensures Acyclic(Tree, Rank)
    ensures ClientIndex.LineageOf(Tree, Rank, Jane).relativies == {Jane, Josh, Jill, James, Jeff}
  {
    RelativesSplit(Jane);
    AncestorsOfRoots();
    DescendantsOfJane();
  }

  lemma JaneFamilies()
    ensures Acyclic(Tree, Rank)
    ensures ClientIndex.LineageOf(Tree, Rank, Jane).families == {"1", "2", "4"}
  {
    FamiliesSplit(Jane);
    AncestorFamiliesOfJane();
    DescendantFamiliesOfJane();
  }

  lemma JulyRelatives()
    ensures Acyclic(Tree, Rank)
    ensures ClientIndex.LineageOf(Tree, Rank, July).relativies == {July, Jake, James, Jeff, Joseph}
  {
    RelativesSplit(July);
    AncestorsOfJuly();
    DescendantsOfJuly();
  }

  lemma JulyFamilies()
    ensures Acyclic(Tree, Rank)
    ensures ClientIndex.LineageOf(Tree, Rank, July).families == {"2", "3", "4", "5"}
  {
    FamiliesSplit(July);
    AncestorFamiliesOfJuly();
    DescendantFamiliesOfJuly();
  }

  /** July is the second of Joseph's line; her relatives are Joseph and her descendants. */
  lemma JulyLineage()
    ensures Acyclic(Tree, Rank)
    ensures ClientIndex.LineageOf(Tree, Rank, July) == Generation(1, {July, Jake, James, Jeff, Joseph}, {"2", "3", "4", "5"})
  {
    IndexJosephsLine();
    JulyRelatives();
    JulyFamilies();
  }

  lemma JeffRelatives()
    ensures Acyclic(Tree, Rank)
    ensures ClientIndex.LineageOf(Tree, Rank, Jeff).relativies == {July, Jake, Joseph, Jill, James, Jane, John, Jeff}
  {
    RelativesSplit(Jeff);
    AncestorsOfJeff();
    DescendantsOfJeff();
  }

  lemma JeffFamilies()
    ensures Acyclic(Tree, Rank)
    ensures ClientIndex.LineageOf(Tree, Rank, Jeff).families == {"1", "2", "3", "4", "5"}
  {
    FamiliesSplit(Jeff);
    AncestorFamiliesOfJeff();
    DescendantFamiliesOfJeff();
  }

  /** Jeff's generation counts Joseph's line, the longest above him; every ancestor is a
      relative and every family is touched. */
  lemma JeffLineage()
    ensures Acyclic(Tree, Rank)
    ensures ClientIndex.LineageOf(Tree, Rank, Jeff) ==
      Generation(4, {July, Jake, Joseph, Jill, James, Jane, John, Jeff}, {"1", "2", "3", "4", "5"})
  {
    IndexJosephsLine();
    JeffRelatives();
    JeffFamilies();
  }

  // ---------------------------------------------------------------------------------
  // The prototype's relatives.

  /** The entry of a parent listed only by family `i` from there on. */
  lemma DescendantAt(k: PersonId, i: nat)
    requires i < 5 && k in Tree.families[i].parents
    requires forall j :: i < j < 5 ==> k !in Tree.families[j].parents
    ensures k in Prototype.Relation(Tree.families, Parents)
    ensures Prototype.Relation(Tree.families, Parents)[k] == Tree.families[i].children
  {
    Prototype.RelationAt(Tree.families, Parents, k, i);
  }

  lemma NoDescendantEntry(k: PersonId)
    requires forall i :: 0 <= i < 5 ==> k !in Tree.families[i].parents
    ensures k !in Prototype.Relation(Tree.families, Parents)
  {
    Prototype.RelationKeys(Tree.families, Parents, k);
  }

  /** The prototype's parent-to-children map on the JJ family. */
  lemma DescendantRelation()
    ensures var r := Prototype.Relation(Tree.families, Parents);
      && Jane in r && r[Jane] == [Josh, Jill] && Jill in r && r[Jill] == [James]
      && Jake in r && r[Jake] == [James] && July in r && r[July] == [Jake]
      && James in r && r[James] == [Jeff]
      && Josh !in r && Jeff !in r
  {
    ChildrenOfJaneAndJill();
    ChildrenOfJakeAndJuly();
    ChildrenOfJames();
  }

  lemma ChildrenOfJaneAndJill()
    ensures var r := Prototype.Relation(Tree.families, Parents);
      Jane in r && r[Jane] == [Josh, Jill] && Jill in r && r[Jill] == [James]
  {
    DescendantAt(Jane, 0);
    DescendantAt(Jill, 1);
  }

  lemma ChildrenOfJakeAndJuly()
    ensures var r := Prototype.Relation(Tree.families, Parents);
      Jake in r && r[Jake] == [James] && July in r && r[July] == [Jake]
  {
    DescendantAt(Jake, 1);
    DescendantAt(July, 2);
  }

  lemma ChildrenOfJames()
    ensures var r := Prototype.Relation(Tree.families, Parents);
      James in r && r[James] == [Jeff] && Josh !in r && Jeff !in r
  {
    DescendantAt(James, 3);
    NoDescendantEntry(Josh);
    NoDescendantEntry(Jeff);
  }

  /** What a walk reaches over a parent-to-children map with the JJ family's entries. */
  lemma ReachDown(r: Adjacency, rank: map<PersonId, nat>)
    requires Ranked(r, rank)
    requires Jane in r && r[Jane] == [Josh, Jill] && Jill in r && r[Jill] == [James]
    requires Jake in r && r[Jake] == [James] && July in r && r[July] == [Jake]
    requires James in r && r[James] == [Jeff] && Josh !in r && Jeff !in r
    ensures Reach(r, rank, Jane) == {Jane, Josh, Jill, James, Jeff}
    ensures Reach(r, rank, July) == {July, Jake, James, Jeff}
    ensures Reach(r, rank, Jeff) == {Jeff}
  {
    ReachUnfold(r, rank, Jeff);
    ReachUnfold(r, rank, Josh);
    ReachUnfold(r, rank, James);
    ReachUnfold(r, rank, Jill);
    ReachUnfold(r, rank, Jake);
    ReachUnfold(r, rank, July);
    ReachUnfold(r, rank, Jane);
  }

  /** What a walk reaches over a child-to-parents map with the JJ family's entries. */
  lemma ReachUp(r: Adjacency, rank: map<PersonId, nat>)
    requires Ranked(r, rank)
    requires Jeff in r && r[Jeff] == [James] && James in r && r[James] == [Jill, Jake]
    requires Jill in r && r[Jill] == [Jane, John] && Jake in r && r[Jake] == [July]
    requires July in r && r[July] == [Joseph] && Jane !in r && John !in r && Joseph !in r
    ensures Reach(r, rank, Jane) == {Jane}
    ensures Reach(r, rank, July) == {July, Joseph}
    ensures Reach(r, rank, Jeff) == {Jeff, James, Jill, Jane, John, Jake, July, Joseph}
  {
    ReachUnfold(r, rank, Jane);
    ReachUnfold(r, rank, John);
    ReachUnfold(r, rank, Joseph);
    ReachUnfold(r, rank, July);
    ReachUnfold(r, rank, Jake);
    ReachUnfold(r, rank, Jill);
    ReachUnfold(r, rank, James);
    ReachUnfold(r, rank, Jeff);
  }

  /** The prototype's relatives are what both walks reach. */
  lemma KinfolkOf(p: PersonId, up: set<PersonId>, down: set<PersonId>)
    requires Acyclic(Tree, Rank)
    requires Ranked(Prototype.Relation(Tree.families, Children), Rank)
    requires Ranked(Prototype.Relation(Tree.families, Parents), Flip(Rank))
    requires Reach(Prototype.Relation(Tree.families, Children), Rank, p) == up
    requires Reach(Prototype.Relation(Tree.families, Parents), Flip(Rank), p) == down
    ensures Prototype.Kinfolk(Tree, Rank, p) == up + down
  {
  }

  /** What the prototype's two walks reach on the JJ family. */
  lemma PrototypeReach()
    ensures Acyclic(Tree, Rank)
    ensures var up := Prototype.Relation(Tree.families, Children);
      && Ranked(up, Rank)
      && Reach(up, Rank, Jane) == {Jane}
      && Reach(up, Rank, July) == {July, Joseph}
      && Reach(up, Rank, Jeff) == {Jeff, James, Jill, Jane, John, Jake, July, Joseph}
    ensures var down := Prototype.Relation(Tree.families, Parents);
      && Ranked(down, Flip(Rank))
      && Reach(down, Flip(Rank), Jane) == {Jane, Josh, Jill, James, Jeff}
      && Reach(down, Flip(Rank), July) == {July, Jake, James, Jeff}
      && Reach(down, Flip(Rank), Jeff) == {Jeff}
  {
    TreeAcyclic();
    AncestorRelation();
    DescendantRelation();
    Prototype.AncestorsRanked(Tree, Rank);
    Prototype.DescendantsRanked(Tree, Rank);
    ReachUp(Prototype.Relation(Tree.families, Children), Rank);
    ReachDown(Prototype.Relation(Tree.families, Parents), Flip(Rank));
  }

  /** The prototype's ancestor walk expands nobody from someone without parents and one
      person from someone with a single parent who has none. */
  lemma SpreadOfFew(r: Adjacency, rank: map<PersonId, nat>)
    requires Ranked(r, rank)
    requires July in r && r[July] == [Joseph] && Jane !in r && Joseph !in r
    ensures Prototype.Spread(r, rank, Jane) == 0
    ensures Prototype.Spread(r, rank, July) == 1
  {
    Prototype.SpreadUnfold(r, rank, Jane);
    Prototype.SpreadUnfold(r, rank, Joseph);
    Prototype.SpreadUnfold(r, rank, July);
  }

  lemma PrototypeGenerations()
    ensures Acyclic(Tree, Rank)
    ensures Prototype.WrittenGeneration(Tree, Rank, Jane) == 0
    ensures Prototype.WrittenGeneration(Tree, Rank, July) == 1
  {
    TreeAcyclic();
    AncestorRelation();
    Prototype.AncestorsRanked(Tree, Rank);
    SpreadOfFew(Prototype.Relation(Tree.families, Children), Rank);
  }

  /** The prototype's record for Jane is the one its test expects ... */
  lemma PrototypeJane()
    ensures Acyclic(Tree, Rank)
    ensures Prototype.Kinfolk(Tree, Rank, Jane) == {Jane, Jeff, James, Jill, Josh}
    ensures Prototype.WrittenGeneration(Tree, Rank, Jane) == 0
  {
    PrototypeReach();
    KinfolkOf(Jane, {Jane}, {Jane, Josh, Jill, James, Jeff});
    PrototypeGenerations();
  }

  /** ... and so is July's ... */
  lemma PrototypeJuly()
    ensures Acyclic(Tree, Rank)
    ensures Prototype.Kinfolk(Tree, Rank, July) == {July, Jake, James, Jeff, Joseph}
    ensures Prototype.WrittenGeneration(Tree, Rank, July) == 1
  {
    PrototypeReach();
    KinfolkOf(July, {July, Joseph}, {July, Jake, James, Jeff});
    PrototypeGenerations();
  }

  /** ... and Jeff's relatives are too; his generation is the finding of
      `JJFamily.PrototypeJeffAsWritten`. */
  lemma PrototypeJeff()
    ensures Acyclic(Tree, Rank)
    ensures Prototype.Kinfolk(Tree, Rank, Jeff) == {July, Jake, Joseph, Jill, James, Jane, John, Jeff}
  {
    PrototypeReach();
    KinfolkOf(Jeff, {Jeff, James, Jill, Jane, John, Jake, July, Joseph}, {Jeff});
  }
}

=== FILE: masha_family.dfy ===
/** The two small trees of the index's tests about Masha: one where she has a child in
    each of two families, and one where her only family has no children. */
module MashaFamily {
  import opened Model
  import FrontendIndex
  import ClientIndex

  const Masha: PersonId := "1"
  const Katya: PersonId := "2"
  const Petya: PersonId := "3"
  const Dasha: PersonId := "4"
  const Lena: PersonId := "5"

  // ---------------------------------------------------------------------------------
  // Two families.

  const WithKatya := Family("1", [Masha, Katya], [Petya], false)
  const WithDasha := Family("2", [Masha, Dasha], [Lena], false)

  const Two := Stemma(
    [Person(Masha, "masha", false), Person(Katya, "katya", false), Person(Petya, "petya", false),
     Person(Dasha, "dasha", false), Person(Lena, "lena", false)],
    [WithKatya, WithDasha])

  const TwoRank: map<PersonId, nat> := map[Masha := 0, Katya := 0, Dasha := 0, Petya := 1, Lena := 1]

  lemma TwoAcyclic()
    ensures Acyclic(Two, TwoRank)
  {
    forall f, p, c | f in Two.families && p in f.parents && c in f.children
      ensures p in TwoRank && c in TwoRank && TwoRank[p] < TwoRank[c]
    {
      assert f == WithKatya || f == WithDasha;
    }
  }

  lemma TwoParents(q: PersonId, p: PersonId)
    ensures ParentOf(Two, q, p) <==> ((q == Masha || q == Katya) && p == Petya) || ((q == Masha || q == Dasha) && p == Lena)
  {
    assert Two.families[0] == WithKatya && Two.families[1] == WithDasha;
    if ParentOf(Two, q, p) {
      var f :| f in Two.families && q in f.parents && p in f.children;
      assert f == WithKatya || f == WithDasha;
    }
  }

  lemma TwoParentIn(q: PersonId, id: FamilyId)
    ensures ParentIn(Two, q, id) <==> ((q == Masha || q == Katya) && id == "1") || ((q == Masha || q == Dasha) && id == "2")
  {
    assert Two.families[0] == WithKatya && Two.families[1] == WithDasha;
    if ParentIn(Two, q, id) {
      var f :| f in Two.families && q in f.parents && |f.children| > 0 && f.id == id;
      assert f == WithKatya || f == WithDasha;
    }
  }

  lemma TwoChildIn(q: PersonId, id: FamilyId)
    ensures ChildIn(Two, q, id) <==> (q == Petya && id == "1") || (q == Lena && id == "2")
  {
    assert Two.families[0] == WithKatya && Two.families[1] == WithDasha;
    if ChildIn(Two, q, id) {
      var f :| f in Two.families && q in f.children && |f.parents| > 0 && f.id == id;
      assert f == WithKatya || f == WithDasha;
    }
  }

  /** Masha's descendants are both her children, one from each family. */
  lemma TwoDescendants()
    ensures Acyclic(Two, TwoRank)
    ensures FrontendIndex.Descendants(Two, TwoRank, Masha) == {Masha, Petya, Lena}
  {
    TwoAcyclic();
    forall x ensures x in FrontendIndex.Descendants(Two, TwoRank, Petya) <==> x == Petya {
      FrontendIndex.DescendantsStep(Two, TwoRank, Petya, x);
      forall q ensures !ParentOf(Two, Petya, q) { TwoParents(Petya, q); }
    }
    forall x ensures x in FrontendIndex.Descendants(Two, TwoRank, Lena) <==> x == Lena {
      FrontendIndex.DescendantsStep(Two, TwoRank, Lena, x);
      forall q ensures !ParentOf(Two, Lena, q) { TwoParents(Lena, q); }
    }
    forall x ensures x in FrontendIndex.Descendants(Two, TwoRank, Masha) <==> x in {Masha, Petya, Lena} {
      FrontendIndex.DescendantsStep(Two, TwoRank, Masha, x);
      forall q ensures ParentOf(Two, Masha, q) <==> q == Petya || q == Lena { TwoParents(Masha, q); }
      if x == Petya { assert ParentOf(Two, Masha, Petya) && x in FrontendIndex.Descendants(Two, TwoRank, Petya); }
      if x == Lena { assert ParentOf(Two, Masha, Lena) && x in FrontendIndex.Descendants(Two, TwoRank, Lena); }
    }
  }

  lemma TwoAncestors()
    ensures Acyclic(Two, TwoRank)
    ensures FrontendIndex.Ancestors(Two, TwoRank, Masha) == {Masha}
    ensures ClientIndex.GenerationOf(Two, TwoRank, Masha) == 0
  {
    TwoAcyclic();
    forall q ensures !ParentOf(Two, q, Masha) { TwoParents(q, Masha); }
    forall x ensures x in FrontendIndex.Ancestors(Two, TwoRank, Masha) <==> x == Masha {
      FrontendIndex.AncestorsStep(Two, TwoRank, Masha, x);
    }
    ClientIndex.GenerationPositive(Two, TwoRank, Masha);
  }

  lemma TwoFamilyIds(id: FamilyId)
    ensures Acyclic(Two, TwoRank)
    ensures id !in FrontendIndex.AncestorFamilies(Two, TwoRank, Masha)
    ensures id in FrontendIndex.DescendantFamilies(Two, TwoRank, Masha) <==> id == "1" || id == "2"
  {
    TwoAncestors();
    TwoDescendants();
    FrontendIndex.AncestorFamiliesSpec(Two, TwoRank, Masha, id);
    FrontendIndex.DescendantFamiliesSpec(Two, TwoRank, Masha, id);
    TwoChildIn(Masha, id);
    TwoParentIn(Masha, id);
    TwoParentIn(Petya, id);
    TwoParentIn(Lena, id);
  }

  lemma TwoFamiliesExtent(up: set<FamilyId>, down: set<FamilyId>)
    requires Acyclic(Two, TwoRank)
    requires up == FrontendIndex.AncestorFamilies(Two, TwoRank, Masha)
    requires down == FrontendIndex.DescendantFamilies(Two, TwoRank, Masha)
    ensures up + down == {"1", "2"}
  {
    forall id ensures id in up + down <==> id in {"1", "2"} {
      TwoFamilyIds(id);
    }
  }

  lemma TwoSplit()
    ensures Acyclic(Two, TwoRank)
    ensures ClientIndex.LineageOf(Two, TwoRank, Masha) ==
      Generation(ClientIndex.GenerationOf(Two, TwoRank, Masha),
                 FrontendIndex.Ancestors(Two, TwoRank, Masha) + FrontendIndex.Descendants(Two, TwoRank, Masha),
                 FrontendIndex.AncestorFamilies(Two, TwoRank, Masha) + FrontendIndex.DescendantFamilies(Two, TwoRank, Masha))
  {
    TwoAcyclic();
    ClientIndex.LineageAgrees(Two, TwoRank, Masha);
    FrontendIndex.LineageParts(Two, TwoRank, Masha);
  }

  /** The lineage counts the children of every family Masha parents, not only one: she
      stays generation 0, her relatives are both children, and both families are hers. */
  lemma AllChildrenCounted()
    ensures Acyclic(Two, TwoRank)
    ensures ClientIndex.LineageOf(Two, TwoRank, Masha) == Generation(0, {Masha, Petya, Lena}, {"1", "2"})
  {
    TwoSplit();
    TwoAncestors();
    TwoDescendants();
    TwoFamiliesExtent(FrontendIndex.AncestorFamilies(Two, TwoRank, Masha), FrontendIndex.DescendantFamilies(Two, TwoRank, Masha));
  }

  // ---------------------------------------------------------------------------------
  // A family without children.

  const Childless := Stemma(
    [Person(Masha, "masha", false), Person(Katya, "katya", false)],
    [Family("1", [Masha, Katya], [], false)])

  /** Nobody is a child, so any ranking will do. */
  const NoRank: map<PersonId, nat> := map[]

  lemma ChildlessAcyclic()
    ensures Acyclic(Childless, NoRank)
  {
    assert forall f | f in Childless.families :: f.children == [];
  }

  lemma ChildlessRelations(q: PersonId, p: PersonId, id: FamilyId)
    ensures !ParentOf(Childless, q, p) && !ParentIn(Childless, q, id) && !ChildIn(Childless, q, id)
  {
    assert forall f | f in Childless.families :: f.children == [];
  }

  lemma ChildlessSets()
    ensures Acyclic(Childless, NoRank)
    ensures FrontendIndex.Ancestors(Childless, NoRank, Masha) == {Masha}
    ensures FrontendIndex.Descendants(Childless, NoRank, Masha) == {Masha}
    ensures ClientIndex.GenerationOf(Childless, NoRank, Masha) == 0
  {
    ChildlessAcyclic();
    forall q ensures !ParentOf(Childless, q, Masha) && !ParentOf(Childless, Masha, q) {
      ChildlessRelations(q, Masha, "");
      ChildlessRelations(Masha, q, "");
    }
    forall x ensures x in FrontendIndex.Ancestors(Childless, NoRank, Masha) <==> x == Masha {
      FrontendIndex.AncestorsStep(Childless, NoRank, Masha, x);
    }
    forall x ensures x in FrontendIndex.Descendants(Childless, NoRank, Masha) <==> x == Masha {
      FrontendIndex.DescendantsStep(Childless, NoRank, Masha, x);
    }
    ClientIndex.GenerationPositive(Childless, NoRank, Masha);
  }

  lemma ChildlessFamiliesExtent(up: set<FamilyId>, down: set<FamilyId>)
    requires Acyclic(Childless, NoRank)
    requires up == FrontendIndex.AncestorFamilies(Childless, NoRank, Masha)
    requires down == FrontendIndex.DescendantFamilies(Childless, NoRank, Masha)
    ensures up + down == {}
  {
    forall id ensures id !in up + down {
      FrontendIndex.AncestorFamiliesSpec(Childless, NoRank, Masha, id);
      FrontendIndex.DescendantFamiliesSpec(Childless, NoRank, Masha, id);
      forall q ensures !ParentIn(Childless, q, id) && !ChildIn(Childless, q, id) {
        ChildlessRelations(q, q, id);
      }
    }
  }

  /** A family without children is skipped: Masha is her only relative and records no
      family. */
  lemma EmptyFamilySkipped()
    ensures Acyclic(Childless, NoRank)
    ensures ClientIndex.LineageOf(Childless, NoRank, Masha) == Generation(0, {Masha}, {})
  {
    ChildlessSets();
    ClientIndex.LineageAgrees(Childless, NoRank, Masha);
    FrontendIndex.LineageParts(Childless, NoRank, Masha);
    ChildlessFamiliesExtent(FrontendIndex.AncestorFamilies(Childless, NoRank, Masha),
                            FrontendIndex.DescendantFamilies(Childless, NoRank, Masha));
  }
}

=== FILE: model.dfy ===
/** The domain of a family tree (a "stemma"): people, families and the derived
    per-person lineage record. */
module Model {
  import opened Seqs

  type PersonId = string
  type FamilyId = string

  /** A person of the tree. Dates and biography are carried by the repository but never
      read by the index, so they are not part of this model. */
  datatype Person = Person(id: PersonId, name: string, readOnly: bool)

  /** A family: up to two parents and any number of children; either side may be empty. */
  datatype Family = Family(id: FamilyId, parents: seq<PersonId>, children: seq<PersonId>, readOnly: bool)

  datatype Stemma = Stemma(people: seq<Person>, families: seq<Family>)

  /** The lineage of one person: generation depth, relatives and touched families. */
  datatype Generation = Generation(generation: nat, relativies: set<PersonId>, families: set<FamilyId>)

  /** The record returned for an unknown person. */
  const EmptyGeneration := Generation(0, {}, {})

  /** The ids of the people of the tree. */
  function PersonIds(s: Stemma): set<PersonId> {
    set p | p in s.people :: p.id
  }

  /** The acyclicity the index relies on (enforced upstream, never checked by the
      repository): some ranking puts every parent strictly below every child of the
      same family. With a rank no walk can revisit a person on its own path. */
  ghost predicate Acyclic(s: Stemma, rank: map<PersonId, nat>) {
    forall f, p, c | f in s.families && p in f.parents && c in f.children ::
      p in rank && c in rank && rank[p] < rank[c]
  }

  /** An upper bound of the ranks in `rank`. */
  ghost function Top(rank: map<PersonId, nat>): (r: nat)
    ensures forall k | k in rank :: rank[k] <= r
    decreases rank.Keys
  {
    if rank == map[] then 0
    else
      var k :| k in rank;
      var rest := map j | j in rank && j != k :: rank[j];
      assert rest.Keys < rank.Keys;
      var r := Max(rank[k], Top(rest));
      assert forall j | j in rank && j != k :: j in rest && rank[j] == rest[j] <= r;
      r
  }

  /** The ranking read the other way round, used for the walk towards descendants. */
  ghost function Flip(rank: map<PersonId, nat>): (r: map<PersonId, nat>)
    ensures r.Keys == rank.Keys
  {
    var top := Top(rank);
    map k | k in rank :: top - rank[k]
  }

  lemma FlipOrder(rank: map<PersonId, nat>, a: PersonId, b: PersonId)
    requires a in rank && b in rank && rank[a] < rank[b]
    ensures a in Flip(rank) && b in Flip(rank) && Flip(rank)[b] < Flip(rank)[a]
  {
    var top := Top(rank);
    assert rank[a] <= top && rank[b] <= top;
  }

  // ---------------------------------------------------------------------------------
  // Relations of the tree, stated once for both versions of the index.

  datatype FamilyDescription = FamilyDescription(id: FamilyId, parents: seq<PersonId>, children: seq<PersonId>)

  function Describe(f: Family): FamilyDescription {
    FamilyDescription(f.id, f.parents, f.children)
  }

  /** Which side of its families a table is keyed by. */
  datatype Side = Parents | Children {
    function Opposite(): Side {
      if this == Parents then Children else Parents
    }
    function Of(f: Family): seq<PersonId> {
      if this == Parents then f.parents else f.children
    }
  }

  /** Some family has `k` on `side` and `m` on the other side. */
  ghost predicate Edge(families: seq<Family>, side: Side, k: PersonId, m: PersonId) {
    exists f :: f in families && k in side.Of(f) && m in side.Opposite().Of(f)
  }

  /** `k` is on `side` of family `id`, which has someone on the other side. */
  ghost predicate Joins(families: seq<Family>, side: Side, k: PersonId, id: FamilyId) {
    exists f :: f in families && k in side.Of(f) && |side.Opposite().Of(f)| > 0 && f.id == id
  }

  /** `parent` and `child` are on opposite sides of some family. */
  ghost predicate ParentOf(s: Stemma, parent: PersonId, child: PersonId) {
    exists f :: f in s.families && parent in f.parents && child in f.children
  }

  /** `p` is a child in some family (possibly one without parents). */
  ghost predicate IsChild(s: Stemma, p: PersonId) {
    exists f :: f in s.families && p in f.children
  }

  /** `q` is a child in family `id`, which has parents. */
  ghost predicate ChildIn(s: Stemma, q: PersonId, id: FamilyId) {
    exists f :: f in s.families && q in f.children && |f.parents| > 0 && f.id == id
  }

  /** `q` is a parent in family `id`, which has children. */
  ghost predicate ParentIn(s: Stemma, q: PersonId, id: FamilyId) {
    exists f :: f in s.families && q in f.parents && |f.children| > 0 && f.id == id
  }

  lemma JoinsAsParent(s: Stemma, q: PersonId, id: FamilyId)
    ensures ParentIn(s, q, id) <==> Joins(s.families, Parents, q, id)
  {
    if ParentIn(s, q, id) {
      var f :| f in s.families && q in f.parents && |f.children| > 0 && f.id == id;
      assert Parents.Of(f) == f.parents && Parents.Opposite().Of(f) == f.children;
    }
    if Joins(s.families, Parents, q, id) {
      var f :| f in s.families && q in Parents.Of(f) && |Parents.Opposite().Of(f)| > 0 && f.id == id;
      assert Parents.Of(f) == f.parents && Parents.Opposite().Of(f) == f.children;
    }
  }

  lemma JoinsAsChild(s: Stemma, q: PersonId, id: FamilyId)
    ensures ChildIn(s, q, id) <==> Joins(s.families, Children, q, id)
  {
    if ChildIn(s, q, id) {
      var f :| f in s.families && q in f.children && |f.parents| > 0 && f.id == id;
      assert Children.Of(f) == f.children && Children.Opposite().Of(f) == f.parents;
    }
    if Joins(s.families, Children, q, id) {
      var f :| f in s.families && q in Children.Of(f) && |Children.Opposite().Of(f)| > 0 && f.id == id;
      assert Children.Of(f) == f.children && Children.Opposite().Of(f) == f.parents;
    }
  }

  lemma EdgeUp(s: Stemma, child: PersonId, parent: PersonId)
    ensures ParentOf(s, parent, child) <==> Edge(s.families, Children, child, parent)
  {
    if ParentOf(s, parent, child) {
      var f :| f in s.families && parent in f.parents && child in f.children;
      assert Children.Of(f) == f.children && Children.Opposite().Of(f) == f.parents;
    }
    if Edge(s.families, Children, child, parent) {
      var f :| f in s.families && child in Children.Of(f) && parent in Children.Opposite().Of(f);
      assert Children.Of(f) == f.children && Children.Opposite().Of(f) == f.parents;
    }
  }

  lemma EdgeDown(s: Stemma, parent: PersonId, child: PersonId)
    ensures ParentOf(s, parent, child) <==> Edge(s.families, Parents, parent, child)
  {
    if ParentOf(s, parent, child) {
      var f :| f in s.families && parent in f.parents && child in f.children;
      assert Parents.Of(f) == f.parents && Parents.Opposite().Of(f) == f.children;
    }
    if Edge(s.families, Parents, parent, child) {
      var f :| f in s.families && parent in Parents.Of(f) && child in Parents.Opposite().Of(f);
      assert Parents.Of(f) == f.parents && Parents.Opposite().Of(f) == f.children;
    }
  }

  /** From a child to one of its parents the ranking goes down. */
  lemma EdgeRanked(s: Stemma, rank: map<PersonId, nat>, child: PersonId, parent: PersonId)
    requires Acyclic(s, rank)
    requires Edge(s.families, Children, child, parent)
    ensures parent in rank && child in rank && rank[parent] < rank[child]
  {
    var f :| f in s.families && child in f.children && parent in f.parents;
  }
}

=== FILE: prototype.dfy ===
/** The first lineage calculator (client/src/generation.ts), which the index replaced. Its
    relations are plain maps built with `new Map(pairs)`, so a person listed in several
    families keeps only the last one; and its depth counts every person the walk expands,
    not the length of the longest chain. */
module Prototype {
  import opened Seqs
  import opened Model
  import opened Grouping
  import opened Walk

  /** The pairs one family lists: each person on `side` with the other side. */
  function Listed(f: Family, side: Side): seq<(PersonId, seq<PersonId>)> {
    MapSeq(side.Of(f), (k: PersonId) => (k, side.Opposite().Of(f)))
  }

  /** `stemma.families.flatMap(...)`, in family order. */
  function RelationPairs(families: seq<Family>, side: Side): seq<(PersonId, seq<PersonId>)>
    decreases |families|
  {
    if families == [] then []
    else RelationPairs(families[..|families| - 1], side) + Listed(families[|families| - 1], side)
  }

  /** `parentToChildren` (side `Parents`) and `childToParents` (side `Children`). */
  function Relation(families: seq<Family>, side: Side): Adjacency {
    LastWins(RelationPairs(families, side))
  }

  lemma ListedEntry(f: Family, side: Side, k: PersonId)
    ensures k in LastWins(Listed(f, side)) <==> k in side.Of(f)
    ensures k in LastWins(Listed(f, side)) ==> LastWins(Listed(f, side))[k] == side.Opposite().Of(f)
  {
    if k in LastWins(Listed(f, side)) {
      LastWinsValue(Listed(f, side), k);
    }
    if k in side.Of(f) {
      var i :| 0 <= i < |side.Of(f)| && side.Of(f)[i] == k;
      assert Listed(f, side)[i].0 == k;
    }
  }

  /** Family `i` is the last one listing `k` on `side`. */
  ghost predicate LastListing(families: seq<Family>, side: Side, k: PersonId, i: int) {
    0 <= i < |families| && k in side.Of(families[i]) &&
    forall j :: i < j < |families| ==> k !in side.Of(families[j])
  }

  /** A person has an entry exactly when some family lists it on `side`. */
  lemma {:induction false} RelationKeys(families: seq<Family>, side: Side, k: PersonId)
    ensures k in Relation(families, side) <==> exists i :: 0 <= i < |families| && k in side.Of(families[i])
    decreases |families|
  {
    if families != [] {
      var n := |families|;
      var init, last := families[..n - 1], families[n - 1];
      LastWinsAppend(RelationPairs(init, side), Listed(last, side), k);
      ListedEntry(last, side, k);
      RelationKeys(init, side, k);
      if i :| 0 <= i < n - 1 && k in side.Of(families[i]) {
        assert init[i] == families[i];
      }
      if i :| 0 <= i < |init| && k in side.Of(init[i]) {
        assert families[i] == init[i];
      }
    }
  }

  /** The entry is the other side of the last family listing the person: earlier families
      are forgotten. */
  lemma {:induction false} RelationLast(families: seq<Family>, side: Side, k: PersonId)
    requires k in Relation(families, side)
    ensures exists i :: LastListing(families, side, k, i) && Relation(families, side)[k] == side.Opposite().Of(families[i])
    decreases |families|
  {
    var n := |families|;
    var init, last := families[..n - 1], families[n - 1];
    assert RelationPairs(families, side) == RelationPairs(init, side) + Listed(last, side);
    LastWinsAppend(RelationPairs(init, side), Listed(last, side), k);
    ListedEntry(last, side, k);
    if k in side.Of(last) {
      assert LastListing(families, side, k, n - 1);
    } else {
      RelationLast(init, side, k);
      var i :| LastListing(init, side, k, i) && Relation(init, side)[k] == side.Opposite().Of(init[i]);
      LastListingExtend(families, side, k, i);
    }
  }

  lemma LastListingExtend(families: seq<Family>, side: Side, k: PersonId, i: int)
    requires |families| > 0 && k !in side.Of(families[|families| - 1])
    requires LastListing(families[..|families| - 1], side, k, i)
    ensures LastListing(families, side, k, i) && families[i] == families[..|families| - 1][i]
  {
    var init := families[..|families| - 1];
    forall j | i < j < |families|
      ensures k !in side.Of(families[j])
    {
      if j < |families| - 1 {
        assert families[j] == init[j];
      }
    }
  }

  /** The family that lists a person last is the one its entry comes from. */
  lemma RelationAt(families: seq<Family>, side: Side, k: PersonId, i: int)
    requires LastListing(families, side, k, i)
    ensures k in Relation(families, side) && Relation(families, side)[k] == side.Opposite().Of(families[i])
  {
    RelationKeys(families, side, k);
    RelationLast(families, side, k);
    var j :| LastListing(families, side, k, j) && Relation(families, side)[k] == side.Opposite().Of(families[j]);
    assert !(i < j) && !(j < i);
  }

  /** Every step the walk takes is an edge of the tree. */
  lemma RelationSteps(families: seq<Family>, side: Side, k: PersonId, m: PersonId)
    requires Step(Relation(families, side), k, m)
    ensures Edge(families, side, k, m)
  {
    RelationLast(families, side, k);
    var i :| LastListing(families, side, k, i) && Relation(families, side)[k] == side.Opposite().Of(families[i]);
    assert families[i] in families;
  }

  lemma AncestorsRanked(s: Stemma, rank: map<PersonId, nat>)
    requires Acyclic(s, rank)
    ensures Ranked(Relation(s.families, Children), rank)
  {
    var succ := Relation(s.families, Children);
    forall k | k in succ
      ensures forall i | 0 <= i < |succ[k]| :: Below(rank, succ[k][i], k)
    {
      forall i | 0 <= i < |succ[k]|
        ensures Below(rank, succ[k][i], k)
      {
        RelationSteps(s.families, Children, k, succ[k][i]);
        EdgeRanked(s, rank, k, succ[k][i]);
      }
    }
  }

  lemma DescendantsRanked(s: Stemma, rank: map<PersonId, nat>)
    requires Acyclic(s, rank)
    ensures Ranked(Relation(s.families, Parents), Flip(rank))
  {
    var succ := Relation(s.families, Parents);
    var flipped := Flip(rank);
    forall k | k in succ
      ensures forall i | 0 <= i < |succ[k]| :: Below(flipped, succ[k][i], k)
    {
      forall i | 0 <= i < |succ[k]|
        ensures Below(flipped, succ[k][i], k)
      {
        RelationSteps(s.families, Parents, k, succ[k][i]);
        EdgeRanked(s, rank, succ[k][i], k);
        FlipOrder(rank, k, succ[k][i]);
      }
    }
  }

  // ---------------------------------------------------------------------------------
  // The walk and what its depth counts.

  /** The number of people a walk from `p` expands (those with an entry). */
  ghost function Spread(succ: Adjacency, rank: map<PersonId, nat>, p: PersonId): nat
    requires Ranked(succ, rank)
    decreases Rk(succ, rank, p), Fanout(succ, p) + 1
  {
    (if p in succ then 1 else 0) + SpreadFrom(succ, rank, p, 0)
  }

  ghost function SpreadFrom(succ: Adjacency, rank: map<PersonId, nat>, p: PersonId, i: nat): nat
    requires Ranked(succ, rank)
    requires i <= Fanout(succ, p)
    decreases Rk(succ, rank, p), Fanout(succ, p) - i
  {
    if i == Fanout(succ, p) then 0
    else Spread(succ, rank, succ[p][i]) + SpreadFrom(succ, rank, p, i + 1)
  }

  /** One level of `Spread` for a person with at most two members. */
  lemma SpreadUnfold(succ: Adjacency, rank: map<PersonId, nat>, p: PersonId)
    requires Ranked(succ, rank)
    ensures p !in succ ==> Spread(succ, rank, p) == 0
    ensures p in succ && |succ[p]| == 1 ==> Spread(succ, rank, p) == 1 + Spread(succ, rank, succ[p][0])
    ensures p in succ && |succ[p]| == 2 ==>
      Spread(succ, rank, p) == 1 + Spread(succ, rank, succ[p][0]) + Spread(succ, rank, succ[p][1])
  {
    if p in succ && |succ[p]| >= 1 {
      assert Spread(succ, rank, p) == 1 + Spread(succ, rank, succ[p][0]) + SpreadFrom(succ, rank, p, 1);
      if |succ[p]| == 2 {
        assert SpreadFrom(succ, rank, p, 1) == Spread(succ, rank, succ[p][1]) + SpreadFrom(succ, rank, p, 2);
      }
    }
  }

  /** `depth` after dequeuing the items of `s`: one per item with an entry. */
  function Expansions(succ: Adjacency, s: seq<Item>): nat {
    if s == [] then 0 else Expansions(succ, s[..|s| - 1]) + (if s[|s| - 1].person in succ then 1 else 0)
  }

  lemma {:induction false} ExpansionsAppend(succ: Adjacency, a: seq<Item>, b: seq<Item>)
    ensures Expansions(succ, a + b) == Expansions(succ, a) + Expansions(succ, b)
    decreases |b|
  {
    if b == [] {
      assert a + b == a;
    } else {
      assert (a + b)[..|a + b| - 1] == a + b[..|b| - 1];
      ExpansionsAppend(succ, a, b[..|b| - 1]);
    }
  }

  lemma {:induction false} TraceSpread(succ: Adjacency, rank: map<PersonId, nat>, p: PersonId, d: nat)
    requires Ranked(succ, rank)
    ensures Expansions(succ, Trace(succ, rank, p, d)) == Spread(succ, rank, p)
    decreases Rk(succ, rank, p), Fanout(succ, p) + 1
  {
    ExpansionsAppend(succ, [Item(p, d)], TraceFrom(succ, rank, p, d, 0));
    assert [Item(p, d)][..0] == [];
    TraceFromSpread(succ, rank, p, d, 0);
  }

  lemma {:induction false} TraceFromSpread(succ: Adjacency, rank: map<PersonId, nat>, p: PersonId, d: nat, i: nat)
    requires Ranked(succ, rank)
    requires i <= Fanout(succ, p)
    ensures Expansions(succ, TraceFrom(succ, rank, p, d, i)) == SpreadFrom(succ, rank, p, i)
    decreases Rk(succ, rank, p), Fanout(succ, p) - i
  {
    if i < Fanout(succ, p) {
      assert Below(rank, succ[p][i], p);
      TraceSpread(succ, rank, succ[p][i], d + 1);
      TraceFromSpread(succ, rank, p, d, i + 1);
      ExpansionsAppend(succ, Trace(succ, rank, succ[p][i], d + 1), TraceFrom(succ, rank, p, d, i + 1));
    }
  }

  /** Counting expansions never undercounts the longest chain: the depth is at least the
      height, and exceeds it as soon as the walk branches into two expanded people. */
  lemma {:induction false} SpreadCoversHeight(succ: Adjacency, rank: map<PersonId, nat>, p: PersonId)
    requires Ranked(succ, rank)
    ensures Height(succ, rank, p) <= Spread(succ, rank, p)
    decreases Rk(succ, rank, p), Fanout(succ, p) + 1
  {
    if p in succ {
      SpreadFromCoversHeight(succ, rank, p, 0);
    }
  }

  lemma {:induction false} SpreadFromCoversHeight(succ: Adjacency, rank: map<PersonId, nat>, p: PersonId, i: nat)
    requires Ranked(succ, rank)
    requires i <= Fanout(succ, p)
    ensures HeightFrom(succ, rank, p, i) <= SpreadFrom(succ, rank, p, i)
    decreases Rk(succ, rank, p), Fanout(succ, p) - i
  {
    if i < Fanout(succ, p) {
      assert Below(rank, succ[p][i], p);
      SpreadCoversHeight(succ, rank, succ[p][i]);
      SpreadFromCoversHeight(succ, rank, p, i + 1);
    }
  }

  /** The people of a queue of work items. */
  function PersonsIn(items: seq<Item>): (r: seq<PersonId>)
    ensures |r| == |items|
    ensures forall i :: 0 <= i < |items| ==> r[i] == items[i].person
  {
    seq(|items|, i requires 0 <= i < |items| => items[i].person)
  }

  /** The queue update `[...nextGen, ...tail]` keeps the people in step with the items. */
  lemma QueuePersons(queue: seq<PersonId>, items: seq<Item>, nextGen: seq<PersonId>, nextItems: seq<Item>)
    requires queue == PersonsIn(items) && |items| > 0
    requires nextGen == PersonsIn(nextItems)
    ensures nextGen + queue[1..] == PersonsIn(nextItems + items[1..])
  {
  }

  lemma SpawnPersons(ps: seq<PersonId>, d: nat)
    ensures PersonsIn(Spawn(ps, d)) == ps
  {
  }

  /** `computeLineage`: the same queue discipline as the index's walk, over bare person
      ids. The ghost `items` pairs each queued person with its depth, which the source does
      not keep. */
  method ComputeLineage(relation: Adjacency, ghost rank: map<PersonId, nat>, personId: PersonId)
    returns (depth: nat, relativies: seq<PersonId>)
    requires Ranked(relation, rank)
    ensures relativies == RevPersons(Trace(relation, rank, personId, 0))
    ensures depth == Expansions(relation, Trace(relation, rank, personId, 0))
    ensures depth == Spread(relation, rank, personId)
    ensures Elems(relativies) == Reach(relation, rank, personId)
  {
    ghost var trace := Trace(relation, rank, personId, 0);
    var toLookUp := [personId];
    ghost var items := [Item(personId, 0)];
    depth, relativies := 0, [];
    ghost var k := 0;
    assert QTrace(relation, rank, items) == trace + QTrace(relation, rank, []);
    while |toLookUp| > 0
      invariant k <= |trace|
      invariant toLookUp == PersonsIn(items)
      invariant QTrace(relation, rank, items) == trace[k..]
      invariant relativies == RevPersons(trace[..k])
      invariant depth == Expansions(relation, trace[..k])
      decreases |trace| - k
    {
      var head, tail := toLookUp[0], toLookUp[1..];
      var nextGen := [];
      ghost var nextItems := [];
      if head in relation {
        depth := depth + 1;
        nextGen := relation[head];
        nextItems := Spawn(relation[head], items[0].depth + 1);
        SpawnPersons(relation[head], items[0].depth + 1);
      }
      QueueStep(relation, rank, items, nextItems);
      PrefixStep(relation, map[], trace, k);
      assert trace[..k + 1][..k] == trace[..k];
      assert trace[k + 1..] == trace[k..][1..];
      QueuePersons(toLookUp, items, nextGen, nextItems);
      toLookUp := nextGen + tail;
      items := nextItems + items[1..];
      relativies := [head] + relativies;
      k := k + 1;
    }
    assert trace[..k] == trace;
    TraceSpread(relation, rank, personId, 0);
    RevPersonsElems(trace);
    TraceReach(relation, rank, personId, 0);
  }

  // ---------------------------------------------------------------------------------
  // Lineages.

  /** The prototype's lineage record: no families. */
  datatype Record = Record(generation: nat, relativies: set<PersonId>)

  /** The generation as written: every expansion of the ancestor walk counts. */
  ghost function WrittenGeneration(s: Stemma, rank: map<PersonId, nat>, p: PersonId): nat
    requires Acyclic(s, rank)
  {
    AncestorsRanked(s, rank);
    Spread(Relation(s.families, Children), rank, p)
  }

  /** The generation as the tests describe it: the longest chain of ancestors. */
  ghost function IntendedGeneration(s: Stemma, rank: map<PersonId, nat>, p: PersonId): nat
    requires Acyclic(s, rank)
  {
    AncestorsRanked(s, rank);
    Height(Relation(s.families, Children), rank, p)
  }

  ghost function Kinfolk(s: Stemma, rank: map<PersonId, nat>, p: PersonId): set<PersonId>
    requires Acyclic(s, rank)
  {
    AncestorsRanked(s, rank);
    DescendantsRanked(s, rank);
    Reach(Relation(s.families, Children), rank, p) + Reach(Relation(s.families, Parents), Flip(rank), p)
  }

  /** `lineage(p)` as written. */
  method Lineage(s: Stemma, ghost rank: map<PersonId, nat>, id: PersonId) returns (r: Record)
    requires Acyclic(s, rank)
    ensures r == Record(WrittenGeneration(s, rank, id), Kinfolk(s, rank, id))
  {
    AncestorsRanked(s, rank);
    DescendantsRanked(s, rank);
    var _, dependees := ComputeLineage(Relation(s.families, Parents), Flip(rank), id);
    var generation, ancestors := ComputeLineage(Relation(s.families, Children), rank, id);
    ElemsAppend(ancestors, dependees);
    r := Record(generation, Elems(ancestors + dependees));
  }

  /** `lineages()`: one record per person id. */
  method Lineages(s: Stemma, ghost rank: map<PersonId, nat>) returns (m: map<PersonId, Record>)
    requires Acyclic(s, rank)
    ensures m.Keys == PersonIds(s)
    ensures forall id | id in m :: m[id] == Record(WrittenGeneration(s, rank, id), Kinfolk(s, rank, id))
  {
    m := map[];
    var i := 0;
    while i < |s.people|
      invariant i <= |s.people|
      invariant m.Keys == set p | p in s.people[..i] :: p.id
      invariant forall id | id in m :: m[id] == Record(WrittenGeneration(s, rank, id), Kinfolk(s, rank, id))
    {
      var p := s.people[i];
      var r := Lineage(s, rank, p.id);
      m := m[p.id := r];
      assert s.people[..i + 1] == s.people[..i] + [p];
      i := i + 1;
    }
    assert s.people[..i] == s.people;
  }

  /** `lineage(p)` with the depth taken as the deepest expansion, as the index does. */
  method CorrectedLineage(s: Stemma, ghost rank: map<PersonId, nat>, id: PersonId) returns (r: Record)
    requires Acyclic(s, rank)
    ensures r == Record(IntendedGeneration(s, rank, id), Kinfolk(s, rank, id))
  {
    AncestorsRanked(s, rank);
    DescendantsRanked(s, rank);
    var ctp := Relation(s.families, Children);
    var _, dependees := ComputeLineage(Relation(s.families, Parents), Flip(rank), id);
    var generation, ancestors, _ := Explore(ctp, map k | k in ctp :: [], rank, id);
    ElemsAppend(ancestors, dependees);
    r := Record(generation, Elems(ancestors + dependees));
  }

  /** The written generation is never below the intended one. */
  lemma WrittenCoversIntended(s: Stemma, rank: map<PersonId, nat>, p: PersonId)
    requires Acyclic(s, rank)
    ensures IntendedGeneration(s, rank, p) <= WrittenGeneration(s, rank, p)
  {
    AncestorsRanked(s, rank);
    SpreadCoversHeight(Relation(s.families, Children), rank, p);
  }

  /** The intended generation is the longest chain of ancestors the relation keeps: zero
      without an entry, above every listed parent's, and one more than the highest. */
  lemma IntendedIsLongestChain(s: Stemma, rank: map<PersonId, nat>, p: PersonId)
    requires Acyclic(s, rank)
    ensures IntendedGeneration(s, rank, p) >= 1 <==> IsChild(s, p)
    ensures forall q | Step(Relation(s.families, Children), p, q) ::
      IntendedGeneration(s, rank, q) < IntendedGeneration(s, rank, p)
    ensures IntendedGeneration(s, rank, p) <= 1 ||
      exists q :: (Step(Relation(s.families, Children), p, q) &&
                   IntendedGeneration(s, rank, p) == IntendedGeneration(s, rank, q) + 1)
  {
    AncestorsRanked(s, rank);
    var succ := Relation(s.families, Children);
    HeightVia(succ, rank, p);
    RelationKeys(s.families, Children, p);
    if IsChild(s, p) {
      var f :| f in s.families && p in f.children;
      var i :| 0 <= i < |s.families| && s.families[i] == f;
    }
    forall q | Step(succ, p, q)
      ensures IntendedGeneration(s, rank, q) < IntendedGeneration(s, rank, p)
    {
    }
    if Height(succ, rank, p) > 1 {
      var q :| p in succ && q in succ[p] && Height(succ, rank, p) == Height(succ, rank, q) + 1;
      assert Step(succ, p, q);
    }
  }
}

=== FILE: selection.dfy ===
/** Which people and families the chart marks as selected: a small algebra of selectors
    over the client index. */
module Selection {
  import opened Seqs
  import opened Model
  import ClientIndex

  datatype Selector =
    | NoOp
    | Compose(left: Selector, right: Selector)
    | Simple(peopleIds: set<PersonId>, familyIds: set<FamilyId>)
    | LineageSelection(generation: Generation)

  predicate PersonIsSelected(c: Selector, id: PersonId) {
    match c
    case NoOp => false
    case Compose(l, r) => PersonIsSelected(l, id) || PersonIsSelected(r, id)
    case Simple(people, _) => id in people
    case LineageSelection(g) => id in g.relativies
  }

  predicate FamilyIsSelected(c: Selector, id: FamilyId) {
    match c
    case NoOp => false
    case Compose(l, r) => FamilyIsSelected(l, id) || FamilyIsSelected(r, id)
    case Simple(_, families) => id in families
    case LineageSelection(g) => id in g.families
  }

  /** `connected`: the no-op selector answers no outright; every other selector asks both
      queries. */
  function Connected(c: Selector, personId: PersonId, familyId: FamilyId): (r: bool)
    ensures r <==> PersonIsSelected(c, personId) && FamilyIsSelected(c, familyId)
  {
    match c
    case NoOp => false
    case _ => PersonIsSelected(c, personId) && FamilyIsSelected(c, familyId)
  }

  /** `composeAllSelectionControllers`: a left fold of `compose` from the no-op. */
  function ComposeAll(cs: seq<Selector>): Selector {
    if |cs| == 0 then NoOp else Compose(ComposeAll(cs[..|cs| - 1]), cs[|cs| - 1])
  }

  /** `SimpleSelectionController`. */
  function SimpleOf(peopleIds: seq<PersonId>, familyIds: seq<FamilyId>): (c: Selector)
    ensures forall id :: PersonIsSelected(c, id) <==> id in peopleIds
    ensures forall id :: FamilyIsSelected(c, id) <==> id in familyIds
  {
    Simple(Elems(peopleIds), Elems(familyIds))
  }

  /** `LineageSelectionController`: the lineage the index holds for the person. */
  function LineageSelector(idx: ClientIndex.Index, personId: PersonId): (c: Selector)
    ensures forall id :: PersonIsSelected(c, id) <==> id in ClientIndex.Lineage(idx, personId).relativies
    ensures forall id :: FamilyIsSelected(c, id) <==> id in ClientIndex.Lineage(idx, personId).families
  {
    LineageSelection(ClientIndex.Lineage(idx, personId))
  }

  // ---------------------------------------------------------------------------------
  // Properties.

  /** The no-op selector selects nothing. */
  lemma NoOpSelectsNothing(p: PersonId, f: FamilyId)
    ensures !PersonIsSelected(NoOp, p) && !FamilyIsSelected(NoOp, f) && !Connected(NoOp, p, f)
  {
  }

  /** A composition selects what either side selects. */
  lemma ComposeIsOr(l: Selector, r: Selector, p: PersonId, f: FamilyId)
    ensures PersonIsSelected(Compose(l, r), p) <==> PersonIsSelected(l, p) || PersonIsSelected(r, p)
    ensures FamilyIsSelected(Compose(l, r), f) <==> FamilyIsSelected(l, f) || FamilyIsSelected(r, f)
  {
  }

  /** A composition of many selects a person exactly when one of them does; none selects
      nothing. */
  lemma {:induction false} ComposeAllPeople(cs: seq<Selector>, p: PersonId)
    ensures PersonIsSelected(ComposeAll(cs), p) <==> exists i :: 0 <= i < |cs| && PersonIsSelected(cs[i], p)
  {
    if |cs| > 0 {
      var init := cs[..|cs| - 1];
      ComposeAllPeople(init, p);
      if i :| 0 <= i < |cs| && PersonIsSelected(cs[i], p) {
        if i < |init| {
          assert init[i] == cs[i];
        }
      }
      if i :| 0 <= i < |init| && PersonIsSelected(init[i], p) {
        assert cs[i] == init[i];
      }
    }
  }

  /** The same for families. */
  lemma {:induction false} ComposeAllFamilies(cs: seq<Selector>, f: FamilyId)
    ensures FamilyIsSelected(ComposeAll(cs), f) <==> exists i :: 0 <= i < |cs| && FamilyIsSelected(cs[i], f)
  {
    if |cs| > 0 {
      var init := cs[..|cs| - 1];
      ComposeAllFamilies(init, f);
      if i :| 0 <= i < |cs| && FamilyIsSelected(cs[i], f) {
        if i < |init| {
          assert init[i] == cs[i];
        }
      }
      if i :| 0 <= i < |init| && FamilyIsSelected(init[i], f) {
        assert cs[i] == init[i];
      }
    }
  }

  /** On the index of a tree, the lineage selector selects the person's relatives and
      families, and for an unknown person nothing. */
  lemma LineageSelectorSpec(idx: ClientIndex.Index, s: Stemma, rank: map<PersonId, nat>, personId: PersonId, p: PersonId, f: FamilyId)
    requires ClientIndex.IndexOf(idx, s, rank)
    ensures personId in PersonIds(s) ==>
      && (PersonIsSelected(LineageSelector(idx, personId), p) <==> p in ClientIndex.LineageOf(s, rank, personId).relativies)
      && (FamilyIsSelected(LineageSelector(idx, personId), f) <==> f in ClientIndex.LineageOf(s, rank, personId).families)
    ensures personId !in PersonIds(s) ==>
      !PersonIsSelected(LineageSelector(idx, personId), p) && !FamilyIsSelected(LineageSelector(idx, personId), f)
  {
    ClientIndex.LineageSpec(idx, s, rank, personId);
  }
}

=== FILE: seqs.dfy ===
/** Generic helpers over sequences: the array combinators the repository relies on
    (`filter`, `map`, `flatMap`, `Math.max`, `new Set`). */
module Seqs {

  function Max(a: nat, b: nat): nat {
    if a < b then b else a
  }

  /** The elements of `s`, as a set. */
  function Elems<T>(s: seq<T>): set<T> {
    set x | x in s
  }

  lemma ElemsAppend<T>(a: seq<T>, b: seq<T>)
    ensures Elems(a + b) == Elems(a) + Elems(b)
  {
    assert forall x :: x in a + b <==> x in a || x in b;
  }

  /** `Array.prototype.filter`: the elements satisfying `keep`, in order. */
  function Filter<T>(s: seq<T>, keep: T -> bool): (r: seq<T>)
    ensures |r| <= |s|
    ensures forall i :: 0 <= i < |r| ==> r[i] in s && keep(r[i])
    ensures forall i :: 0 <= i < |s| && keep(s[i]) ==> s[i] in r
    decreases |s|
  {
    if s == [] then [] else (if keep(s[0]) then [s[0]] else []) + Filter(s[1..], keep)
  }

  /** `a` is `b` with some elements left out, the rest in their order. */
  predicate Subsequence<T(==)>(a: seq<T>, b: seq<T>)
    decreases |b|
  {
    if |a| == 0 then true
    else if |b| == 0 then false
    else if a[0] == b[0] then Subsequence(a[1..], b[1..])
    else Subsequence(a, b[1..])
  }

  /** Filtering keeps the survivors in their order ... */
  lemma {:induction false} FilterSubsequence<T>(s: seq<T>, keep: T -> bool)
    ensures Subsequence(Filter(s, keep), s)
    decreases |s|
  {
    if s != [] {
      var rest := Filter(s[1..], keep);
      FilterSubsequence(s[1..], keep);
      if keep(s[0]) {
        assert Filter(s, keep)[1..] == rest;
      } else {
        assert Filter(s, keep) == rest;
        if rest != [] {
          assert keep(rest[0]);
        }
      }
    }
  }

  /** ... and filtering twice by the same test is filtering once. */
  lemma {:induction false} FilterIdempotent<T>(s: seq<T>, keep: T -> bool)
    ensures Filter(Filter(s, keep), keep) == Filter(s, keep)
    decreases |s|
  {
    if s != [] {
      var rest := Filter(s[1..], keep);
      FilterIdempotent(s[1..], keep);
      if keep(s[0]) {
        assert Filter(s, keep) == [s[0]] + rest;
        assert ([s[0]] + rest)[1..] == rest;
      } else {
        assert Filter(s, keep) == rest;
      }
    }
  }

  /** An element survives filtering exactly when it is in the list and passes. */
  lemma FilterMembership<T>(s: seq<T>, keep: T -> bool, x: T)
    ensures x in Filter(s, keep) <==> x in s && keep(x)
  {
    if x in s && keep(x) {
      var i :| 0 <= i < |s| && s[i] == x;
    }
  }

  /** `Array.prototype.map`. */
  function MapSeq<A, B>(s: seq<A>, f: A -> B): (r: seq<B>)
    ensures |r| == |s|
    ensures forall i :: 0 <= i < |s| ==> r[i] == f(s[i])
  {
    seq(|s|, i requires 0 <= i < |s| => f(s[i]))
  }

  lemma MapSeqAppend<A, B>(a: seq<A>, b: seq<A>, f: A -> B)
    ensures MapSeq(a + b, f) == MapSeq(a, f) + MapSeq(b, f)
  {
  }

  lemma MapSeqCons<A, B>(s: seq<A>, f: A -> B)
    requires s != []
    ensures MapSeq(s, f) == [f(s[0])] + MapSeq(s[1..], f)
  {
  }

  /** Filtering and projecting a projected list is filtering and projecting the original. */
  lemma {:induction false} FilterMapFused<A, B, C>(xs: seq<A>, g: A -> B, keep: B -> bool, h: B -> C, keep2: A -> bool, h2: A -> C)
    requires forall i :: 0 <= i < |xs| ==> keep(g(xs[i])) == keep2(xs[i]) && h(g(xs[i])) == h2(xs[i])
    ensures MapSeq(Filter(MapSeq(xs, g), keep), h) == MapSeq(Filter(xs, keep2), h2)
    decreases |xs|
  {
    if xs != [] {
      MapSeqCons(xs, g);
      assert MapSeq(xs, g)[1..] == MapSeq(xs[1..], g);
      FilterMapFused(xs[1..], g, keep, h, keep2, h2);
      var head := if keep2(xs[0]) then [xs[0]] else [];
      MapSeqAppend(head, Filter(xs[1..], keep2), h2);
      var ghead := if keep(g(xs[0])) then [g(xs[0])] else [];
      MapSeqAppend(ghead, Filter(MapSeq(xs[1..], g), keep), h);
    }
  }

  /** `Array.prototype.flatMap`: the concatenation of `f(x)` over `s`. */
  function FlatMap<A, B>(s: seq<A>, f: A -> seq<B>): seq<B>
    decreases |s|
  {
    if s == [] then [] else f(s[0]) + FlatMap(s[1..], f)
  }

  lemma {:induction false} FlatMapMembership<A, B>(s: seq<A>, f: A -> seq<B>, y: B)
    ensures y in FlatMap(s, f) <==> exists x :: x in s && y in f(x)
    decreases |s|
  {
    if s != [] {
      FlatMapMembership(s[1..], f, y);
      assert forall x :: x in s <==> x == s[0] || x in s[1..];
    }
  }

  lemma {:induction false} FlatMapAppend<A, B>(a: seq<A>, b: seq<A>, f: A -> seq<B>)
    ensures FlatMap(a + b, f) == FlatMap(a, f) + FlatMap(b, f)
    decreases |a|
  {
    if a == [] {
      assert a + b == b;
    } else {
      assert (a + b)[0] == a[0];
      assert (a + b)[1..] == a[1..] + b;
      FlatMapAppend(a[1..], b, f);
    }
  }

  /** `other` once for every time `k` occurs in `xs`: what a list of entries keyed by the
      elements of `xs` holds for `k`. */
  function Repeats<T(==), U>(xs: seq<T>, k: T, other: seq<U>): (r: seq<U>)
    ensures |r| == CountIn(xs, {k}) * |other|
    decreases |xs|
  {
    if xs == [] then []
    else
      var rest := Repeats(xs[1..], k, other);
      assert (if xs[0] in {k} then 1 else 0) * |other| + CountIn(xs[1..], {k}) * |other| == CountIn(xs, {k}) * |other|;
      (if xs[0] == k then other else []) + rest
  }

  lemma {:induction false} RepeatsNothing<T, U>(xs: seq<T>, k: T)
    ensures Repeats<T, U>(xs, k, []) == []
    decreases |xs|
  {
    if xs != [] {
      RepeatsNothing<T, U>(xs[1..], k);
    }
  }

  lemma {:induction false} FilterAppend<T>(a: seq<T>, b: seq<T>, keep: T -> bool)
    ensures Filter(a + b, keep) == Filter(a, keep) + Filter(b, keep)
    decreases |a|
  {
    if a == [] {
      assert a + b == b;
    } else {
      assert (a + b)[0] == a[0];
      assert (a + b)[1..] == a[1..] + b;
      FilterAppend(a[1..], b, keep);
    }
  }

  /** Repeating one element and then projecting is repeating its projection. */
  lemma {:induction false} MapSeqRepeats<T, A, B>(xs: seq<T>, k: T, a: A, f: A -> B)
    ensures MapSeq(Repeats(xs, k, [a]), f) == Repeats(xs, k, [f(a)])
    decreases |xs|
  {
    if xs != [] {
      var head := if xs[0] == k then [a] else [];
      MapSeqRepeats(xs[1..], k, a, f);
      MapSeqAppend(head, Repeats(xs[1..], k, [a]), f);
    }
  }

  /** Repeating an element the filter keeps survives the filter. */
  lemma {:induction false} FilterRepeats<T, A>(xs: seq<T>, k: T, a: A, keep: A -> bool)
    requires k in xs ==> keep(a)
    ensures Filter(Repeats(xs, k, [a]), keep) == Repeats(xs, k, [a])
    decreases |xs|
  {
    if xs != [] {
      var head := if xs[0] == k then [a] else [];
      FilterRepeats(xs[1..], k, a, keep);
      FilterAppend(head, Repeats(xs[1..], k, [a]), keep);
      if xs[0] == k {
        assert Filter(head, keep) == [a] + Filter(head[1..], keep);
      }
    }
  }

  /** Repeating one element and then flattening is repeating its image. */
  lemma {:induction false} FlatMapRepeats<T, A, B>(xs: seq<T>, k: T, a: A, f: A -> seq<B>)
    ensures FlatMap(Repeats(xs, k, [a]), f) == Repeats(xs, k, f(a))
    decreases |xs|
  {
    if xs != [] {
      var head := if xs[0] == k then [a] else [];
      FlatMapRepeats(xs[1..], k, a, f);
      FlatMapAppend(head, Repeats(xs[1..], k, [a]), f);
      if xs[0] == k {
        assert FlatMap(head, f) == f(a) + FlatMap(head[1..], f);
      }
    }
  }

  /** The number of elements of `s` that lie in `pool`
      (`members.filter(m => pool.has(m)).length`). */
  function CountIn<T(==)>(s: seq<T>, pool: set<T>): (n: nat)
    ensures n <= |s|
    decreases |s|
  {
    if s == [] then 0 else (if s[0] in pool then 1 else 0) + CountIn(s[1..], pool)
  }

  /** Every element lies in the pool exactly when the count reaches the length. */
  lemma {:induction false} CountInAll<T>(s: seq<T>, pool: set<T>)
    ensures CountIn(s, pool) == |s| <==> forall i :: 0 <= i < |s| ==> s[i] in pool
    decreases |s|
  {
    if s != [] {
      CountInAll(s[1..], pool);
      assert forall i :: 1 <= i < |s| ==> s[i] == s[1..][i - 1];
    }
  }

  /** At least two positions of `s` hold elements of the pool exactly when the count exceeds one. */
  lemma {:induction false} CountInTwo<T>(s: seq<T>, pool: set<T>)
    ensures CountIn(s, pool) > 1 <==> exists i, j :: 0 <= i < j < |s| && s[i] in pool && s[j] in pool
    decreases |s|
  {
    if s != [] {
      CountInTwo(s[1..], pool);
      CountInSome(s[1..], pool);
      if CountIn(s, pool) > 1 {
        if s[0] in pool {
          var j :| 0 <= j < |s[1..]| && s[1..][j] in pool;
          assert s[0] in pool && s[j + 1] in pool;
        } else {
          var i, j :| 0 <= i < j < |s[1..]| && s[1..][i] in pool && s[1..][j] in pool;
          assert s[i + 1] in pool && s[j + 1] in pool;
        }
      }
      if exists i, j :: 0 <= i < j < |s| && s[i] in pool && s[j] in pool {
        var i, j :| 0 <= i < j < |s| && s[i] in pool && s[j] in pool;
        if i == 0 {
          assert s[1..][j - 1] in pool;
        } else {
          assert s[1..][i - 1] in pool && s[1..][j - 1] in pool;
        }
      }
    }
  }

  /** The count is positive exactly when some element lies in the pool. */
  lemma {:induction false} CountInSome<T>(s: seq<T>, pool: set<T>)
    ensures CountIn(s, pool) > 0 <==> exists i :: 0 <= i < |s| && s[i] in pool
    decreases |s|
  {
    if s != [] {
      CountInSome(s[1..], pool);
      if CountIn(s[1..], pool) > 0 {
        var i :| 0 <= i < |s[1..]| && s[1..][i] in pool;
        assert s[i + 1] in pool;
      }
      if exists i :: 0 <= i < |s| && s[i] in pool {
        var i :| 0 <= i < |s| && s[i] in pool;
        if i > 0 {
          assert s[1..][i - 1] in pool;
        }
      }
    }
  }

  /** `[...new Set(s)]`: the first occurrence of every element, in order. */
  function Distinct<T(==)>(s: seq<T>): (r: seq<T>)
    ensures Elems(r) == Elems(s)
    ensures NoDuplicates(r)
    decreases |s|
  {
    if s == [] then []
    else
      var rest := Distinct(s[..|s| - 1]);
      var x := s[|s| - 1];
      assert Elems(s) == Elems(s[..|s| - 1]) + {x} by {
        assert s == s[..|s| - 1] + [x];
      }
      if x in rest then rest else rest + [x]
  }

  ghost predicate NoDuplicates<T>(s: seq<T>) {
    forall i, j :: 0 <= i < j < |s| ==> s[i] != s[j]
  }
}

=== FILE: storage.dfy ===
/** The two per-tree preference stores: the people pinned on a tree, and the tree's view
    settings. The browser's key-value store is a map from keys to the values written under
    them, each value standing for the JSON text the classes write. */
module Storage {
  import opened Wrappers
  import opened Seqs

  /** What can be found under a key: a pinned list (`{items: [...]}`) or settings. */
  datatype Stored<S> = PinnedList(items: seq<string>) | SettingsValue(settings: S)

  type Store<S> = map<string, Stored<S>>

  // ---------------------------------------------------------------------------------
  // Pinned people.

  /** The key a tree's pinned people are kept under. */
  function PinnedKey(stemmaId: string): (k: string)
    ensures |k| == 7 + |stemmaId| && k[..7] == "pinned." && k[7..] == stemmaId
  {
    "pinned." + stemmaId
  }

  /** A loaded `PinnedPeopleStorage`: its key and its pinned ids in insertion order, the
      order a JavaScript `Set` iterates in. */
  datatype Pinned = Pinned(key: string, people: seq<string>)

  /** `load`: the stored items without repeats, or nothing. */
  function LoadPinned<S>(key: string, store: Store<S>): (p: Pinned)
    ensures p.key == key && NoDuplicates(p.people)
    ensures key !in store ==> p.people == []
  {
    if key in store && store[key].PinnedList? then Pinned(key, Distinct(store[key].items))
    else Pinned(key, [])
  }

  /** `save`: the whole set, written under the key. */
  function SavePinned<S>(p: Pinned, store: Store<S>): Store<S> {
    store[p.key := PinnedList(p.people)]
  }

  /** `add`: the set grows by the id (at the end, if new), and is written back. */
  function Add<S>(p: Pinned, store: Store<S>, id: string): (r: (Pinned, Store<S>))
    ensures r.0.key == p.key && r.1 == SavePinned(r.0, store)
  {
    var q := Pinned(p.key, if id in p.people then p.people else p.people + [id]);
    (q, SavePinned(q, store))
  }

  /** `remove`: the set loses the id, and is written back. */
  function Remove<S>(p: Pinned, store: Store<S>, id: string): (r: (Pinned, Store<S>))
    ensures r.0.key == p.key && r.1 == SavePinned(r.0, store)
  {
    var q := Pinned(p.key, Filter(p.people, (x: string) => x != id));
    (q, SavePinned(q, store))
  }

  function AllPinned(p: Pinned): seq<string> {
    p.people
  }

  predicate IsPinned(p: Pinned, id: string) {
    id in p.people
  }

  /** Adding pins the id and leaves every other id as it was. */
  lemma AddPins<S>(p: Pinned, store: Store<S>, id: string, other: string)
    ensures IsPinned(Add(p, store, id).0, id)
    ensures other != id ==> (IsPinned(Add(p, store, id).0, other) <==> IsPinned(p, other))
  {
  }

  /** Removing unpins the id and leaves every other id as it was. */
  lemma RemoveUnpins<S>(p: Pinned, store: Store<S>, id: string, other: string)
    ensures !IsPinned(Remove(p, store, id).0, id)
    ensures other != id ==> (IsPinned(Remove(p, store, id).0, other) <==> IsPinned(p, other))
  {
    var r := Remove(p, store, id).0.people;
    if other != id && other in p.people {
      var i :| 0 <= i < |p.people| && p.people[i] == other;
      assert other in r;
    }
  }

  /** The pinned list never repeats an id. */
  lemma {:induction false} FilterKeepsDistinct(s: seq<string>, id: string)
    requires NoDuplicates(s)
    ensures NoDuplicates(Filter(s, (x: string) => x != id))
    decreases |s|
  {
    if s != [] {
      var keep := (x: string) => x != id;
      var rest := s[1..];
      FilterKeepsDistinct(rest, id);
      assert Filter(s, keep) == (if keep(s[0]) then [s[0]] else []) + Filter(rest, keep);
      assert s[0] !in rest;
      assert s[0] !in Filter(rest, keep);
    }
  }

  lemma OperationsKeepDistinct<S>(p: Pinned, store: Store<S>, id: string)
    requires NoDuplicates(p.people)
    ensures NoDuplicates(AllPinned(Add(p, store, id).0))
    ensures NoDuplicates(AllPinned(Remove(p, store, id).0))
  {
    FilterKeepsDistinct(p.people, id);
  }

  /** A list without repeats is its own `Set`. */
  lemma {:induction false} DistinctOfDistinct(s: seq<string>)
    requires NoDuplicates(s)
    ensures Distinct(s) == s
    decreases |s|
  {
    if s != [] {
      var init := s[..|s| - 1];
      DistinctOfDistinct(init);
      assert s[|s| - 1] !in init;
      assert s == init + [s[|s| - 1]];
    }
  }

  /** What was saved is what a fresh instance loads, order included. */
  lemma PinnedReload<S>(p: Pinned, store: Store<S>)
    requires NoDuplicates(p.people)
    ensures LoadPinned(p.key, SavePinned(p, store)) == p
  {
    DistinctOfDistinct(p.people);
  }

  /** So every add and remove is visible to the next load. */
  lemma AddRemovePersist<S>(p: Pinned, store: Store<S>, id: string)
    requires NoDuplicates(p.people)
    ensures LoadPinned(p.key, Add(p, store, id).1) == Add(p, store, id).0
    ensures LoadPinned(p.key, Remove(p, store, id).1) == Remove(p, store, id).0
  {
    OperationsKeepDistinct(p, store, id);
    PinnedReload(Add(p, store, id).0, store);
    PinnedReload(Remove(p, store, id).0, store);
  }

  // ---------------------------------------------------------------------------------
  // The pinned-people object, before and after `load`.

  /** A `PinnedPeopleStorage`. The constructor sets only the key; the set exists once
      `load` has run. Before that, `add`, `remove`, `allPinned` and `isPinned` reach for
      a missing set and throw a TypeError, which is `None` here. */
  datatype PinnedStorage = Unloaded(key: string) | Loaded(pinned: Pinned)

  function KeyOf(ps: PinnedStorage): string {
    match ps
    case Unloaded(key) => key
    case Loaded(p) => p.key
  }

  /** The constructor. */
  function NewPinned(stemmaId: string): (ps: PinnedStorage)
    ensures ps.Unloaded? && KeyOf(ps) == PinnedKey(stemmaId)
  {
    Unloaded(PinnedKey(stemmaId))
  }

  /** `load`, on a fresh or an already loaded object alike. */
  function Load<S>(ps: PinnedStorage, store: Store<S>): (r: PinnedStorage)
    ensures r.Loaded? && KeyOf(r) == KeyOf(ps) && NoDuplicates(r.pinned.people)
    ensures KeyOf(ps) !in store ==> r.pinned.people == []
  {
    Loaded(LoadPinned(KeyOf(ps), store))
  }

  /** `add`: fails before `load`; afterwards the id is pinned and written back. */
  function AddTo<S>(ps: PinnedStorage, store: Store<S>, id: string): (r: Option<(PinnedStorage, Store<S>)>)
    ensures r.Some? <==> ps.Loaded?
    ensures r.Some? ==> r.value.0.Loaded? && KeyOf(r.value.0) == KeyOf(ps) && IsPinned(r.value.0.pinned, id)
    ensures r.Some? ==> r.value.1 == SavePinned(r.value.0.pinned, store)
  {
    match ps
    case Unloaded(_) => None
    case Loaded(p) =>
      var q := Add(p, store, id);
      Some((Loaded(q.0), q.1))
  }

  /** `remove`: fails before `load`; afterwards the id is unpinned and written back. */
  function RemoveFrom<S>(ps: PinnedStorage, store: Store<S>, id: string): (r: Option<(PinnedStorage, Store<S>)>)
    ensures r.Some? <==> ps.Loaded?
    ensures r.Some? ==> r.value.0.Loaded? && KeyOf(r.value.0) == KeyOf(ps) && !IsPinned(r.value.0.pinned, id)
    ensures r.Some? ==> r.value.1 == SavePinned(r.value.0.pinned, store)
  {
    match ps
    case Unloaded(_) => None
    case Loaded(p) =>
      RemoveUnpins(p, store, id, id);
      var q := Remove(p, store, id);
      Some((Loaded(q.0), q.1))
  }

  /** `allPinned`: fails before `load`. */
  function AllPinnedOf(ps: PinnedStorage): (r: Option<seq<string>>)
    ensures r.Some? <==> ps.Loaded?
  {
    match ps
    case Unloaded(_) => None
    case Loaded(p) => Some(AllPinned(p))
  }

  /** `isPinned`: fails before `load`. */
  function IsPinnedIn(ps: PinnedStorage, id: string): (r: Option<bool>)
    ensures r.Some? <==> ps.Loaded?
  {
    match ps
    case Unloaded(_) => None
    case Loaded(p) => Some(IsPinned(p, id))
  }

  /** `isPinned(id)` answers true exactly when `allPinned()` lists the id. */
  lemma PinnedQueriesAgree(ps: PinnedStorage, id: string)
    ensures AllPinnedOf(ps).Some? <==> IsPinnedIn(ps, id).Some?
    ensures AllPinnedOf(ps).Some? ==> (id in AllPinnedOf(ps).value <==> IsPinnedIn(ps, id).value)
  {
  }

  /** A fresh object answers nothing until it is loaded, and everything afterwards; what
      it then holds is what is stored under its key. */
  lemma LoadRequired<S>(stemmaId: string, store: Store<S>, id: string)
    ensures var ps := NewPinned(stemmaId);
      && AddTo(ps, store, id) == None && RemoveFrom(ps, store, id) == None
      && AllPinnedOf(ps) == None && IsPinnedIn(ps, id) == None
    ensures var ps := Load(NewPinned(stemmaId), store);
      && AddTo(ps, store, id).Some? && RemoveFrom(ps, store, id).Some?
      && AllPinnedOf(ps) == Some(LoadPinned(PinnedKey(stemmaId), store).people)
  {
  }

  /** The first pinned-people test: a fresh instance over an empty store loads nothing. */
  lemma LoadEmptyExample<S>(stemmaId: string)
    ensures var empty: Store<S> := map[];
      var ps := Load(NewPinned(stemmaId), empty);
      AllPinnedOf(ps) == Some([]) && IsPinnedIn(ps, "p1") == Some(false)
  {
  }

  /** The second pinned-people test: load, pin p1 and p2, unpin p1, and a fresh instance
      loads just p2. */
  lemma PinnedExample<S>(stemmaId: string)
    ensures var empty: Store<S> := map[];
      var ps := Load(NewPinned(stemmaId), empty);
      var a := AddTo(ps, empty, "p1");
      && a.Some?
      && (var b := AddTo(a.value.0, a.value.1, "p2");
          && b.Some? && IsPinnedIn(b.value.0, "p1") == Some(true)
          && (var c := RemoveFrom(b.value.0, b.value.1, "p1");
              && c.Some? && IsPinnedIn(c.value.0, "p1") == Some(false)
              && AllPinnedOf(Load(NewPinned(stemmaId), c.value.1)) == Some(["p2"])))
  {
    var empty: Store<S> := map[];
    var p0 := LoadPinned(PinnedKey(stemmaId), empty);
    var a := Add(p0, empty, "p1");
    var b := Add(a.0, a.1, "p2");
    assert b.0.people == ["p1", "p2"];
    var c := Remove(b.0, b.1, "p1");
    assert c.0.people == ["p2"] by {
      var keep := (x: string) => x != "p1";
      assert Filter(b.0.people, keep) == [] + Filter(["p2"], keep) by {
        assert b.0.people[1..] == ["p2"];
      }
      assert Filter(["p2"], keep) == ["p2"] + Filter([], keep) by {
        assert ["p2"][1..] == [];
      }
    }
    AddRemovePersist(b.0, b.1, "p1");
  }

  // ---------------------------------------------------------------------------------
  // Settings.

  /** The key a tree's settings are kept under. */
  function SettingsKey(stemmaId: string): (k: string)
    ensures |k| == 9 + |stemmaId| && k[..9] == "settings-" && k[9..] == stemmaId
  {
    "settings-" + stemmaId
  }

  /** A `SettingsStorage`: its tree id and what `get` returns (`None` before the first
      `load` or `store`). */
  datatype Settings<S> = Settings(stemmaId: string, current: Option<S>)

  function NewSettings<S>(stemmaId: string): Settings<S> {
    Settings(stemmaId, None)
  }

  /** `load`: the stored settings, or the defaults when nothing is stored. */
  function LoadSettings<S>(st: Settings<S>, store: Store<S>, defaults: S): (r: Settings<S>)
    ensures r.stemmaId == st.stemmaId && r.current.Some?
    ensures SettingsKey(st.stemmaId) !in store ==> r.current == Some(defaults)
  {
    var key := SettingsKey(st.stemmaId);
    if key in store && store[key].SettingsValue? then Settings(st.stemmaId, Some(store[key].settings))
    else Settings(st.stemmaId, Some(defaults))
  }

  /** `store`: the settings become current and are written under the key. */
  function StoreSettings<S>(st: Settings<S>, store: Store<S>, s: S): (r: (Settings<S>, Store<S>))
    ensures r.0.stemmaId == st.stemmaId
  {
    (Settings(st.stemmaId, Some(s)), store[SettingsKey(st.stemmaId) := SettingsValue(s)])
  }

  function Get<S>(st: Settings<S>): Option<S> {
    st.current
  }

  /** What is stored is what `get` returns, and what a fresh instance loads. */
  lemma SettingsRoundTrip<S>(st: Settings<S>, store: Store<S>, s: S, defaults: S)
    ensures Get(StoreSettings(st, store, s).0) == Some(s)
    ensures Get(LoadSettings(NewSettings(st.stemmaId), StoreSettings(st, store, s).1, defaults)) == Some(s)
  {
  }

  /** Different trees keep their settings under different keys, so storing one tree's
      settings leaves what another tree loads as it was. */
  lemma SettingsIsolated<S>(st: Settings<S>, store: Store<S>, s: S, otherId: string, defaults: S)
    requires otherId != st.stemmaId
    ensures LoadSettings(NewSettings(otherId), StoreSettings(st, store, s).1, defaults) ==
            LoadSettings(NewSettings(otherId), store, defaults)
  {
    assert SettingsKey(otherId)[9..] != SettingsKey(st.stemmaId)[9..];
  }

  /** Pinned lists and settings never share a key. */
  lemma KeysDisjoint(a: string, b: string)
    ensures PinnedKey(a) != SettingsKey(b)
  {
    assert PinnedKey(a)[0] == 'p' && SettingsKey(b)[0] == 's';
  }

  /** So storing settings leaves every pinned list as it was, and saving a pinned list
      leaves every tree's settings as they were. */
  lemma StoresIndependent<S>(p: Pinned, st: Settings<S>, store: Store<S>, s: S, stemmaId: string, defaults: S)
    requires p.key == PinnedKey(stemmaId)
    ensures LoadPinned(p.key, StoreSettings(st, store, s).1) == LoadPinned(p.key, store)
    ensures LoadSettings(st, SavePinned(p, store), defaults) == LoadSettings(st, store, defaults)
  {
    KeysDisjoint(stemmaId, st.stemmaId);
  }
}

=== FILE: walk.dfy ===
/** The queue-driven walk both versions of the index run twice per person: once along
    `childToParents` (ancestors) and once along `parentToChildren` (descendants).

    The walk sees a relation through two maps with the same keys: `succ`, the members of
    all the entries recorded for a person, concatenated in entry order; and `touched`,
    the family ids the walk records when it expands that person. The queue keeps the
    not-yet-visited work items; the newly generated items go in front of the rest, so the
    visiting order is a depth-first preorder. That preorder is `Trace`, the reference
    definition the loop is proved against. */
module Walk {
  import opened Wrappers
  import opened Seqs
  import opened Model

  type Adjacency = map<PersonId, seq<PersonId>>

  /** Every edge of the relation goes strictly down in `rank`: the relation has no cycle. */
  ghost predicate Ranked(succ: Adjacency, rank: map<PersonId, nat>) {
    forall k | k in succ :: forall i | 0 <= i < |succ[k]| :: Below(rank, succ[k][i], k)
  }

  /** `a` is ranked strictly below `b`. */
  ghost predicate Below(rank: map<PersonId, nat>, a: PersonId, b: PersonId) {
    a in rank && b in rank && rank[a] < rank[b]
  }

  /** The termination measure of a walk started at `p`. */
  ghost function Rk(succ: Adjacency, rank: map<PersonId, nat>, p: PersonId): nat
    requires Ranked(succ, rank)
  {
    if p in rank then rank[p] else 0
  }

  function Fanout(succ: Adjacency, p: PersonId): nat {
    if p in succ then |succ[p]| else 0
  }

  /** A work item of the queue: a person and the depth it was reached at. */
  datatype Item = Item(person: PersonId, depth: nat)

  /** The items a walk from `p` (at depth `d`) dequeues, in order. */
  ghost function Trace(succ: Adjacency, rank: map<PersonId, nat>, p: PersonId, d: nat): seq<Item>
    requires Ranked(succ, rank)
    decreases Rk(succ, rank, p), Fanout(succ, p) + 1
  {
    [Item(p, d)] + TraceFrom(succ, rank, p, d, 0)
  }

  /** The items of the sub-walks of `p`'s members from position `i` on. */
  ghost function TraceFrom(succ: Adjacency, rank: map<PersonId, nat>, p: PersonId, d: nat, i: nat): seq<Item>
    requires Ranked(succ, rank)
    requires i <= Fanout(succ, p)
    decreases Rk(succ, rank, p), Fanout(succ, p) - i
  {
    if i == Fanout(succ, p) then []
    else Trace(succ, rank, succ[p][i], d + 1) + TraceFrom(succ, rank, p, d, i + 1)
  }

  /** The items a whole queue still has to dequeue. */
  ghost function QTrace(succ: Adjacency, rank: map<PersonId, nat>, q: seq<Item>): seq<Item>
    requires Ranked(succ, rank)
    decreases |q|
  {
    if q == [] then [] else Trace(succ, rank, q[0].person, q[0].depth) + QTrace(succ, rank, q[1..])
  }

  /** `members.map(personId => ({ personId, depth }))`. */
  function Spawn(ps: seq<PersonId>, d: nat): (r: seq<Item>)
    ensures |r| == |ps|
    ensures forall i :: 0 <= i < |ps| ==> r[i] == Item(ps[i], d)
  {
    seq(|ps|, i requires 0 <= i < |ps| => Item(ps[i], d))
  }

  /** The depth an item pushes `maxDepth` to: one past its own, if it is expanded. */
  function Expansion(succ: Adjacency, it: Item): nat {
    if it.person in succ then it.depth + 1 else 0
  }

  /** `maxDepth` after dequeuing the items of `s`. */
  function MaxExpansion(succ: Adjacency, s: seq<Item>): nat {
    if s == [] then 0 else Max(MaxExpansion(succ, s[..|s| - 1]), Expansion(succ, s[|s| - 1]))
  }

  /** `foundRelatieves` after dequeuing the items of `s` (each one is prepended). */
  function RevPersons(s: seq<Item>): seq<PersonId> {
    if s == [] then [] else [s[|s| - 1].person] + RevPersons(s[..|s| - 1])
  }

  function TouchedAt(touched: map<PersonId, seq<FamilyId>>, p: PersonId): seq<FamilyId> {
    if p in touched then touched[p] else []
  }

  /** `foundFamilies` after dequeuing the items of `s` (each block is prepended). */
  function RevTouched(touched: map<PersonId, seq<FamilyId>>, s: seq<Item>): seq<FamilyId> {
    if s == [] then [] else TouchedAt(touched, s[|s| - 1].person) + RevTouched(touched, s[..|s| - 1])
  }

  // ---------------------------------------------------------------------------------
  // Reference definitions of what a walk computes.

  /** The start person plus everyone reachable from it along the relation. */
  ghost function Reach(succ: Adjacency, rank: map<PersonId, nat>, p: PersonId): set<PersonId>
    requires Ranked(succ, rank)
    decreases Rk(succ, rank, p), Fanout(succ, p) + 1
  {
    {p} + ReachFrom(succ, rank, p, 0)
  }

  ghost function ReachFrom(succ: Adjacency, rank: map<PersonId, nat>, p: PersonId, i: nat): set<PersonId>
    requires Ranked(succ, rank)
    requires i <= Fanout(succ, p)
    decreases Rk(succ, rank, p), Fanout(succ, p) - i
  {
    if i == Fanout(succ, p) then {}
    else Reach(succ, rank, succ[p][i]) + ReachFrom(succ, rank, p, i + 1)
  }

  /** The length of the longest chain of expansions starting at `p`: 0 when `p` has no
      entry, otherwise one more than the highest of its members. */
  ghost function Height(succ: Adjacency, rank: map<PersonId, nat>, p: PersonId): nat
    requires Ranked(succ, rank)
    decreases Rk(succ, rank, p), Fanout(succ, p) + 1
  {
    if p in succ then 1 + HeightFrom(succ, rank, p, 0) else 0
  }

  ghost function HeightFrom(succ: Adjacency, rank: map<PersonId, nat>, p: PersonId, i: nat): nat
    requires Ranked(succ, rank)
    requires i <= Fanout(succ, p)
    decreases Rk(succ, rank, p), Fanout(succ, p) - i
  {
    if i == Fanout(succ, p) then 0
    else Max(Height(succ, rank, succ[p][i]), HeightFrom(succ, rank, p, i + 1))
  }

  /** The families recorded at the people the walk reaches. */
  ghost function Fams(succ: Adjacency, touched: map<PersonId, seq<FamilyId>>, rank: map<PersonId, nat>, p: PersonId): set<FamilyId>
    requires Ranked(succ, rank)
  {
    set q, f | q in Reach(succ, rank, p) && f in TouchedAt(touched, q) :: f
  }

  // ---------------------------------------------------------------------------------
  // The walk itself.

  /** `computeLineage`: the queue-driven walk from `start`. It returns the maximum depth,
      the visited people and the touched families exactly as the loop accumulates them
      (most recent first), and, as sets, the reachable people, the families recorded at
      them and the longest chain. */
  method Explore(succ: Adjacency, touched: map<PersonId, seq<FamilyId>>, ghost rank: map<PersonId, nat>, start: PersonId)
    returns (maxDepth: nat, found: seq<PersonId>, families: seq<FamilyId>)
    requires Ranked(succ, rank)
    requires touched.Keys == succ.Keys
    ensures found == RevPersons(Trace(succ, rank, start, 0))
    ensures families == RevTouched(touched, Trace(succ, rank, start, 0))
    ensures maxDepth == MaxExpansion(succ, Trace(succ, rank, start, 0))
    ensures Elems(found) == Reach(succ, rank, start)
    ensures Elems(families) == Fams(succ, touched, rank, start)
    ensures maxDepth == Height(succ, rank, start)
  {
    ghost var trace := Trace(succ, rank, start, 0);
    var queue := [Item(start, 0)];
    maxDepth, found, families := 0, [], [];
    ghost var k := 0;
    assert QTrace(succ, rank, queue) == trace + QTrace(succ, rank, []);
    while |queue| > 0
      invariant k <= |trace|
      invariant QTrace(succ, rank, queue) == trace[k..]
      invariant found == RevPersons(trace[..k])
      invariant families == RevTouched(touched, trace[..k])
      invariant maxDepth == MaxExpansion(succ, trace[..k])
      decreases |trace| - k
    {
      var head, tail := queue[0], queue[1..];
      var nextGen := [];
      if head.person in succ {
        var nextDepth := head.depth + 1;
        maxDepth := Max(maxDepth, nextDepth);
        nextGen := Spawn(succ[head.person], nextDepth);
        families := touched[head.person] + families;
      }
      QueueStep(succ, rank, queue, nextGen);
      PrefixStep(succ, touched, trace, k);
      assert trace[k + 1..] == trace[k..][1..];
      queue := nextGen + tail;
      found := [head.person] + found;
      k := k + 1;
    }
    assert trace[..k] == trace;
    TraceSummary(succ, touched, rank, start);
  }

  /** Dequeuing one more item of the trace. */
  lemma PrefixStep(succ: Adjacency, touched: map<PersonId, seq<FamilyId>>, trace: seq<Item>, k: nat)
    requires k < |trace|
    ensures RevPersons(trace[..k + 1]) == [trace[k].person] + RevPersons(trace[..k])
    ensures RevTouched(touched, trace[..k + 1]) == TouchedAt(touched, trace[k].person) + RevTouched(touched, trace[..k])
    ensures MaxExpansion(succ, trace[..k + 1]) == Max(MaxExpansion(succ, trace[..k]), Expansion(succ, trace[k]))
  {
    assert trace[..k + 1][..k] == trace[..k];
  }

  /** Dequeuing the head and pushing its members in front of the tail leaves exactly the
      rest of the trace to do. */
  lemma QueueStep(succ: Adjacency, rank: map<PersonId, nat>, queue: seq<Item>, nextGen: seq<Item>)
    requires Ranked(succ, rank)
    requires |queue| > 0
    requires nextGen == if queue[0].person in succ then Spawn(succ[queue[0].person], queue[0].depth + 1) else []
    ensures QTrace(succ, rank, queue) == [queue[0]] + QTrace(succ, rank, nextGen + queue[1..])
  {
    var head := queue[0];
    assert Item(head.person, head.depth) == head;
    assert QTrace(succ, rank, queue) == [head] + TraceFrom(succ, rank, head.person, head.depth, 0) + QTrace(succ, rank, queue[1..]);
    if head.person in succ {
      TraceFromQueue(succ, rank, head.person, head.depth, 0);
      assert succ[head.person][0..] == succ[head.person];
    }
    assert TraceFrom(succ, rank, head.person, head.depth, 0) == QTrace(succ, rank, nextGen);
    QTraceAppend(succ, rank, nextGen, queue[1..]);
  }

  /** The set-level summary of a whole trace. */
  lemma TraceSummary(succ: Adjacency, touched: map<PersonId, seq<FamilyId>>, rank: map<PersonId, nat>, start: PersonId)
    requires Ranked(succ, rank)
    ensures Elems(RevPersons(Trace(succ, rank, start, 0))) == Reach(succ, rank, start)
    ensures Elems(RevTouched(touched, Trace(succ, rank, start, 0))) == Fams(succ, touched, rank, start)
    ensures MaxExpansion(succ, Trace(succ, rank, start, 0)) == Height(succ, rank, start)
  {
    var trace := Trace(succ, rank, start, 0);
    TraceReach(succ, rank, start, 0);
    RevPersonsElems(trace);
    RevTouchedElems(touched, trace);
    TraceHeight(succ, rank, start, 0);
  }

  // ---------------------------------------------------------------------------------
  // Lemmas linking the trace to the reference definitions.

  lemma {:induction false} QTraceAppend(succ: Adjacency, rank: map<PersonId, nat>, a: seq<Item>, b: seq<Item>)
    requires Ranked(succ, rank)
    ensures QTrace(succ, rank, a + b) == QTrace(succ, rank, a) + QTrace(succ, rank, b)
    decreases |a|
  {
    if a == [] {
      assert a + b == b;
    } else {
      assert (a + b)[0] == a[0];
      assert (a + b)[1..] == a[1..] + b;
      QTraceAppend(succ, rank, a[1..], b);
    }
  }

  /** The sub-walks of `p`'s members are the walks of the items `p` enqueues. */
  lemma {:induction false} TraceFromQueue(succ: Adjacency, rank: map<PersonId, nat>, p: PersonId, d: nat, i: nat)
    requires Ranked(succ, rank)
    requires p in succ && i <= |succ[p]|
    ensures TraceFrom(succ, rank, p, d, i) == QTrace(succ, rank, Spawn(succ[p][i..], d + 1))
    decreases |succ[p]| - i
  {
    var q := Spawn(succ[p][i..], d + 1);
    if i < |succ[p]| {
      TraceFromQueue(succ, rank, p, d, i + 1);
      assert q[0] == Item(succ[p][i], d + 1);
      assert q[1..] == Spawn(succ[p][i + 1..], d + 1);
    }
  }

  ghost function PersonsOf(s: seq<Item>): set<PersonId> {
    set it | it in s :: it.person
  }

  lemma PersonsOfAppend(a: seq<Item>, b: seq<Item>)
    ensures PersonsOf(a + b) == PersonsOf(a) + PersonsOf(b)
  {
    assert forall it :: it in a + b <==> it in a || it in b;
  }

  lemma {:induction false} RevPersonsElems(s: seq<Item>)
    ensures Elems(RevPersons(s)) == PersonsOf(s)
    decreases |s|
  {
    if s != [] {
      var init := s[..|s| - 1];
      RevPersonsElems(init);
      assert s == init + [s[|s| - 1]];
      PersonsOfAppend(init, [s[|s| - 1]]);
    }
  }

  ghost function TouchedOf(touched: map<PersonId, seq<FamilyId>>, s: seq<Item>): set<FamilyId> {
    set q, f | q in PersonsOf(s) && f in TouchedAt(touched, q) :: f
  }

  lemma {:induction false} RevTouchedElems(touched: map<PersonId, seq<FamilyId>>, s: seq<Item>)
    ensures Elems(RevTouched(touched, s)) == TouchedOf(touched, s)
    decreases |s|
  {
    if s != [] {
      var init := s[..|s| - 1];
      var last := s[|s| - 1];
      RevTouchedElems(touched, init);
      assert s == init + [last];
      PersonsOfAppend(init, [last]);
      assert PersonsOf([last]) == {last.person};
      ElemsAppend(TouchedAt(touched, last.person), RevTouched(touched, init));
      assert forall f :: f in TouchedOf(touched, s) <==> f in TouchedOf(touched, init) || f in TouchedAt(touched, last.person) by {
        forall f
          ensures f in TouchedOf(touched, s) <==> f in TouchedOf(touched, init) || f in TouchedAt(touched, last.person)
        {
          if f in TouchedOf(touched, s) {
            var q :| q in PersonsOf(s) && f in TouchedAt(touched, q);
          }
        }
      }
    }
  }

  lemma {:induction false} TraceReach(succ: Adjacency, rank: map<PersonId, nat>, p: PersonId, d: nat)
    requires Ranked(succ, rank)
    ensures PersonsOf(Trace(succ, rank, p, d)) == Reach(succ, rank, p)
    decreases Rk(succ, rank, p), Fanout(succ, p) + 1
  {
    TraceFromReach(succ, rank, p, d, 0);
    PersonsOfAppend([Item(p, d)], TraceFrom(succ, rank, p, d, 0));
    assert PersonsOf([Item(p, d)]) == {p};
  }

  lemma {:induction false} TraceFromReach(succ: Adjacency, rank: map<PersonId, nat>, p: PersonId, d: nat, i: nat)
    requires Ranked(succ, rank)
    requires i <= Fanout(succ, p)
    ensures PersonsOf(TraceFrom(succ, rank, p, d, i)) == ReachFrom(succ, rank, p, i)
    decreases Rk(succ, rank, p), Fanout(succ, p) - i
  {
    if i < Fanout(succ, p) {
      TraceReach(succ, rank, succ[p][i], d + 1);
      TraceFromReach(succ, rank, p, d, i + 1);
      PersonsOfAppend(Trace(succ, rank, succ[p][i], d + 1), TraceFrom(succ, rank, p, d, i + 1));
    }
  }

  lemma {:induction false} MaxExpansionAppend(succ: Adjacency, a: seq<Item>, b: seq<Item>)
    ensures MaxExpansion(succ, a + b) == Max(MaxExpansion(succ, a), MaxExpansion(succ, b))
    decreases |b|
  {
    if b == [] {
      assert a + b == a;
    } else {
      var init := b[..|b| - 1];
      assert (a + b)[..|a + b| - 1] == a + init;
      assert (a + b)[|a + b| - 1] == b[|b| - 1];
      MaxExpansionAppend(succ, a, init);
    }
  }

  lemma {:induction false} TraceHeight(succ: Adjacency, rank: map<PersonId, nat>, p: PersonId, d: nat)
    requires Ranked(succ, rank)
    ensures MaxExpansion(succ, Trace(succ, rank, p, d)) == if p in succ then d + Height(succ, rank, p) else 0
    decreases Rk(succ, rank, p), Fanout(succ, p) + 1
  {
    MaxExpansionAppend(succ, [Item(p, d)], TraceFrom(succ, rank, p, d, 0));
    assert [Item(p, d)][..0] == [];
    if p in succ {
      TraceFromHeight(succ, rank, p, d, 0);
    }
  }

  lemma {:induction false} TraceFromHeight(succ: Adjacency, rank: map<PersonId, nat>, p: PersonId, d: nat, i: nat)
    requires Ranked(succ, rank)
    requires p in succ && i <= |succ[p]|
    ensures Max(d + 1, MaxExpansion(succ, TraceFrom(succ, rank, p, d, i))) == d + 1 + HeightFrom(succ, rank, p, i)
    decreases Rk(succ, rank, p), Fanout(succ, p) - i
  {
    if i < |succ[p]| {
      var m := succ[p][i];
      TraceHeight(succ, rank, m, d + 1);
      TraceFromHeight(succ, rank, p, d, i + 1);
      MaxExpansionAppend(succ, Trace(succ, rank, m, d + 1), TraceFrom(succ, rank, p, d, i + 1));
    }
  }

  // ---------------------------------------------------------------------------------
  // What a walk computes, stated as closure properties.

  lemma {:induction false} ReachFromMembership(succ: Adjacency, rank: map<PersonId, nat>, p: PersonId, i: nat, x: PersonId)
    requires Ranked(succ, rank)
    requires p in succ && i <= |succ[p]|
    ensures x in ReachFrom(succ, rank, p, i) <==> exists j :: i <= j < |succ[p]| && x in Reach(succ, rank, succ[p][j])
    decreases |succ[p]| - i
  {
    if i < |succ[p]| {
      ReachFromMembership(succ, rank, p, i + 1, x);
    }
  }

  /** A person reaches itself and, transitively, everything its members reach, and nothing else. */
  lemma ReachStep(succ: Adjacency, rank: map<PersonId, nat>, p: PersonId, x: PersonId)
    requires Ranked(succ, rank)
    ensures x in Reach(succ, rank, p) <==>
      x == p || (p in succ && exists j :: 0 <= j < |succ[p]| && x in Reach(succ, rank, succ[p][j]))
  {
    if p in succ {
      ReachFromMembership(succ, rank, p, 0, x);
    }
  }

  /** `ReachStep` with the member named rather than indexed. */
  lemma ReachVia(succ: Adjacency, rank: map<PersonId, nat>, p: PersonId, x: PersonId)
    requires Ranked(succ, rank)
    ensures x in Reach(succ, rank, p) <==>
      x == p || exists q :: p in succ && q in succ[p] && x in Reach(succ, rank, q)
  {
    ReachStep(succ, rank, p, x);
    if q :| p in succ && q in succ[p] && x in Reach(succ, rank, q) {
      var j :| 0 <= j < |succ[p]| && succ[p][j] == q;
    }
  }

  lemma {:induction false} HeightFromBounds(succ: Adjacency, rank: map<PersonId, nat>, p: PersonId, i: nat)
    requires Ranked(succ, rank)
    requires p in succ && i <= |succ[p]|
    ensures forall j :: i <= j < |succ[p]| ==> Height(succ, rank, succ[p][j]) <= HeightFrom(succ, rank, p, i)
    ensures HeightFrom(succ, rank, p, i) == 0 ||
      exists j :: i <= j < |succ[p]| && HeightFrom(succ, rank, p, i) == Height(succ, rank, succ[p][j])
    decreases |succ[p]| - i
  {
    if i < |succ[p]| {
      HeightFromBounds(succ, rank, p, i + 1);
    }
  }

  /** The height is the length of the longest chain: 0 without an entry; otherwise above
      every member's height, and exactly one above the highest member (or 1). */
  lemma HeightStep(succ: Adjacency, rank: map<PersonId, nat>, p: PersonId)
    requires Ranked(succ, rank)
    ensures p !in succ ==> Height(succ, rank, p) == 0
    ensures p in succ ==> (Height(succ, rank, p) >= 1 &&
      (forall j :: 0 <= j < |succ[p]| ==> Height(succ, rank, succ[p][j]) < Height(succ, rank, p)) &&
      (Height(succ, rank, p) == 1 ||
       exists j :: 0 <= j < |succ[p]| && Height(succ, rank, p) == Height(succ, rank, succ[p][j]) + 1))
  {
    if p in succ {
      HeightFromBounds(succ, rank, p, 0);
    }
  }

  /** `HeightStep` with the members named rather than indexed. */
  lemma HeightVia(succ: Adjacency, rank: map<PersonId, nat>, p: PersonId)
    requires Ranked(succ, rank)
    ensures Height(succ, rank, p) >= 1 <==> p in succ
    ensures forall q | p in succ && q in succ[p] :: Height(succ, rank, q) < Height(succ, rank, p)
    ensures Height(succ, rank, p) <= 1 ||
      exists q :: p in succ && q in succ[p] && Height(succ, rank, p) == Height(succ, rank, q) + 1
  {
    HeightStep(succ, rank, p);
    if Height(succ, rank, p) > 1 {
      var j :| 0 <= j < |succ[p]| && Height(succ, rank, p) == Height(succ, rank, succ[p][j]) + 1;
      assert succ[p][j] in succ[p];
    }
  }

  /** One level of `Height` for a person with at most two members. */
  lemma HeightUnfold(succ: Adjacency, rank: map<PersonId, nat>, p: PersonId)
    requires Ranked(succ, rank)
    ensures p !in succ ==> Height(succ, rank, p) == 0
    ensures p in succ && |succ[p]| == 1 ==> Height(succ, rank, p) == 1 + Height(succ, rank, succ[p][0])
    ensures p in succ && |succ[p]| == 2 ==>
      Height(succ, rank, p) == 1 + Max(Height(succ, rank, succ[p][0]), Height(succ, rank, succ[p][1]))
  {
    if p in succ && |succ[p]| >= 1 {
      assert Height(succ, rank, p) == 1 + Max(Height(succ, rank, succ[p][0]), HeightFrom(succ, rank, p, 1));
      if |succ[p]| == 2 {
        assert HeightFrom(succ, rank, p, 1) == Max(Height(succ, rank, succ[p][1]), HeightFrom(succ, rank, p, 2));
      }
    }
  }

  /** The people reached from a person with no entry, one member or two. */
  lemma ReachUnfold(succ: Adjacency, rank: map<PersonId, nat>, p: PersonId)
    requires Ranked(succ, rank)
    ensures p !in succ ==> Reach(succ, rank, p) == {p}
    ensures p in succ && |succ[p]| == 1 ==> Reach(succ, rank, p) == {p} + Reach(succ, rank, succ[p][0])
    ensures p in succ && |succ[p]| == 2 ==>
      Reach(succ, rank, p) == {p} + Reach(succ, rank, succ[p][0]) + Reach(succ, rank, succ[p][1])
  {
    forall x ensures x in Reach(succ, rank, p) <==>
      x == p || (p in succ && exists i :: 0 <= i < |succ[p]| && x in Reach(succ, rank, succ[p][i]))
    {
      ReachVia(succ, rank, p, x);
      if p in succ && exists i :: 0 <= i < |succ[p]| && x in Reach(succ, rank, succ[p][i]) {
        var i :| 0 <= i < |succ[p]| && x in Reach(succ, rank, succ[p][i]);
        assert succ[p][i] in succ[p];
      }
    }
  }

  /** A family is recorded by the walk exactly when it is recorded at a reached person. */
  lemma FamsMembership(succ: Adjacency, touched: map<PersonId, seq<FamilyId>>, rank: map<PersonId, nat>, p: PersonId, f: FamilyId)
    requires Ranked(succ, rank)
    ensures f in Fams(succ, touched, rank, p) <==>
      exists q :: q in Reach(succ, rank, p) && q in touched && f in touched[q]
  {
    if f in Fams(succ, touched, rank, p) {
      var q :| q in Reach(succ, rank, p) && f in TouchedAt(touched, q);
      assert q in touched && f in touched[q];
    }
    if exists q :: q in Reach(succ, rank, p) && q in touched && f in touched[q] {
      var q :| q in Reach(succ, rank, p) && q in touched && f in touched[q];
      assert f in TouchedAt(touched, q);
    }
  }

  /** The walk can move from `k` to `m`. */
  ghost predicate Step(succ: Adjacency, k: PersonId, m: PersonId) {
    k in succ && m in succ[k]
  }

  lemma StepBelow(succ: Adjacency, rank: map<PersonId, nat>, k: PersonId, m: PersonId)
    requires Ranked(succ, rank)
    requires Step(succ, k, m)
    ensures Below(rank, m, k)
  {
    var i :| 0 <= i < |succ[k]| && succ[k][i] == m;
  }

  /** Two relations with the same steps reach the same people, however their entries are
      grouped. */
  lemma {:induction false} ReachSameSteps(succ1: Adjacency, succ2: Adjacency, rank: map<PersonId, nat>, p: PersonId)
    requires Ranked(succ1, rank) && Ranked(succ2, rank)
    requires forall k, m :: Step(succ1, k, m) <==> Step(succ2, k, m)
    ensures Reach(succ1, rank, p) == Reach(succ2, rank, p)
    decreases Rk(succ1, rank, p)
  {
    forall q | Step(succ1, p, q)
      ensures Reach(succ1, rank, q) == Reach(succ2, rank, q)
    {
      StepBelow(succ1, rank, p, q);
      ReachSameSteps(succ1, succ2, rank, q);
    }
    forall x
      ensures x in Reach(succ1, rank, p) <==> x in Reach(succ2, rank, p)
    {
      ReachVia(succ1, rank, p, x);
      ReachVia(succ2, rank, p, x);
      if q :| p in succ1 && q in succ1[p] && x in Reach(succ1, rank, q) {
        assert Step(succ1, p, q);
      }
      if q :| p in succ2 && q in succ2[p] && x in Reach(succ2, rank, q) {
        assert Step(succ2, p, q);
      }
    }
  }

  /** Walks over the same people that record the same families at each of them record the
      same families. */
  lemma FamsSameTouched(succ1: Adjacency, touched1: map<PersonId, seq<FamilyId>>,
                        succ2: Adjacency, touched2: map<PersonId, seq<FamilyId>>,
                        rank: map<PersonId, nat>, p: PersonId)
    requires Ranked(succ1, rank) && Ranked(succ2, rank)
    requires Reach(succ1, rank, p) == Reach(succ2, rank, p)
    requires forall q, f :: f in TouchedAt(touched1, q) <==> f in TouchedAt(touched2, q)
    ensures Fams(succ1, touched1, rank, p) == Fams(succ2, touched2, rank, p)
  {
  }

  /** When no entry is empty, every expansion climbs at least one rank, so the height
      never exceeds the rank. */
  lemma {:induction false} HeightWithinRank(succ: Adjacency, rank: map<PersonId, nat>, p: PersonId)
    requires Ranked(succ, rank)
    requires forall k | k in succ :: |succ[k]| > 0
    ensures Height(succ, rank, p) <= Rk(succ, rank, p)
    decreases Rk(succ, rank, p)
  {
    if p in succ {
      HeightStep(succ, rank, p);
      if Height(succ, rank, p) == 1 {
        assert Below(rank, succ[p][0], p);
      } else {
        var j :| 0 <= j < |succ[p]| && Height(succ, rank, p) == Height(succ, rank, succ[p][j]) + 1;
        assert Below(rank, succ[p][j], p);
        HeightWithinRank(succ, rank, succ[p][j]);
      }
    }
  }

  // ---------------------------------------------------------------------------------
  // `buildLineage` and the per-person loop of the constructor.

  /** What `buildLineage` promises: the generation is the ancestor walk's depth only;
      relatives and families are the unions of both walks. */
  ghost function Combined(anc: Adjacency, ancTouched: map<PersonId, seq<FamilyId>>, ancRank: map<PersonId, nat>,
                          desc: Adjacency, descTouched: map<PersonId, seq<FamilyId>>, descRank: map<PersonId, nat>,
                          id: PersonId): Generation
    requires Ranked(anc, ancRank) && Ranked(desc, descRank)
  {
    Generation(Height(anc, ancRank, id),
               Reach(anc, ancRank, id) + Reach(desc, descRank, id),
               Fams(anc, ancTouched, ancRank, id) + Fams(desc, descTouched, descRank, id))
  }

  /** `buildLineage`: one walk towards descendants, one towards ancestors. */
  method BuildLineage(anc: Adjacency, ancTouched: map<PersonId, seq<FamilyId>>, ghost ancRank: map<PersonId, nat>,
                      desc: Adjacency, descTouched: map<PersonId, seq<FamilyId>>, ghost descRank: map<PersonId, nat>,
                      id: PersonId)
    returns (g: Generation)
    requires Ranked(anc, ancRank) && ancTouched.Keys == anc.Keys
    requires Ranked(desc, descRank) && descTouched.Keys == desc.Keys
    ensures g == Combined(anc, ancTouched, ancRank, desc, descTouched, descRank, id)
    ensures id in g.relativies
  {
    var dDepth, dFound, dFamilies := Explore(desc, descTouched, descRank, id);
    var aDepth, aFound, aFamilies := Explore(anc, ancTouched, ancRank, id);
    ElemsAppend(aFound, dFound);
    ElemsAppend(aFamilies, dFamilies);
    g := Generation(aDepth, Elems(aFound + dFound), Elems(aFamilies + dFamilies));
  }

  /** `Math.max(...xs)` over naturals; `None` stands for `Math.max()` = -Infinity. */
  function MaxOf(xs: seq<nat>): (r: Option<nat>)
    ensures r == None <==> xs == []
    ensures r.Some? ==> r.value in xs && forall i :: 0 <= i < |xs| ==> xs[i] <= r.value
  {
    if xs == [] then None
    else
      var rest := MaxOf(xs[..|xs| - 1]);
      var x := xs[|xs| - 1];
      assert xs == xs[..|xs| - 1] + [x];
      if rest == None then Some(x) else Some(Max(rest.value, x))
  }

  /** The constructor's `_lineage` map and `_maxGeneration`: one lineage per person id
      (later people overwrite earlier ones with the same id, which yields the same record)
      and the maximum generation, or -Infinity for an empty tree. */
  method BuildLineages(people: seq<Person>,
                       anc: Adjacency, ancTouched: map<PersonId, seq<FamilyId>>, ghost ancRank: map<PersonId, nat>,
                       desc: Adjacency, descTouched: map<PersonId, seq<FamilyId>>, ghost descRank: map<PersonId, nat>)
    returns (lineage: map<PersonId, Generation>, maxGeneration: Option<nat>)
    requires Ranked(anc, ancRank) && ancTouched.Keys == anc.Keys
    requires Ranked(desc, descRank) && descTouched.Keys == desc.Keys
    ensures lineage.Keys == set p | p in people :: p.id
    ensures forall id | id in lineage :: lineage[id] == Combined(anc, ancTouched, ancRank, desc, descTouched, descRank, id)
    ensures maxGeneration == None <==> people == []
    ensures maxGeneration.Some? ==>
      (exists p :: p in people && lineage[p.id].generation == maxGeneration.value) &&
      (forall p | p in people :: lineage[p.id].generation <= maxGeneration.value)
  {
    lineage := map[];
    var i := 0;
    while i < |people|
      invariant i <= |people|
      invariant lineage.Keys == set p | p in people[..i] :: p.id
      invariant forall id | id in lineage :: lineage[id] == Combined(anc, ancTouched, ancRank, desc, descTouched, descRank, id)
    {
      var p := people[i];
      var g := BuildLineage(anc, ancTouched, ancRank, desc, descTouched, descRank, p.id);
      lineage := lineage[p.id := g];
      assert people[..i + 1] == people[..i] + [p];
      i := i + 1;
    }
    assert people[..i] == people;
    var generations := seq(|people|, j requires 0 <= j < |people| => lineage[people[j].id].generation);
    maxGeneration := MaxOf(generations);
    if maxGeneration.Some? {
      var j :| 0 <= j < |generations| && generations[j] == maxGeneration.value;
      assert people[j] in people;
      forall p | p in people
        ensures lineage[p.id].generation <= maxGeneration.value
      {
        var j :| 0 <= j < |people| && people[j] == p;
        assert generations[j] <= maxGeneration.value;
      }
    }
  }
}

=== FILE: wrappers.dfy ===
/** Optional values: `None` stands for JavaScript's `undefined` (or a missing entry). */
module Wrappers {

  datatype Option<+T> = None | Some(value: T) {

    /** Returns the wrapped value, or `default` when there is none. */
    function GetOr(default: T): T {
      match this
      case Some(v) => v
      case None => default
    }
  }
}
